=== FILE: README.md ===
# llm-client-openrouter: a Dafny model of the chat client's logic

The system is a browser chat client for the OpenRouter API. Most of it is React markup. Underneath
it sits a layer of sequential logic, and this project models that layer:

- **The streaming pipeline.**
  - The line decoder of `streamChat` turns the body of a streamed chat completion into text deltas.
  - The store's `sendMessage` opens a stream, accumulates the response, commits it and names the
    conversation.
  - The `StreamingManager` accumulator holds an in-flight response with its mirror refs and its
    subscribers.
  - The render-side rules show a response while it streams (`displayMessages`, the loading
    indicator, `simpleMarkdownToHtml`).
- **The conversation store.** Create, update, delete, append, the system prompt built from the user
  profile, model selection, stop and import.
- **The smaller helpers.**
  - URL routing (`useUrlSync`).
  - File classification (`fileExtractor`) and image validation (`imageUtils`).
  - Accent-colour arithmetic and the theme cycle.
  - Preview truncation.
  - The rules embedded in the components: the model catalogue's filter and ordering, conversation
    search, inline renaming, the two-click project delete, and editing a project's context files.

## How it is modelled

There is one module per source file, plus three helper modules:

- `Wrappers` holds `Option` and `Result`.
- `Text` holds trimming, splitting, joining, ASCII case folding and number spelling.
- `Seqs` holds the order-preserving filter and the deduplication by key.

Code whose methods update state in place is a `class` whose methods reassign its fields. This covers
`StreamingManager`, the zustand store, and the component state of `ChatInput`, `ConversationItem`,
`ProjectSelectorModal` and `ProjectModal`. Each such method states the whole new state in its
`ensures`. Class invariants (`Valid()`) tie the refs to the fields and the abort controller to the
streaming flag.

Pure expressions are functions, and the properties relating several calls are lemmas.

Everything outside the program is a parameter:

- the network, as the outcome of a response;
- `JSON.parse`, as a function parameter;
- the PDF and text readers, as their outcomes;
- uuids and timestamps, as fresh values;
- image decoding and canvas re-encoding, as their outcomes.

Store actions that the components call but `useStore.js` does not define are returned as `Effect`
values: `createProject`, `updateProject`, `deleteProject`, `setConversationProject` and the
favourites list.

`sendMessage` is asynchronous in the source. In the model it is a state machine driven by the events
of one exchange:

- `SendMessage` runs up to the opening of the stream.
- `ReceiveChunk` is one turn of the `for await` loop.
- `FinishStream` is a normal end; `FailStream` is an error or an abort.
- `RunSend` drives a whole exchange.

Three behaviours of the code are easy to miss:

- `startStreaming` silently discards a running session instead of refusing it.
- The store accumulates the response itself and does not call the streaming manager.
- The only guard against a second send while streaming is in the chat input.

## Model

| member | source | states |
|---|---|---|
| Streaming.Ref.constructor | src/store/streamingManager.js:28-32 | a ref starts holding the given value |
| Streaming.Without | src/store/streamingManager.js:37-38 | deleting a subscriber keeps every other subscriber, in insertion order, and drops exactly that one |
| Streaming.Deliveries | src/store/streamingManager.js:42-44 | `notify` makes one call per subscriber, in subscription order, each with the notified event |
| Streaming.HookReplaySnoc | src/store/streamingManager.js:167-174 | the hook's state after one more event is one more step of its event handler |
| Streaming.HookStreamingIff | src/store/streamingManager.js:161-183 | `useStreamingState` reports streaming exactly when the last `start` was not followed by `end` or `reset`, and then reports that start's conversation id |
| Streaming.StreamingManager.constructor | src/store/streamingManager.js:16-33 | a new manager has empty buffers, refs equal to them, no conversation, no subscribers, and is not streaming |
| Streaming.StreamingManager.Subscribe | src/store/streamingManager.js:36-39 | the callback is added once (a `Set`); nothing else changes |
| Streaming.StreamingManager.Unsubscribe | src/store/streamingManager.js:38 | the returned unsubscribe function removes exactly that callback and keeps the others in order |
| Streaming.StreamingManager.Notify | src/store/streamingManager.js:42-44 | every current subscriber receives the event once, in subscription order, and the `useStreamingState` hook takes one step on it |
| Streaming.StreamingManager.ClearBuffers | src/store/streamingManager.js:48-59 | the four buffers and their refs become empty; nothing else changes |
| Streaming.StreamingManager.StartStreaming | src/store/streamingManager.js:47-62 | empties all buffers and refs, marks streaming for the id and emits `start`, even when a session is already running |
| Streaming.StreamingManager.AddContent | src/store/streamingManager.js:65-70 | a truthy chunk is appended to the content and its ref; an empty or missing chunk changes nothing |
| Streaming.StreamingManager.AddReasoning | src/store/streamingManager.js:73-78 | the same as AddContent, for the reasoning buffer |
| Streaming.StreamingManager.AddImage | src/store/streamingManager.js:81-86 | an image whose url is new is appended and every image joins the offered history, so images stay the first-seen, url-unique selection of it; no event is emitted |
| Streaming.StreamingManager.AddCitation | src/store/streamingManager.js:89-96 | a citation whose url is new is appended and a `citations` event is emitted with the new list; a duplicate changes nothing and emits nothing |
| Seqs.InsertKeepsUnique | src/store/streamingManager.js:82-84 | offering an element to a url-unique list keeps it url-unique |
| Seqs.DedupSpec | src/store/streamingManager.js:81-96 | the images (citations) kept from the offered history have unique urls, are offered ones, and cover every url offered |
| Seqs.DedupSnoc | src/store/streamingManager.js:81-96 | each `addImage`/`addCitation` is one more offering step of the history |
| Seqs.DedupRedelivery | src/store/streamingManager.js:81-96 | offering again elements whose urls were already offered changes nothing |
| Seqs.DedupTwice | src/store/streamingManager.js:81-96 | offering the same elements twice keeps the same list as offering them once |
| Seqs.DedupFirstSeen | src/store/streamingManager.js:81-96 | every kept element is the first offered element carrying its url |
| Streaming.StreamingManager.EndStreaming | src/store/streamingManager.js:99-113 | clears the streaming flag, emits `end`, and returns the current buffers and conversation id, leaving the buffers untouched |
| Streaming.StreamingManager.GetState | src/store/streamingManager.js:116-125 | the snapshot is what the refs show, with the flag and conversation id as they stand (the ended conversation after `endStreaming`, none after `reset`); a stream runs exactly when the last `start` in the event history was not followed by `end` or `reset`, and then for that start's conversation |
| Streaming.StreamingManager.Reset | src/store/streamingManager.js:138-152 | empties all buffers and refs, forgets the conversation, clears the flag and emits `reset` |
| Streaming.EndToEndScenario | src/store/streamingManager.js:47-113 | a session fed "Hel", reasoning "thinking", "lo", a citation and the same image twice ends with content "Hello", reasoning "thinking", that citation and one image |
| Streaming.RestartScenario | src/store/streamingManager.js:47-62 | restarting while streaming keeps none of the first session's content |
| OpenRouter.ErrorMessage | src/services/openrouter.js:36-41 | a refused request throws the body's `error.message` when present, otherwise `API Error: ` followed by the status text |
| OpenRouter.ProcessLine | src/services/openrouter.js:55-68 | a line yields a value only when, trimmed, it starts with `data: `, is not `data: [DONE]`, and its payload parses with non-empty content; bad JSON yields nothing and does not throw |
| OpenRouter.DecodeLines | src/services/openrouter.js:55-69 | the values yielded for a list of complete lines are each line's value, in line order |
| OpenRouter.DecodeLinesSnoc | src/services/openrouter.js:55-69 | one more complete line adds exactly its own value at the end |
| OpenRouter.DecodeLinesAppend | src/services/openrouter.js:55-69 | decoding distributes over concatenated line lists |
| OpenRouter.DecodeText | src/services/openrouter.js:47-69 | a stream text yields at most one value per newline it holds, and a text without a newline yields nothing |
| OpenRouter.DecodeTextAppend | src/services/openrouter.js:51-53 | a text cut right after a newline decodes as its two halves decoded separately, so the read boundaries do not matter |
| OpenRouter.UnterminatedTailDropped | src/services/openrouter.js:47-53 | text after the last newline is never decoded |
| OpenRouter.DecodeJoinedLines | src/services/openrouter.js:51-69 | lines joined by newlines decode line by line, and a trailing unterminated piece is ignored |
| OpenRouter.ReadStep | src/services/openrouter.js:51-53 | one read adds the complete lines of buffer plus new text, and the buffer becomes the text after the last newline |
| OpenRouter.DecodedValuesNonEmpty | src/services/openrouter.js:62-65 | every yielded value is the non-empty content of one of the lines |
| OpenRouter.YieldLines | src/services/openrouter.js:55-69 | the inner loop adds the value of every complete line of one read, in order |
| OpenRouter.StreamChat | src/services/openrouter.js:19-71 | a refused response throws its error message and yields nothing; an accepted one yields exactly the decoded complete lines of all reads concatenated, whatever the read boundaries |
| OpenRouter.TitlePrompt | src/services/openrouter.js:92-95 | the title prompt holds the user text whole and at most the first 500 characters of the reply, all of a reply of 500 characters or fewer |
| OpenRouter.GenerateTitle | src/services/openrouter.js:102-107 | a refusal is an error, and an unreadable body fails with the thrown error's message; otherwise the title is the trimmed reply, or `Nouvelle conversation` when the reply is missing or blank, so it is never empty and never padded |
| OpenRouter.DefaultTitleTrimmed | src/services/openrouter.js:107 | the default title has no surrounding white space |
| OpenRouter.FetchModels | src/services/openrouter.js:4-17 | a refusal fails with `Failed to fetch models: ` and the status text; a body that cannot be read as JSON fails with that error's message; an accepted response gives its `data` list, or the empty list when that is missing |
| Conversations.NewConversation | src/store/useStore.js:133-140 | a new conversation has the given id and model, the title `Nouvelle conversation`, no messages, and both timestamps equal to the one creation time |
| Conversations.FindById | src/store/useStore.js:124 | what `find` returns is a conversation of the list carrying the id; `FindByIdSpec` states when it succeeds and that it is the first |
| Conversations.FindByIdSpec | src/store/useStore.js:124 | `find` succeeds exactly when some conversation carries the id, and then returns the first one that does |
| Conversations.UpdateConversation | src/store/useStore.js:148-156 | the conversations carrying the id get the patch and a new `updatedAt`; every other conversation is unchanged; order and length are kept |
| Conversations.AppendMessage | src/store/useStore.js:171-182 | the conversations carrying the id gain exactly one `{role, content}` at the end of their messages; every other conversation is unchanged |
| Conversations.Remove | src/store/useStore.js:160 | the result is the conversations whose id differs, in their original order, each as often as in the input |
| Conversations.ActiveAfterDelete | src/store/useStore.js:163-166 | the active id changes only when the deleted conversation was active, and then becomes the first remaining id, or null |
| Conversations.DeleteLeavesNoDangling | src/store/useStore.js:158-169 | when the active id named a conversation, after a delete it is null or names a remaining conversation |
| Conversations.StyleSentence | src/store/useStore.js:97-102 | each known style has its sentence, and an unknown style reads as `balanced` |
| Conversations.LanguageSentence | src/store/useStore.js:104-109 | each known language has its sentence, and an unknown language reads as `french` |
| Conversations.PromptParts | src/store/useStore.js:83-113 | the prompt has two to six parts, always including the style and the language sentence |
| Conversations.PromptPartsShape | src/store/useStore.js:85-113 | exactly the two sentences when no optional field is filled in |
| Conversations.JoinedPartsShape | src/store/useStore.js:85-115 | the parts joined by spaces are never empty and contain the style and the language sentence |
| Conversations.SystemPrompt | src/store/useStore.js:83-116 | the `''` branch is unreachable: the prompt is always the parts joined by single spaces, never empty, and contains the style and the language sentence |
| Conversations.DefaultSystemPrompt | src/store/useStore.js:50-58 | the default profile gives the balanced-style sentence followed by the French sentence |
| Conversations.RequestMessages | src/store/useStore.js:238-244 | the request is the system prompt when non-empty, then the earlier messages, then the new user message exactly once |
| Conversations.FallbackTitle | src/store/useStore.js:273 | the fallback title is the first 50 characters of the text, followed by `...` only when the text is longer |
| Conversations.TitleAfterFirstExchange | src/store/useStore.js:266-275 | a first exchange is titled with the generated title, or with the fallback when the title request failed |
| Store.ExchangeCommits | src/store/useStore.js:220-283 | an exchange always commits the user message; it commits exactly one assistant message, holding the chunks in order, only when the stream completes; a completed first exchange is retitled; no other conversation changes |
| Store.SendTarget | src/store/useStore.js:220-227 | without a truthy active id nothing is sent; a target is the active conversation of the list and has a truthy model |
| Store.Store.constructor | src/store/useStore.js:44-58 | the initial store has no conversations, no active id, the default profile, and is idle |
| Store.Store.SetActiveConversationId | src/store/useStore.js:122-130 | the id becomes active, and the selected model follows the conversation's model when the conversation exists and has a truthy model |
| Store.Store.SetSelectedModel | src/store/useStore.js:61-75 | the model is selected and, when an id is active, becomes the active conversation's model |
| Store.Store.CreateConversation | src/store/useStore.js:132-146 | exactly one new conversation is put first and made active, and its id is returned |
| Store.Store.UpdateConversation | src/store/useStore.js:148-156 | only the conversations carrying the id are patched |
| Store.Store.DeleteConversation | src/store/useStore.js:158-169 | the matching conversations are removed, and the active id moves only when it was the deleted one |
| Store.Store.AddMessage | src/store/useStore.js:171-182 | only the matching conversations gain one message at the end |
| Store.Store.GetSystemPrompt | src/store/useStore.js:83-116 | the sentences pushed one by one give the system prompt, whose shape `PromptParts` and `SystemPrompt` state |
| Store.Store.SendMessage | src/store/useStore.js:220-247 | without a truthy active id whose conversation has a model, nothing changes and nothing is sent; otherwise the user message is committed before the stream opens and the request is returned |
| Store.Store.OpenCall | src/store/useStore.js:229-247 | the error and streaming text are cleared, the user message is committed, and streaming starts with an empty response |
| Store.Store.ReceiveChunk | src/store/useStore.js:257-259 | a chunk extends the response and the streaming text; nothing else changes |
| Store.Store.ReceiveAll | src/store/useStore.js:252-260 | after the loop, the response and the streaming text are the concatenation of the chunks in order |
| Store.Store.FinishStream | src/store/useStore.js:262-276 | exactly one assistant message with the whole response is committed, the streaming state is cleared, and a first exchange is retitled |
| Store.Store.FailStream | src/store/useStore.js:277-282 | nothing is committed; the error is recorded unless it is an abort; the streaming state is cleared |
| Store.Store.StopStreaming | src/store/useStore.js:285-291 | the abort is signalled exactly when a controller exists, then the streaming flag and the controller are cleared |
| Store.Store.ImportConversations | src/store/useStore.js:329-349 | an array is put before the existing conversations and its length returned; anything else is rejected and nothing changes |
| Store.Store.RunSend | src/store/useStore.js:220-283 | a whole exchange leaves the conversations as ExchangeCommits describes and the error as the failure's when the guard passes, with the key, model, profile and active id untouched; it changes nothing when the guard refuses, and leaves the store idle in every case |
| ChatInput.TextareaHeight | src/components/Chat/ChatInput.jsx:17 | the height is the content height capped at 160 |
| ChatInput.CanSubmit | src/components/Chat/ChatInput.jsx:21-27 | a submit goes through exactly when input is enabled, nothing streams and the text holds a non-whitespace character |
| ChatInput.ChatInput.constructor | src/components/Chat/ChatInput.jsx:6 | the box starts empty |
| ChatInput.ChatInput.Edit | src/components/Chat/ChatInput.jsx:53 | typing replaces the text |
| ChatInput.ChatInput.Submit | src/components/Chat/ChatInput.jsx:21-27 | the trimmed text is sent, and the box cleared, exactly when it is non-blank, input is enabled and nothing streams; a rejected submit keeps the text |
| ChatInput.ChatInput.KeyDown | src/components/Chat/ChatInput.jsx:29-34 | Enter without Shift submits; any other key, Shift+Enter included, sends nothing |
| ChatInput.ChatInput.ButtonClick | src/components/Chat/ChatInput.jsx:70-94 | while streaming the button stops the stream; otherwise it submits, and is inert when there is nothing to send |
| ChatInput.SubmitTwice | src/components/Chat/ChatInput.jsx:21-27 | two submits in a row send at most once |
| ChatWindow.DisplayMessages | src/components/Chat/ChatWindow.jsx:72-81 | the displayed list is the stored messages unchanged, plus exactly one trailing assistant message with the streamed text when streaming with non-empty text |
| ChatWindow.ChatView | src/components/Chat/ChatWindow.jsx:20-136 | without an existing active conversation the welcome view is shown; otherwise its messages are displayed, an empty list shows the placeholder instead, and the loading indicator shows only below a non-empty list while nothing has arrived |
| ChatWindow.LoadingOrStreamedMessage | src/components/Chat/ChatWindow.jsx:76-143 | while streaming on a thread with stored messages, exactly one of the loading indicator and the streamed message shows; an empty thread still waiting for its first chunk shows neither; without a stream there is no indicator |
| Markdown.ReplaceChar | src/components/Chat/StreamingMessageOptimized.jsx:15-17 | a replaced character no longer occurs unless the replacement holds it; text without it is unchanged |
| Markdown.ReplaceCharOrigin | src/components/Chat/StreamingMessageOptimized.jsx:15-17 | every output character comes from the input or from the replacement |
| Markdown.ReplaceCharAppend | src/components/Chat/StreamingMessageOptimized.jsx:15-17 | a global character replacement distributes over concatenation |
| Markdown.Escape | src/components/Chat/StreamingMessageOptimized.jsx:13-17 | the escaped text holds no raw `<` or `>`; its partner `Unescape` recovers the input (`UnescapeEscape`) |
| Markdown.EscapeIsSinglePass | src/components/Chat/StreamingMessageOptimized.jsx:13-17 | because `&` is escaped first, the three passes equal one pass that replaces each character by its entity |
| Markdown.EscapedCharacters | src/components/Chat/StreamingMessageOptimized.jsx:13-17 | every character of the escaped text comes from the input or from one of the three entities |
| Markdown.UnescapeEscape | src/components/Chat/StreamingMessageOptimized.jsx:13-17 | decoding the three entities gives back the input, so no entity is double-escaped |
| Markdown.UnescapeEscapeOnce | src/components/Chat/StreamingMessageOptimized.jsx:13-17 | the single-pass reference escape is decoded back to its input as well |
| Markdown.Span | src/components/Chat/StreamingMessageOptimized.jsx:20 | a greedy character-class run stops exactly at the first character outside the class |
| Markdown.FindFence | src/components/Chat/StreamingMessageOptimized.jsx:20 | the lazy code pattern stops at the first closing fence |
| Markdown.MatchCodeBlock | src/components/Chat/StreamingMessageOptimized.jsx:20-22 | a code-block match consumes at least one character and stays in the text |
| Markdown.Matches | src/components/Chat/StreamingMessageOptimized.jsx:20-50 | none of the rewrites matches the empty string, so each global replace makes progress |
| Markdown.Scan | src/components/Chat/StreamingMessageOptimized.jsx:20-53 | a global replace copies the text wherever none of its matches starts |
| Markdown.RewriteAll | src/components/Chat/StreamingMessageOptimized.jsx:20-53 | text without markdown markers, newlines or a leading list marker passes the whole chain of rewrites unchanged |
| Markdown.Body | src/components/Chat/StreamingMessageOptimized.jsx:13-53 | the paragraph body holds no newline, and for text without markdown it is exactly the escaped text |
| Markdown.LineBreaks | src/components/Chat/StreamingMessageOptimized.jsx:53 | no newline survives the `<br>` pass |
| Markdown.SimpleMarkdownToHtml | src/components/Chat/StreamingMessageOptimized.jsx:10-57 | missing or empty input gives `''`; any other output starts with `<p class="streaming-p">`, ends with `</p>` and holds no newline; text with no markers and no newlines is only escaped and wrapped |
| Markdown.Wrap | src/components/Chat/StreamingMessageOptimized.jsx:56 | the wrapper adds exactly the paragraph tags around the body |
| Markdown.FencedBlock | src/components/Chat/StreamingMessageOptimized.jsx:20-22 | a fenced block becomes a `<pre>` whose `data-lang` is its tag, or `code` when the tag is empty, and matching resumes after the closing fence |
| Markdown.PlainBody | src/components/Chat/StreamingMessageOptimized.jsx:20-53 | for text without markdown, escaping stays plain, so any chain of the rewrites followed by the `<br>` pass leaves exactly the escaped text |
| UrlSync.MatchPath | src/hooks/useUrlSync.js:28 | a match is a routable id whose path is the conversation route followed by it, and every such path matches its id |
| UrlSync.ExpectedPath | src/hooks/useUrlSync.js:48-50 | the expected path is `/` exactly when no id is active, and otherwise matches back to the active id |
| UrlSync.MatchExpectedPath | src/hooks/useUrlSync.js:28-50 | an id without line breaks is recovered by matching its expected path |
| UrlSync.MatchedPathIsExpected | src/hooks/useUrlSync.js:28-50 | a matched path is the expected path of the id it carries |
| UrlSync.HomeDoesNotMatch | src/hooks/useUrlSync.js:28 | `/` and the bare route `/conversation/` match nothing |
| UrlSync.SyncNavigation | src/hooks/useUrlSync.js:47-54 | navigation is issued exactly when the current path differs from the expected one, and goes to the expected path |
| UrlSync.MountDecision | src/hooks/useUrlSync.js:27-41 | on mount, a matched known id that is not yet active becomes active; a matched unknown id redirects home with replace; otherwise nothing happens |
| UrlSync.MountOnKnownRouteIsQuiet | src/hooks/useUrlSync.js:27-55 | after mounting on a known conversation's route, the synchronising effect issues no navigation |
| UrlSync.PopDecision | src/hooks/useUrlSync.js:59-70 | on popstate, a non-matching path clears the active id, a known id becomes active, and an unknown id is ignored |
| UrlSync.PopToHomeOrKnownIsQuiet | src/hooks/useUrlSync.js:44-70 | going back to `/` or to a known conversation needs no further navigation |
| UrlSync.PageTitle | src/hooks/useUrlSync.js:17-24 | the title is `<title> - LLM Client` for an existing active conversation, otherwise `LLM Client` |
| Sidebar.MatchesSearch | src/components/Sidebar/Sidebar.jsx:43-45 | an empty term matches every conversation, and a title containing the term matches whatever the case |
| Sidebar.FilterConversations | src/components/Sidebar/Sidebar.jsx:41-47 | the result is the order-preserving subsequence of exactly the conversations whose lower-cased title contains the lower-cased term, each as often as in the input |
| Sidebar.EmptySearchKeepsAll | src/components/Sidebar/Sidebar.jsx:43-45 | an empty term keeps every conversation |
| Sidebar.EmptyStateText | src/components/Sidebar/Sidebar.jsx:182-184 | `Aucune conversation` exactly when there are none, `Aucun résultat` exactly when the filter removed them all, and nothing while something is listed |
| Sidebar.NoResultsOnlyWhenSearching | src/components/Sidebar/Sidebar.jsx:41-47 | the filter empties a non-empty list only under a non-empty term |
| Sidebar.HandleNewConversation | src/components/Sidebar/Sidebar.jsx:49-53 | without a selected model the store is unchanged; otherwise a conversation with that model is created, first and active |
| ConversationItem.ConversationItem.constructor | src/components/Sidebar/ConversationItem.jsx:13-15 | a row starts with the edit field equal to the title, not editing and with its menu closed |
| ConversationItem.ConversationItem.TitleChanged | src/components/Sidebar/ConversationItem.jsx:21-23 | a different title from the parent resynchronises the edit field; the same title leaves it as typed |
| ConversationItem.ConversationItem.Edit | src/components/Sidebar/ConversationItem.jsx:139 | typing replaces the edit field |
| ConversationItem.ConversationItem.CommitRename | src/components/Sidebar/ConversationItem.jsx:57-65 | a rename with the trimmed text is requested exactly when that text is non-empty and differs from the title; otherwise the field reverts; editing ends either way |
| ConversationItem.ConversationItem.KeyDown | src/components/Sidebar/ConversationItem.jsx:67-75 | Enter takes the rename path; Escape reverts and ends editing without renaming; other keys change nothing |
| ConversationItem.ConversationItem.MenuToggle | src/components/Sidebar/ConversationItem.jsx:98-110 | the toggle flips the menu |
| ConversationItem.ConversationItem.DocumentEvent | src/components/Sidebar/ConversationItem.jsx:32-55 | Escape or a click outside closes an open menu |
| ConversationItem.ConversationItem.StartRename | src/components/Sidebar/ConversationItem.jsx:91-96 | the rename entry closes the menu and starts editing |
| ConversationItem.ConversationItem.MenuAction | src/components/Sidebar/ConversationItem.jsx:77-89 | delete and export close the menu and pass the action to the parent |
| ConversationItem.RenameSettles | src/components/Sidebar/ConversationItem.jsx:21-65 | after any rename attempt the row is not editing, its field equals its title, and that title is the trimmed edit exactly when the attempt was accepted |
| ModelSelector.DisplayName | src/components/ModelSelectorModal.jsx:57 | the shown name is the model's name when truthy, otherwise its id |
| ModelSelector.MatchesSearch | src/components/ModelSelectorModal.jsx:56-60 | an empty term matches every model, and a name or id containing the term matches whatever the case |
| ModelSelector.PassesFilter | src/components/ModelSelectorModal.jsx:62-75 | `favorites` keeps exactly the favourites, `free` exactly the zero-priced, `image` exactly the image-producing models; `reasoning` keeps an id naming thinking or a reasoner; any other filter keeps every model |
| ModelSelector.SortKey | src/components/ModelSelectorModal.jsx:80-95 | the comparator ranks favourites first, then by prompt price, by negated context length (a missing one read as 0), or by display name |
| ModelSelector.InsertKeepsSorted | src/components/ModelSelectorModal.jsx:80-95 | inserting into a list sorted by the comparator keeps it sorted |
| ModelSelector.SortByKey | src/components/ModelSelectorModal.jsx:80-95 | the sort returns a permutation of its input that is ordered by the comparator |
| ModelSelector.FilteredModels | src/components/ModelSelectorModal.jsx:55-98 | exactly the models that pass the search and the filter are listed, each as often as given, sorted by the comparator |
| ModelSelector.ListedFromKept | src/components/ModelSelectorModal.jsx:55-97 | sorting the filtered list neither adds nor loses a model |
| ModelSelector.ListingOrder | src/components/ModelSelectorModal.jsx:80-95 | every favourite precedes every non-favourite; within a group the list ascends by price, descends by context length, or ascends by name |
| ModelSelector.ShowAll | src/components/ModelSelectorModal.jsx:56-76 | an empty search with the `all` filter lists every model exactly as often as given |
| ModelSelector.Provider | src/components/ModelSelectorModal.jsx:115 | the provider is the text before the first `/`, or the whole id without one |
| ModelSelector.ProviderColor | src/components/ModelSelectorModal.jsx:114-128 | a known provider gets its colour, and any other provider the accent colour |
| ModelSelector.ProviderOfQualifiedId | src/components/ModelSelectorModal.jsx:115 | an id `provider/rest` has that provider, whatever the rest holds |
| ModelSelector.ProviderColorOfQualifiedId | src/components/ModelSelectorModal.jsx:114-128 | an id `provider/rest` gets the provider's colour, or the accent colour for an unknown provider |
| ProjectModal.OrDefault | src/components/Projects/ProjectModal.jsx:43-47 | `x \|\| default` gives the value when it is truthy, otherwise the default |
| ProjectModal.FormOf | src/components/Projects/ProjectModal.jsx:40-64 | the editing project's fields, with `''`, `[]` and the folder icon for missing ones, or a blank form when nothing is edited |
| ProjectModal.Uploaded | src/components/Projects/ProjectModal.jsx:72-113 | a batch never adds more files than it has looked at |
| ProjectModal.FailureIsFinal | src/components/Projects/ProjectModal.jsx:102-108 | once an extraction fails, no later file changes the outcome |
| ProjectModal.UnsupportedSkipped | src/components/Projects/ProjectModal.jsx:80-100 | an unsupported file sets the error and is skipped while later files are still processed; every supported file is added; the error stays unset exactly when every file is supported |
| ProjectModal.AddedFromFiles | src/components/Projects/ProjectModal.jsx:86-100 | every added file comes from a supported file whose extraction succeeded |
| ProjectModal.PastedFile | src/components/Projects/ProjectModal.jsx:115-134 | nothing is added unless both trimmed fields are non-empty; otherwise the file has the trimmed name and content, type `Texte` and the given size |
| ProjectModal.ContentPreview | src/components/Projects/ProjectModal.jsx:441-442 | the first 150 characters, followed by `...` only when the content is longer |
| ProjectModal.PreviewIsTruncation | src/components/Projects/ProjectModal.jsx:441-442 | the preview is the recovery dialog's truncation at 150 characters |
| ProjectModal.ProjectModal.constructor | src/components/Projects/ProjectModal.jsx:23-36 | the editor starts with a blank form and the add-file panel closed |
| ProjectModal.ProjectModal.Reset | src/components/Projects/ProjectModal.jsx:40-64 | opening loads FormOf the edited project and resets all add-file state |
| ProjectModal.ProjectModal.Change | src/components/Projects/ProjectModal.jsx:67-69 | one form field takes the typed value; nothing else changes |
| ProjectModal.ProjectModal.AddPastedFile | src/components/Projects/ProjectModal.jsx:115-135 | a valid pasted file is appended at the end, the fields are cleared and the panel closed; otherwise nothing changes |
| ProjectModal.ProjectModal.RemoveFile | src/components/Projects/ProjectModal.jsx:137-142 | exactly the files with that id are removed, the others kept in order and each as often as before |
| ProjectModal.ProjectModal.UploadWith | src/components/Projects/ProjectModal.jsx:72-113 | the loop leaves the files and error that Uploaded describes, for any classifier |
| ProjectModal.ProjectModal.UploadFiles | src/components/Projects/ProjectModal.jsx:72-113 | the same, with `isFileSupported` as the classifier |
| ProjectModal.ProjectModal.Save | src/components/Projects/ProjectModal.jsx:144-155 | nothing is saved without a non-blank name; otherwise the project is updated when editing or created when not, then the edited project is cleared and the editor closed |
| ProjectModal.CloseEffects | src/components/Projects/ProjectModal.jsx:157-160 | closing clears the edited project and closes without saving |
| ProjectSelector.CurrentProjectId | src/components/Projects/ProjectSelectorModal.jsx:16-17 | the first active conversation's truthy project id, otherwise none |
| ProjectSelector.ProjectSelector.constructor | src/components/Projects/ProjectSelectorModal.jsx:14 | the picker starts disarmed |
| ProjectSelector.ProjectSelector.SetOpen | src/components/Projects/ProjectSelectorModal.jsx:19-23 | closing disarms the confirmation |
| ProjectSelector.ProjectSelector.DeleteClick | src/components/Projects/ProjectSelectorModal.jsx:66-74 | a click on the armed project deletes it and disarms; any other click arms that project and deletes nothing |
| ProjectSelector.ProjectSelector.Escape | src/components/Projects/ProjectSelectorModal.jsx:25-43 | while open, Escape disarms when armed and otherwise closes the modal |
| ProjectSelector.SelectProject | src/components/Projects/ProjectSelectorModal.jsx:47-51 | without an active conversation nothing happens; otherwise its project is set (none allowed) and the modal closes |
| ProjectSelector.DeleteNeedsTwoClicks | src/components/Projects/ProjectSelectorModal.jsx:66-74 | a project is deleted only by a second consecutive click on it; a click on another project re-arms instead |
| FileExtractor.Lookup | src/utils/fileExtractor.js:40 | the table entry for a MIME type, present exactly when the table lists the type |
| FileExtractor.Extension | src/utils/fileExtractor.js:45 | the extension holds no dot and is no longer than the name; a name without a dot is its own extension, lower-cased |
| FileExtractor.ExtensionAfterLastDot | src/utils/fileExtractor.js:45 | the extension is the text after the last dot, lower-cased |
| FileExtractor.GetFileTypeInfo | src/utils/fileExtractor.js:55-71 | a file is PDF exactly when its extension is `pdf` or its type is the PDF type, and unknown exactly when neither the table nor the text extensions know it |
| FileExtractor.IsFileSupported | src/utils/fileExtractor.js:38-50 | a file is supported exactly when its type information is not unknown |
| FileExtractor.SupportedIffKnownIn | src/utils/fileExtractor.js:38-71 | for any tables listing the PDF type, a file is supported exactly when its type is not unknown |
| FileExtractor.ExtractTextFromFile | src/utils/fileExtractor.js:112-132 | an unsupported file fails before any reader runs; otherwise the reader's outcome is passed on with the file's name and size and the classifier's type name |
| FileExtractor.AcceptEntries | src/utils/fileExtractor.js:148-152 | the MIME types, then `.pdf`, then each text extension with a dot, in that order |
| FileExtractor.AcceptedFileTypes | src/utils/fileExtractor.js:148-152 | the `accept` string contains every MIME type, `.pdf` and every text extension |
| FileExtractor.AcceptCoversSupported | src/utils/fileExtractor.js:148-152 | every supported file is admitted by the accept list, by its MIME type or by its extension |
| ImageUtils.ModelSupportsImageInput | src/utils/imageUtils.js:13-16 | true exactly when the input modalities exist and include `image` |
| ImageUtils.ValidateImage | src/utils/imageUtils.js:23-44 | a missing file is refused first, then an unsupported type whatever its size, then a size above 4 MiB; exactly 4 MiB is valid |
| ImageUtils.Message | src/utils/imageUtils.js:25-40 | the three refusals have three distinct messages: the missing-file text, the unsupported-format prefix, and the too-large text around the size in MB |
| ImageUtils.GetImageFromClipboard | src/utils/imageUtils.js:136-146 | the file of the first item whose type starts with `image/`, and null when there are no items or no image item |
| ImageUtils.RoundDiv | src/utils/imageUtils.js:82 | `Math.round` of a non-negative quotient is the nearest integer, halves up |
| ImageUtils.ResizeDimensions | src/utils/imageUtils.js:72-90 | a small image is kept; otherwise its longer side becomes the maximum and the other is scaled with rounding, so neither exceeds the maximum |
| ImageUtils.DefaultResize | src/utils/imageUtils.js:67-90 | with the default bound of 2048 an image is kept exactly when both sides fit, and otherwise scaled so that its longer side is 2048 and neither side exceeds it |
| ImageUtils.ShorterSideFits | src/utils/imageUtils.js:80-90 | the scaled shorter side never exceeds the maximum |
| ImageUtils.ProcessImageFile | src/utils/imageUtils.js:113-129 | an invalid file fails with its validation message before anything is read; a result carries the read, possibly compressed, data URL and the file's name |
| ThemeColor.HexDigits | src/hooks/useThemeColor.js:6 | the pattern accepts exactly six hex digits, with an optional leading `#` |
| ThemeColor.HexToRgb | src/hooks/useThemeColor.js:5-14 | a colour parses exactly when it has that form, and each channel lies in 0..255 |
| ThemeColor.ShorthandRefused | src/hooks/useThemeColor.js:6 | three-digit shorthand is refused |
| ThemeColor.ToHex | src/hooks/useThemeColor.js:6 | the `#rrggbb` spelling of a colour has the parsed form |
| ThemeColor.HexToRgbToHex | src/hooks/useThemeColor.js:5-14 | parsing reads back every colour spelled `#rrggbb` or `rrggbb` |
| ThemeColor.Lighten | src/hooks/useThemeColor.js:21-24 | the lightened channel lies in 0..255, is never darker, and reaches 255 at 100% |
| ThemeColor.Darken | src/hooks/useThemeColor.js:31 | 0% leaves a channel unchanged, and darkening by up to 100% keeps it between 0 and its value |
| ThemeColor.AdjustColor | src/hooks/useThemeColor.js:17-34 | an unparsable colour is returned unchanged; a positive percentage lightens each channel; any other percentage darkens it |
| ThemeColor.AdjustByZero | src/hooks/useThemeColor.js:29-33 | a zero adjustment spells the parsed colour itself |
| ThemeColor.HoverIsLighter | src/hooks/useThemeColor.js:50 | the hover colour is never darker than the accent, channel by channel |
| Theme.Toggle | src/hooks/useTheme.js:30-36 | light goes to dark, dark to system, and anything else to light |
| Theme.ToggleCycle | src/hooks/useTheme.js:30-36 | three toggles bring each theme back, through the two others |
| Theme.DarkClass | src/hooks/useTheme.js:10-27 | outside system mode the dark class is applied exactly for `dark`; in system mode it follows the preference |
| DraftRecovery.TruncateContent | src/components/DraftRecoveryModal.jsx:19-23 | falsy content gives `''`; short content is kept; longer content becomes its first `maxLength` characters and `...`, so `maxLength + 3` long |
| DraftRecovery.TruncateIdempotent | src/components/DraftRecoveryModal.jsx:19-23 | truncating a preview again changes nothing |
| DraftRecovery.View | src/components/DraftRecoveryModal.jsx:4-150 | nothing is rendered without a draft; the user message is cut at 100, the content at 200, the count is the content's length or 0, and a saved error is shown after `Erreur : ` |

## Left out

- The network: `fetch`, headers and the response reader. A response is an outcome parameter: refused, with its status text and error body, or accepted, with the text of each read.
- UTF-8 decoding with `TextDecoder`. Reads are strings.
- `JSON.parse` and the `choices[0].delta.content` lookup. They are one function parameter that returns a parse failure, a present field or an absent field.
- Asynchrony and concurrency: the `for await` loop, promise interleaving, and the race between `sendMessage` and `stopStreaming`. An abort is one way a stream can end in the event trace.
- The `AbortController` itself. Only its presence is modelled.
- uuids, `new Date().toISOString()` and byte sizes from `Blob`. They are parameters.
- localStorage migration, the `persist` middleware, and the export actions (`exportConversations`, `exportConversationAsMarkdown`). They only write files or storage.
- `FileReader` in import, text extraction and image reading; PDF.js extraction; image decoding and canvas re-encoding. Their outcomes are parameters.
- The store's own `fetchModels`, `setApiKey`, `setUserProfile`, `setError` and `clearError` actions. They are outside the modelled core; the response shaping of `fetchModels` in the service is modelled.
- Floating point.
  - Prices are parsed by a `parsePrice` parameter into exact reals.
  - Colour arithmetic uses exact reals.
  - The size in the image refusal message is a `formatMB` parameter.
  - `formatPrice`, `formatContextLength` and `formatFileSize` are not modelled.
- `localeCompare` is code-point lexicographic order.
- Case folding (`toLowerCase`, `toUpperCase`) is ASCII only.
- String length is counted in characters, not UTF-16 code units.
- Object keys inherited from `Object.prototype` (`SUPPORTED_FILE_TYPES['constructor']`, `styleMap['toString']`) are not modelled. A lookup only finds the listed keys.
- Conversations.NewConversation: the source reads the clock separately for `createdAt` and `updatedAt`, so the two stamps can differ by the time between the calls. Both are modelled by the one `now` parameter.
- Store.Store.ImportConversations: the source checks only that the parsed value is an array and prepends its items unchecked. The model takes an array of well-formed conversations, so malformed items are not modelled.
- Aliasing in the streaming manager: the `citations` event carries the live `citations` array, and `getState()` returns the live `images` and `citations` arrays, which later pushes change. The model's events and snapshots are copies, so a reader that holds on to them is not modelled as seeing later changes.
- ModelSelector.SortByKey: the in-place `result.sort` is a stable insertion sort on values. Stability is not stated, because `Array.prototype.sort` only promises it and the listing order above does not depend on it.
- Markdown.Matches: the inline-code, bold, italic, header, list and link rewrites are modelled as matchers. Only the stated properties are proved about them, and plain text is the only input whose whole output is characterised.
- The `isFirstRender` guard of `useUrlSync`, which depends on React's effect ordering. The mount and sync decisions are separate functions.
- `document.title`, CSS custom properties, `classList`, `matchMedia` and router `navigate`. They are returned as values or left out.
- Focus handling, scrolling, menu positioning, the `requestAnimationFrame` calls and the throttled rendering loop.
- ProjectModal.ProjectModal.UploadWith: successive React state updates in the upload loop are sequential assignments. Batching is not modelled.
- The file input's `accept` string is not proved to round-trip through `Join` on the literal lists. AcceptEntries states the entries and their order.
- ProjectSelectorModal's create and edit buttons are not modelled. They only open the project editor through the store.
- The store's project and favourites state (`projects`, `favoriteModels`, `toggleFavoriteModel`). `useStore.js` does not define them, so the components' calls are `Effect` values and the favourites list is a parameter.

=== FILE: chat_input.dfy ===
/**
 * The message box of src/components/Chat/ChatInput.jsx: the text being typed, the guarded
 * submit that hands the trimmed text to `sendMessage`, Enter-to-send, the action button
 * that stops a running stream, and the height cap of the textarea.
 */
module ChatInput {
  import opened Wrappers
  import opened Text

  /** What a user action asks of the store. */
  datatype Effect = SendMessage(text: string) | StopStreaming

  /** The textarea grows with its content up to this many pixels. */
  const MaxHeight: nat := 160

  /** `Math.min(scrollHeight, 160)`: the content height, capped at the maximum. */
  function TextareaHeight(scrollHeight: nat): (h: nat)
    ensures h <= MaxHeight && h <= scrollHeight
    ensures h == scrollHeight || h == MaxHeight
  {
    if scrollHeight < MaxHeight then scrollHeight else MaxHeight
  }

  /** A submit goes through: there is something besides whitespace, input is enabled, nothing streams. */
  predicate CanSubmit(message: string, disabled: bool, isStreaming: bool)
    ensures CanSubmit(message, disabled, isStreaming) <==>
              !disabled && !isStreaming && exists k :: 0 <= k < |message| && !IsWhitespace(message[k])
  {
    TrimEmptyIff(message);
    Trim(message) != "" && !disabled && !isStreaming
  }

  class ChatInput {
    /** The `message` state: the textarea's text. */
    var message: string

    constructor ()
      ensures message == ""
    {
      message := "";
    }

    /** The textarea's `onChange`. */
    method Edit(text: string)
      modifies this
      ensures message == text
    {
      message := text;
    }

    /**
     * `handleSubmit`: sends the trimmed text and clears the box when the guard holds; a
     * rejected submit sends nothing and keeps the text.
     */
    method Submit(disabled: bool, isStreaming: bool) returns (effect: Option<Effect>)
      modifies this
      ensures effect.Some? <==> CanSubmit(old(message), disabled, isStreaming)
      ensures effect.Some? ==> effect.value == SendMessage(Trim(old(message))) && message == ""
      ensures effect.None? ==> message == old(message)
    {
      var trimmed := Trim(message);
      if trimmed != "" && !disabled && !isStreaming {
        effect := Some(SendMessage(trimmed));
        message := "";
      } else {
        effect := None;
      }
    }

    /** `handleKeyDown`: Enter without Shift submits; any other key leaves the text to the textarea. */
    method KeyDown(key: string, shiftKey: bool, disabled: bool, isStreaming: bool) returns (effect: Option<Effect>)
      modifies this
      ensures key == "Enter" && !shiftKey ==>
                (effect.Some? <==> CanSubmit(old(message), disabled, isStreaming))
                && (effect.Some? ==> effect.value == SendMessage(Trim(old(message))) && message == "")
                && (effect.None? ==> message == old(message))
      ensures !(key == "Enter" && !shiftKey) ==> effect.None? && message == old(message)
    {
      if key == "Enter" && !shiftKey {
        effect := Submit(disabled, isStreaming);
      } else {
        effect := None;
      }
    }

    /**
     * A click on the action button: while streaming it is the stop button; otherwise it is
     * the submit button, disabled when there is nothing to send or input is disabled.
     */
    method ButtonClick(disabled: bool, isStreaming: bool) returns (effect: Option<Effect>)
      modifies this
      ensures isStreaming ==> effect == Some(StopStreaming) && message == old(message)
      ensures !isStreaming ==>
                (effect.Some? <==> CanSubmit(old(message), disabled, false))
                && (effect.Some? ==> effect.value == SendMessage(Trim(old(message))) && message == "")
                && (effect.None? ==> message == old(message))
    {
      if isStreaming {
        effect := Some(StopStreaming);
      } else if Trim(message) == "" || disabled {
        effect := None;
      } else {
        effect := Submit(disabled, isStreaming);
      }
    }
  }

  /**
   * Re-entrancy: typing `text` and submitting twice with the same flags sends at most once,
   * because a successful submit empties the box.
   */
  method SubmitTwice(text: string, disabled: bool, isStreaming: bool) returns (first: Option<Effect>, second: Option<Effect>)
    ensures first.Some? <==> CanSubmit(text, disabled, isStreaming)
    ensures first.Some? ==> first.value == SendMessage(Trim(text))
    ensures second.None?
  {
    var input := new ChatInput();
    input.Edit(text);
    first := input.Submit(disabled, isStreaming);
    second := input.Submit(disabled, isStreaming);
  }
}

=== FILE: chat_window.dfy ===
/**
 * What src/components/Chat/ChatWindow.jsx shows: the welcome view without an active
 * conversation, otherwise the stored messages followed by the response being streamed, the
 * loading indicator while nothing has arrived yet, and whether the input is disabled.
 */
module ChatWindow {
  import opened Wrappers
  import Conversations
  import OpenRouter

  type Message = OpenRouter.ApiMessage

  /**
   * `displayMessages`: a copy of the stored messages, plus one assistant message holding
   * the streamed text when a stream runs and has produced text.
   */
  function DisplayMessages(messages: seq<Message>, isStreaming: bool, streamingContent: string): (r: seq<Message>)
    ensures |r| == |messages| + (if isStreaming && streamingContent != "" then 1 else 0)
    ensures r[..|messages|] == messages
    ensures |r| > |messages| ==> r[|messages|] == OpenRouter.ApiMessage("assistant", streamingContent)
  {
    if isStreaming && streamingContent != "" then
      messages + [OpenRouter.ApiMessage("assistant", streamingContent)]
    else messages
  }

  /** The loading condition: a stream runs and nothing has arrived yet. */
  predicate ShowLoading(isStreaming: bool, streamingContent: string) {
    isStreaming && streamingContent == ""
  }

  /**
   * The loading indicator is drawn below the list, so only when the list is non-empty; an
   * empty list shows the "start the conversation" placeholder instead, even while loading.
   */
  predicate ShowsLoader(messages: seq<Message>, isStreaming: bool, streamingContent: string) {
    ShowLoading(isStreaming, streamingContent) && DisplayMessages(messages, isStreaming, streamingContent) != []
  }

  /** The input is disabled without an API key or without a selected model. */
  predicate InputDisabled(apiKey: string, selectedModel: string) {
    apiKey == "" || selectedModel == ""
  }

  /** The two shapes of the chat area. */
  datatype View = Welcome | Thread(messages: seq<Message>, placeholder: bool, loading: bool, inputDisabled: bool)

  /** The chat area for the store's state. */
  function ChatView(cs: seq<Conversations.Conversation>, activeId: Option<string>, isStreaming: bool,
                    streamingContent: string, apiKey: string, selectedModel: string): (v: View)
    ensures v.Welcome? <==> activeId.None? || forall i :: 0 <= i < |cs| ==> cs[i].id != activeId.value
    ensures v.Thread? ==>
              exists i :: 0 <= i < |cs| && cs[i].id == activeId.value
                          && (forall j :: 0 <= j < i ==> cs[j].id != activeId.value)
                          && v.messages == DisplayMessages(cs[i].messages, isStreaming, streamingContent)
    ensures v.Thread? ==> (v.placeholder <==> v.messages == [])
    ensures v.Thread? ==> (v.loading <==> ShowLoading(isStreaming, streamingContent) && v.messages != [])
                          && v.inputDisabled == InputDisabled(apiKey, selectedModel)
  {
    if activeId.None? then Welcome
    else
      Conversations.FindByIdSpec(cs, activeId.value);
      match Conversations.FindById(cs, activeId.value)
      case None => Welcome
      case Some(c) =>
        var shown := DisplayMessages(c.messages, isStreaming, streamingContent);
        Thread(shown, shown == [], ShowsLoader(c.messages, isStreaming, streamingContent),
               InputDisabled(apiKey, selectedModel))
  }

  /**
   * While a stream runs on a thread with stored messages, exactly one of the loading indicator
   * and the streamed message is shown. On a thread without stored messages that is still
   * waiting for its first chunk, neither is: only the placeholder shows. Without a stream
   * there is no indicator and the list is the stored messages.
   */
  lemma LoadingOrStreamedMessage(messages: seq<Message>, isStreaming: bool, streamingContent: string)
    ensures isStreaming && messages != [] ==>
              (ShowsLoader(messages, isStreaming, streamingContent)
               <==> DisplayMessages(messages, isStreaming, streamingContent) == messages)
    ensures isStreaming && messages == [] && streamingContent == "" ==>
              !ShowsLoader(messages, isStreaming, streamingContent)
              && DisplayMessages(messages, isStreaming, streamingContent) == []
    ensures isStreaming && streamingContent != "" ==>
              DisplayMessages(messages, isStreaming, streamingContent) != []
    ensures !isStreaming ==>
              !ShowsLoader(messages, isStreaming, streamingContent)
              && DisplayMessages(messages, isStreaming, streamingContent) == messages
  {
    if isStreaming && streamingContent != "" {
      assert |DisplayMessages(messages, isStreaming, streamingContent)| != |messages|;
    }
  }
}

=== FILE: conversation_item.dfy ===
/**
 * One row of the conversation list, src/components/Sidebar/ConversationItem.jsx: inline
 * renaming (commit on Enter or blur, revert on Escape) and the row's menu (toggle, close on
 * Escape or on a click outside, and the three menu actions, each of which closes it).
 * The callbacks the row receives are returned as effects.
 */
module ConversationItem {
  import opened Wrappers
  import opened Text

  /** What the row asks of its parent. */
  datatype Effect = Rename(title: string) | Delete | Export

  class ConversationItem {
    /** The conversation's current title, as passed in by the parent. */
    var title: string
    var editTitle: string
    var isEditing: bool
    var showMenu: bool

    constructor (title: string)
      ensures this.title == title && editTitle == title && !isEditing && !showMenu
    {
      this.title := title;
      editTitle := title;
      isEditing := false;
      showMenu := false;
    }

    /**
     * The effect on `conversation.title`: it runs only when the parent passes a different
     * title, and then resets the edit field; the same title leaves the field as typed.
     */
    method TitleChanged(newTitle: string)
      modifies this
      ensures title == newTitle
      ensures editTitle == if newTitle != old(title) then newTitle else old(editTitle)
      ensures isEditing == old(isEditing) && showMenu == old(showMenu)
    {
      if newTitle != title {
        title := newTitle;
        editTitle := newTitle;
      }
    }

    /** The input's `onChange`. */
    method Edit(text: string)
      modifies this
      ensures editTitle == text
      ensures title == old(title) && isEditing == old(isEditing) && showMenu == old(showMenu)
    {
      editTitle := text;
    }

    /**
     * `handleRename`: a non-empty trimmed title that differs from the current one is handed
     * to the parent; otherwise the field reverts to the current title. Editing ends either way.
     */
    method CommitRename() returns (effect: Option<Effect>)
      modifies this
      ensures effect.Some? <==> Trim(old(editTitle)) != "" && Trim(old(editTitle)) != title
      ensures effect.Some? ==> effect.value == Rename(Trim(old(editTitle))) && editTitle == old(editTitle)
      ensures effect.None? ==> editTitle == title
      ensures !isEditing
      ensures title == old(title) && showMenu == old(showMenu)
    {
      var trimmed := Trim(editTitle);
      if trimmed != "" && trimmed != title {
        effect := Some(Rename(trimmed));
      } else {
        editTitle := title;
        effect := None;
      }
      isEditing := false;
    }

    /** The input's `onKeyDown`: Enter commits, Escape reverts without renaming. */
    method KeyDown(key: string) returns (effect: Option<Effect>)
      modifies this
      ensures key == "Enter" ==>
                (effect.Some? <==> Trim(old(editTitle)) != "" && Trim(old(editTitle)) != title)
                && (effect.Some? ==> effect.value == Rename(Trim(old(editTitle))) && editTitle == old(editTitle))
                && (effect.None? ==> editTitle == title)
                && !isEditing
      ensures key == "Escape" ==> effect.None? && editTitle == title && !isEditing
      ensures key != "Enter" && key != "Escape" ==>
                effect.None? && editTitle == old(editTitle) && isEditing == old(isEditing)
      ensures title == old(title) && showMenu == old(showMenu)
    {
      if key == "Enter" {
        effect := CommitRename();
      } else if key == "Escape" {
        editTitle := title;
        isEditing := false;
        effect := None;
      } else {
        effect := None;
      }
    }

    /** `handleMenuToggle`: the menu opens when closed and closes when open. */
    method MenuToggle()
      modifies this
      ensures showMenu == !old(showMenu)
      ensures title == old(title) && editTitle == old(editTitle) && isEditing == old(isEditing)
    {
      showMenu := !showMenu;
    }

    /** The document listeners of an open menu: Escape, or a click outside menu and button, closes it. */
    method DocumentEvent(escapeKey: bool, clickOutside: bool)
      modifies this
      ensures showMenu == (old(showMenu) && !escapeKey && !clickOutside)
      ensures title == old(title) && editTitle == old(editTitle) && isEditing == old(isEditing)
    {
      if showMenu && (escapeKey || clickOutside) {
        showMenu := false;
      }
    }

    /** The "rename" menu entry: the menu closes and editing starts. */
    method StartRename()
      modifies this
      ensures !showMenu && isEditing
      ensures title == old(title) && editTitle == old(editTitle)
    {
      showMenu := false;
      isEditing := true;
    }

    /** The "delete" and "export" menu entries: the menu closes and the parent is asked to act. */
    method MenuAction(action: Effect) returns (effect: Effect)
      requires action == Delete || action == Export
      modifies this
      ensures effect == action && !showMenu
      ensures title == old(title) && editTitle == old(editTitle) && isEditing == old(isEditing)
    {
      showMenu := false;
      effect := action;
    }
  }

  /**
   * A rename attempt from a row showing `title`: whether the parent applies the new title or
   * the attempt is rejected, the row ends up not editing, with its field equal to its title,
   * and that title is the trimmed edit exactly when the attempt was accepted.
   */
  method RenameSettles(title: string, typed: string) returns (finalTitle: string, editTitle: string, editing: bool)
    ensures !editing && editTitle == finalTitle
    ensures finalTitle == (if Trim(typed) != "" && Trim(typed) != title then Trim(typed) else title)
  {
    var row := new ConversationItem(title);
    row.StartRename();
    row.Edit(typed);
    var effect := row.CommitRename();
    if effect.Some? {
      row.TitleChanged(effect.value.title);
    }
    finalTitle, editTitle, editing := row.title, row.editTitle, row.isEditing;
  }
}

=== FILE: conversations.dfy ===
/**
 * The values the store of src/store/useStore.js keeps and the pure list operations its
 * actions are built from: `find`, `map` over the matching id, `filter`, the system prompt
 * assembled from the user profile, the request sent for a new message and the fallback
 * title of a first exchange.
 */
module Conversations {
  import opened Wrappers
  import opened Text
  import Seqs
  import OpenRouter

  /** A stored message is exactly `{ role, content }`. */
  type Message = OpenRouter.ApiMessage

  /** One conversation; `projectId` is absent on conversations created by the store. */
  datatype Conversation = Conversation(
    id: string,
    title: string,
    model: string,
    messages: seq<Message>,
    projectId: Option<string>,
    createdAt: string,
    updatedAt: string)

  const DefaultTitle: string := "Nouvelle conversation"

  /** A freshly created conversation: default title, no messages, both timestamps `now`. */
  function NewConversation(id: string, model: string, now: string): (c: Conversation)
    ensures c.id == id && c.model == model && c.title == DefaultTitle
    ensures c.messages == [] && c.projectId.None?
    ensures c.createdAt == now && c.updatedAt == now
  {
    Conversation(id, DefaultTitle, model, [], None, now, now)
  }

  /** `conversations.find(c => c.id === id)`: what it finds is a conversation of the list with that id. */
  function FindById(cs: seq<Conversation>, id: string): (r: Option<Conversation>)
    ensures r.Some? ==> r.value in cs && r.value.id == id
    decreases |cs|
  {
    if cs == [] then None
    else if cs[0].id == id then Some(cs[0])
    else FindById(cs[1..], id)
  }

  /**
   * `find` succeeds exactly when some conversation carries `id`, and then returns the
   * first one that does.
   */
  lemma {:induction false} FindByIdSpec(cs: seq<Conversation>, id: string)
    ensures FindById(cs, id).Some? <==> exists i :: 0 <= i < |cs| && cs[i].id == id
    ensures FindById(cs, id).Some? ==>
              exists i :: 0 <= i < |cs| && cs[i] == FindById(cs, id).value && cs[i].id == id
                          && forall j :: 0 <= j < i ==> cs[j].id != id
    decreases |cs|
  {
    if cs != [] && cs[0].id != id {
      var tail := cs[1..];
      FindByIdSpec(tail, id);
      assert forall i :: 0 < i < |cs| ==> cs[i] == tail[i - 1];
      if FindById(tail, id).Some? {
        var i :| 0 <= i < |tail| && tail[i] == FindById(tail, id).value && tail[i].id == id
                 && forall j :: 0 <= j < i ==> tail[j].id != id;
        assert cs[i + 1] == tail[i];
        assert forall j :: 0 <= j < i + 1 ==> cs[j].id != id by {
          forall j | 0 <= j < i + 1 ensures cs[j].id != id {
            if j > 0 { assert cs[j] == tail[j - 1]; }
          }
        }
      } else {
        assert forall i :: 0 <= i < |cs| ==> cs[i].id != id by {
          forall i | 0 <= i < |cs| ensures cs[i].id != id {
            if i > 0 { assert cs[i] == tail[i - 1]; }
          }
        }
      }
    }
  }

  /** The fields an `updates` object may carry; absent fields are left as they are. */
  datatype Patch = Patch(title: Option<string>, model: Option<string>)

  /** `{ ...c, ...updates, updatedAt: now }`. */
  function Patched(c: Conversation, p: Patch, now: string): Conversation {
    c.(title := p.title.GetOr(c.title), model := p.model.GetOr(c.model), updatedAt := now)
  }

  /**
   * `updateConversation`: the conversations carrying `id` are patched, every other one is
   * kept as it is, and the order is unchanged.
   */
  function UpdateConversation(cs: seq<Conversation>, id: string, p: Patch, now: string): (r: seq<Conversation>)
    ensures |r| == |cs|
    ensures forall i :: 0 <= i < |cs| && cs[i].id == id ==> r[i] == Patched(cs[i], p, now)
    ensures forall i :: 0 <= i < |cs| && cs[i].id != id ==> r[i] == cs[i]
    decreases |cs|
  {
    if cs == [] then []
    else
      var rest := UpdateConversation(cs[1..], id, p, now);
      var head := if cs[0].id == id then Patched(cs[0], p, now) else cs[0];
      assert forall i :: 0 < i < |cs| ==> ([head] + rest)[i] == rest[i - 1] && cs[i] == cs[1..][i - 1];
      [head] + rest
  }

  /**
   * `addMessage`: the conversations carrying `id` gain `m` at the end of their messages and
   * a new `updatedAt`; every other conversation is kept as it is.
   */
  function AppendMessage(cs: seq<Conversation>, id: string, m: Message, now: string): (r: seq<Conversation>)
    ensures |r| == |cs|
    ensures forall i :: 0 <= i < |cs| && cs[i].id == id ==>
              r[i] == cs[i].(messages := cs[i].messages + [m], updatedAt := now)
    ensures forall i :: 0 <= i < |cs| && cs[i].id != id ==> r[i] == cs[i]
    decreases |cs|
  {
    if cs == [] then []
    else
      var rest := AppendMessage(cs[1..], id, m, now);
      var head := if cs[0].id == id then cs[0].(messages := cs[0].messages + [m], updatedAt := now) else cs[0];
      assert forall i :: 0 < i < |cs| ==> ([head] + rest)[i] == rest[i - 1] && cs[i] == cs[1..][i - 1];
      [head] + rest
  }

  /** `c.id !== id`. */
  function IdIsNot(id: string): Conversation -> bool {
    (c: Conversation) => c.id != id
  }

  /** `conversations.filter(c => c.id !== id)`. */
  function Remove(cs: seq<Conversation>, id: string): (r: seq<Conversation>)
    ensures forall i :: 0 <= i < |r| ==> r[i] in cs && r[i].id != id
    ensures forall i :: 0 <= i < |cs| && cs[i].id != id ==> cs[i] in r
    ensures Seqs.IsSubsequence(r, cs)
    ensures forall c {:trigger multiset(r)[c]} :: multiset(r)[c] == (if c.id != id then multiset(cs)[c] else 0)
  {
    Seqs.Filter(cs, IdIsNot(id))
  }

  /**
   * The active id after deleting `id`: unchanged unless the deleted conversation was the
   * active one, in which case the first remaining id, or null when none is left (or that id
   * is the empty string).
   */
  function ActiveAfterDelete(active: Option<string>, id: string, remaining: seq<Conversation>): (r: Option<string>)
    ensures active != Some(id) ==> r == active
    ensures active == Some(id) && remaining != [] && remaining[0].id != "" ==> r == Some(remaining[0].id)
    ensures active == Some(id) && (remaining == [] || remaining[0].id == "") ==> r.None?
  {
    if active == Some(id) then
      if remaining != [] && remaining[0].id != "" then Some(remaining[0].id) else None
    else active
  }

  /** Deleting the active conversation leaves no dangling active id. */
  lemma DeleteLeavesNoDangling(cs: seq<Conversation>, active: Option<string>, id: string)
    requires active.Some? ==> exists i :: 0 <= i < |cs| && cs[i].id == active.value
    ensures var r := ActiveAfterDelete(active, id, Remove(cs, id));
      r.Some? ==> exists i :: 0 <= i < |Remove(cs, id)| && Remove(cs, id)[i].id == r.value
  {
    var remaining := Remove(cs, id);
    if active.Some? && active.value != id {
      var i :| 0 <= i < |cs| && cs[i].id == active.value;
      assert cs[i] in remaining;
    }
  }

  /** The user profile that personalises the system prompt. */
  datatype Profile = Profile(
    name: string,
    occupation: string,
    interests: string,
    communicationStyle: string,
    language: string,
    customInstructions: string)

  const DefaultProfile: Profile := Profile("", "", "", "balanced", "french", "")

  const FormalStyle: string := "Adopte un ton formel et professionnel."
  const BalancedStyle: string := "Adopte un ton équilibré, ni trop formel ni trop décontracté."
  const CasualStyle: string := "Adopte un ton décontracté et amical."

  /** `styleMap[style] || styleMap.balanced`: an unknown style reads as `balanced`. */
  function StyleSentence(style: string): (r: string)
    ensures r == FormalStyle || r == BalancedStyle || r == CasualStyle
    ensures style == "formal" ==> r == FormalStyle
    ensures style == "casual" ==> r == CasualStyle
    ensures style != "formal" && style != "casual" ==> r == BalancedStyle
  {
    if style == "formal" then FormalStyle
    else if style == "casual" then CasualStyle
    else BalancedStyle
  }

  const FrenchLanguage: string := "Réponds toujours en français."
  const EnglishLanguage: string := "Always respond in English."
  const AutoLanguage: string := "Réponds dans la langue utilisée par l'utilisateur."

  /** `langMap[language] || langMap.french`: an unknown language reads as `french`. */
  function LanguageSentence(language: string): (r: string)
    ensures r == FrenchLanguage || r == EnglishLanguage || r == AutoLanguage
    ensures language == "english" ==> r == EnglishLanguage
    ensures language == "auto" ==> r == AutoLanguage
    ensures language != "english" && language != "auto" ==> r == FrenchLanguage
  {
    if language == "english" then EnglishLanguage
    else if language == "auto" then AutoLanguage
    else FrenchLanguage
  }

  const NamePrefix: string := "L'utilisateur s'appelle "
  const OccupationPrefix: string := "Il/Elle travaille comme "
  const InterestsPrefix: string := "Ses centres d'intérêt incluent : "
  const CustomPrefix: string := "Instructions supplémentaires : "
  function NameSentence(name: string): string { NamePrefix + name + "." }
  function OccupationSentence(occupation: string): string { OccupationPrefix + occupation + "." }
  function InterestsSentence(interests: string): string { InterestsPrefix + interests + "." }
  function CustomSentence(instructions: string): string { CustomPrefix + instructions }

  /** `[sentence]` when `field` is truthy, nothing otherwise. */
  function When(field: string, sentence: string): seq<string> {
    if field != "" then [sentence] else []
  }

  /**
   * The parts of the system prompt, in order: name, occupation, interests (each only when
   * filled in), the style sentence, the language sentence, the custom instructions (only
   * when filled in).
   */
  function PromptParts(p: Profile): (r: seq<string>)
    ensures 2 <= |r| <= 6
    ensures StyleSentence(p.communicationStyle) in r && LanguageSentence(p.language) in r
  {
    When(p.name, NameSentence(p.name))
    + When(p.occupation, OccupationSentence(p.occupation))
    + When(p.interests, InterestsSentence(p.interests))
    + [StyleSentence(p.communicationStyle), LanguageSentence(p.language)]
    + When(p.customInstructions, CustomSentence(p.customInstructions))
  }

  /** Exactly two parts when no optional field is filled in. */
  lemma PromptPartsShape(p: Profile)
    ensures (p.name == "" && p.occupation == "" && p.interests == "" && p.customInstructions == "")
            <==> |PromptParts(p)| == 2
  {
  }

  /** The joined parts are not empty and hold the style and the language sentences. */
  lemma JoinedPartsShape(p: Profile)
    ensures Join(PromptParts(p), " ") != ""
    ensures Contains(Join(PromptParts(p), " "), StyleSentence(p.communicationStyle))
    ensures Contains(Join(PromptParts(p), " "), LanguageSentence(p.language))
  {
    var parts := PromptParts(p);
    assert parts[0] != "" by {
      if p.name == "" && p.occupation == "" && p.interests == "" {
        assert parts[0] == StyleSentence(p.communicationStyle);
      }
    }
    assert parts[0] <= Join(parts, " ");
    var i :| 0 <= i < |parts| && parts[i] == StyleSentence(p.communicationStyle);
    JoinContains(parts, " ", i);
    var j :| 0 <= j < |parts| && parts[j] == LanguageSentence(p.language);
    JoinContains(parts, " ", j);
  }

  /**
   * `parts.length > 1 ? parts.join(' ') : ''`. There are always at least two parts, so the
   * `''` branch cannot be taken: the prompt is the parts joined by single spaces, never
   * empty, and always holds the style and the language sentences.
   */
  function SystemPrompt(p: Profile): (r: string)
    ensures r == Join(PromptParts(p), " ") && r != ""
    ensures Contains(r, StyleSentence(p.communicationStyle)) && Contains(r, LanguageSentence(p.language))
  {
    var parts := PromptParts(p);
    JoinedPartsShape(p);
    if |parts| > 1 then Join(parts, " ") else ""
  }

  /** With the default profile the prompt is the balanced-style and French sentences. */
  lemma DefaultSystemPrompt()
    ensures SystemPrompt(DefaultProfile) == BalancedStyle + " " + FrenchLanguage
  {
    PromptPartsShape(DefaultProfile);
    assert PromptParts(DefaultProfile) == [BalancedStyle, FrenchLanguage];
  }

  /**
   * The messages sent for `content`: the system prompt when it is non-empty, then the
   * conversation's earlier messages, then the new user message, once.
   */
  function RequestMessages(systemPrompt: string, prior: seq<Message>, content: string): (r: seq<Message>)
    ensures |r| == |prior| + 1 + (if systemPrompt != "" then 1 else 0)
    ensures r[|r| - 1] == OpenRouter.ApiMessage("user", content)
    ensures systemPrompt != "" ==> r[0] == OpenRouter.ApiMessage("system", systemPrompt)
    ensures r[|r| - 1 - |prior|..|r| - 1] == prior
  {
    (if systemPrompt != "" then [OpenRouter.ApiMessage("system", systemPrompt)] else [])
    + prior + [OpenRouter.ApiMessage("user", content)]
  }

  /**
   * The title of a first exchange whose title request failed: the first 50 characters of
   * the user's text, followed by "..." only when the text is longer.
   */
  function FallbackTitle(content: string): (r: string)
    ensures |content| <= 50 ==> r == content
    ensures |content| > 50 ==> |r| == 53 && r[..50] == content[..50] && r[50..] == "..."
  {
    Take(content, 50) + (if |content| > 50 then "..." else "")
  }

  /** The title given after a first exchange: the generated one, or the fallback. */
  function TitleAfterFirstExchange(generated: Result<string, string>, content: string): (r: string)
    ensures generated.Success? ==> r == generated.value
    ensures generated.Failure? ==> r == FallbackTitle(content)
  {
    if generated.Success? then generated.value else FallbackTitle(content)
  }
}

=== FILE: draft_recovery.dfy ===
/**
 * The recovery dialog of src/components/DraftRecoveryModal.jsx: whether it shows, the
 * truncated previews of the interrupted exchange and the character count of the recovered
 * response. The timestamp's locale formatting is not modelled.
 */
module DraftRecovery {
  import opened Wrappers

  const DefaultMaxLength: nat := 200
  const UserMessageMaxLength: nat := 100
  const Ellipsis := "..."

  /** `truncateContent`: missing or empty text gives `''`; longer text is cut and marked. */
  function TruncateContent(content: Option<string>, maxLength: nat): (r: string)
    ensures !Truthy(content) ==> r == ""
    ensures Truthy(content) && |content.value| <= maxLength ==> r == content.value
    ensures Truthy(content) && |content.value| > maxLength ==>
              |r| == maxLength + 3 && r[..maxLength] == content.value[..maxLength] && r[maxLength..] == Ellipsis
    ensures |r| <= maxLength + 3
  {
    if !Truthy(content) then ""
    else if |content.value| <= maxLength then content.value
    else content.value[..maxLength] + Ellipsis
  }

  /** Truncating a preview again changes nothing. */
  lemma TruncateIdempotent(content: Option<string>, maxLength: nat)
    ensures TruncateContent(Some(TruncateContent(content, maxLength)), maxLength) == TruncateContent(content, maxLength)
  {
    var r := TruncateContent(content, maxLength);
    if Truthy(content) && |content.value| > maxLength {
      assert r == r[..maxLength] + Ellipsis;
    }
  }

  /** The saved state of an interrupted response. */
  datatype Draft = Draft(userMessage: Option<string>, content: Option<string>, error: Option<string>)

  /** What the dialog shows. */
  datatype DraftView = DraftView(userPreview: Option<string>, charCount: nat, contentPreview: string,
                                 errorLine: Option<string>)

  /**
   * The dialog: nothing without a draft; otherwise the user's message cut at 100 characters
   * (shown only when there is one), the length of the recovered content (0 when missing) and
   * the content cut at 200 characters, and the saved error when there is one.
   */
  function View(draft: Option<Draft>): (v: Option<DraftView>)
    ensures v.Some? <==> draft.Some?
    ensures v.Some? ==> (v.value.userPreview.Some? <==> Truthy(draft.value.userMessage))
    ensures v.Some? && v.value.userPreview.Some? ==>
              v.value.userPreview.value == TruncateContent(draft.value.userMessage, UserMessageMaxLength)
    ensures v.Some? ==> v.value.charCount == (if draft.value.content.Some? then |draft.value.content.value| else 0)
    ensures v.Some? ==> v.value.contentPreview == TruncateContent(draft.value.content, DefaultMaxLength)
    ensures v.Some? ==> (v.value.errorLine.Some? <==> Truthy(draft.value.error))
    ensures v.Some? && v.value.errorLine.Some? ==> v.value.errorLine.value == "Erreur : " + draft.value.error.value
  {
    match draft
    case None => None
    case Some(d) =>
      Some(DraftView(
        if Truthy(d.userMessage) then Some(TruncateContent(d.userMessage, UserMessageMaxLength)) else None,
        if d.content.Some? then |d.content.value| else 0,
        TruncateContent(d.content, DefaultMaxLength),
        if Truthy(d.error) then Some("Erreur : " + d.error.value) else None))
  }
}

=== FILE: file_extractor.dfy ===
/**
 * The file classification of src/utils/fileExtractor.js: the table of supported MIME types,
 * the list of extensions read as text, which files are supported, the type shown for a file,
 * the outcome of an extraction, and the `accept` list of the file input.
 *
 * The readers themselves (the PDF text extraction and the browser's text reader) are not
 * modelled: their outcomes are parameters.
 */
module FileExtractor {
  import opened Wrappers
  import opened Text

  /** One entry of `SUPPORTED_FILE_TYPES`: a MIME type with its extension and display name. */
  datatype TypeEntry = TypeEntry(mime: string, extension: string, name: string)

  /** `SUPPORTED_FILE_TYPES`, in the order of its keys. */
  const SupportedFileTypes: seq<TypeEntry> := [
    TypeEntry("application/pdf", "pdf", "PDF"),
    TypeEntry("text/plain", "txt", "Texte"),
    TypeEntry("text/markdown", "md", "Markdown"),
    TypeEntry("text/x-markdown", "md", "Markdown"),
    TypeEntry("application/json", "json", "JSON"),
    TypeEntry("text/javascript", "js", "JavaScript"),
    TypeEntry("text/typescript", "ts", "TypeScript"),
    TypeEntry("text/html", "html", "HTML"),
    TypeEntry("text/css", "css", "CSS"),
    TypeEntry("text/csv", "csv", "CSV"),
    TypeEntry("application/xml", "xml", "XML"),
    TypeEntry("text/xml", "xml", "XML")
  ]

  /** `TEXT_EXTENSIONS`. */
  const TextExtensions: seq<string> := [
    "txt", "md", "markdown", "json", "js", "jsx", "ts", "tsx",
    "html", "htm", "css", "scss", "less", "csv", "xml", "yaml",
    "yml", "toml", "ini", "conf", "config", "env", "sh", "bash",
    "py", "rb", "php", "java", "c", "cpp", "h", "hpp", "cs",
    "go", "rs", "swift", "kt", "scala", "sql", "graphql", "vue",
    "svelte", "astro"
  ]

  const PdfMime := "application/pdf"
  const UnsupportedPrefix := "Type de fichier non supporté: "
  const UnknownName := "Inconnu"

  /** The fields of a browser `File` the classifier reads; `mimeType` is `""` when unknown. */
  datatype File = File(name: string, mimeType: string, size: nat)

  /** `table[mime]`: the entry for a MIME type, if the table has one. */
  function Lookup(table: seq<TypeEntry>, mime: string): (r: Option<TypeEntry>)
    ensures r.Some? ==> r.value in table && r.value.mime == mime
    ensures r.None? <==> forall i :: 0 <= i < |table| ==> table[i].mime != mime
    decreases |table|
  {
    if table == [] then None
    else if table[0].mime == mime then Some(table[0])
    else Lookup(table[1..], mime)
  }

  /** `name.split('.').pop().toLowerCase()`: the text after the last dot, lower-cased. */
  function Extension(name: string): (r: string)
    ensures '.' !in r && |r| <= |name|
    ensures '.' !in name ==> r == Lower(name)
  {
    var piece := Last(Split(name, '.'));
    SplitLastPiece(name, '.');
    if '.' !in name then SplitNoSeparator(name, '.'); Lower(piece)
    else
      assert forall k :: 0 <= k < |piece| ==> piece[k] != '.' && LowerChar(piece[k]) != '.';
      Lower(piece)
  }

  /** A name ending in `.ext`, with no dot in `ext`, has extension `ext`, lower-cased. */
  lemma ExtensionAfterLastDot(base: string, ext: string)
    requires '.' !in ext
    ensures Extension(base + "." + ext) == Lower(ext)
  {
    var s := base + "." + ext;
    var x := Last(Split(s, '.'));
    SplitLastPiece(s, '.');
    assert s[|s| - |ext| - 1] == '.';
    assert forall k :: |s| - |ext| <= k < |s| ==> s[k] == ext[k - (|s| - |ext|)] != '.';
    assert forall k :: |s| - |x| <= k < |s| ==> s[k] == x[k - (|s| - |x|)] != '.';
    assert |x| == |ext|;
    assert ext == s[|s| - |ext|..];
  }

  /**
   * `isFileSupported` against the tables `types` and `exts`: a known MIME type, or a `pdf` or
   * text extension.
   */
  predicate SupportedIn(f: File, types: seq<TypeEntry>, exts: seq<string>) {
    Lookup(types, f.mimeType).Some? || Extension(f.name) == "pdf" || Extension(f.name) in exts
  }

  /** `isFileSupported`. */
  predicate IsFileSupported(f: File)
    ensures IsFileSupported(f) <==> GetFileTypeInfo(f).kind != Unknown
  {
    SupportedIffKnownIn(f, SupportedFileTypes, TextExtensions, 0);
    SupportedIn(f, SupportedFileTypes, TextExtensions)
  }

  datatype Kind = Pdf | TextKind | Unknown

  /** What `getFileTypeInfo` returns: a kind and the name shown to the user. */
  datatype FileTypeInfo = FileTypeInfo(kind: Kind, name: string)

  /**
   * `getFileTypeInfo` against the tables, tested in order: a PDF by extension or type, then a
   * known MIME type (its table name), then a text extension (upper-cased), then unknown.
   */
  function TypeInfoIn(f: File, types: seq<TypeEntry>, exts: seq<string>): FileTypeInfo {
    var ext := Extension(f.name);
    if ext == "pdf" || f.mimeType == PdfMime then FileTypeInfo(Pdf, "PDF")
    else if Lookup(types, f.mimeType).Some? then FileTypeInfo(TextKind, Lookup(types, f.mimeType).value.name)
    else if ext in exts then FileTypeInfo(TextKind, Upper(ext))
    else FileTypeInfo(Unknown, UnknownName)
  }

  /** `getFileTypeInfo`. */
  function GetFileTypeInfo(f: File): (r: FileTypeInfo)
    ensures r.kind == Pdf <==> Extension(f.name) == "pdf" || f.mimeType == PdfMime
    ensures r.kind == Pdf ==> r.name == "PDF"
    ensures r.kind == Unknown <==>
              (r.kind != Pdf && Lookup(SupportedFileTypes, f.mimeType).None? && Extension(f.name) !in TextExtensions)
    ensures r.kind == Unknown ==> r.name == UnknownName
  {
    TypeInfoIn(f, SupportedFileTypes, TextExtensions)
  }

  /** The two classifiers agree whenever the MIME table lists the PDF type. */
  lemma SupportedIffKnownIn(f: File, types: seq<TypeEntry>, exts: seq<string>, pdfAt: nat)
    requires pdfAt < |types| && types[pdfAt].mime == PdfMime
    ensures SupportedIn(f, types, exts) <==> TypeInfoIn(f, types, exts).kind != Unknown
  {
    assert Lookup(types, PdfMime).Some?;
  }

  /** The record `extractTextFromFile` resolves with. */
  datatype Extracted = Extracted(content: string, name: string, typeName: string, size: nat)

  /**
   * `extractTextFromFile`: an unsupported file fails with its type (or, without one, its
   * name) before any reader runs; otherwise the PDF or text reader's outcome is passed on,
   * and a read text is returned with the file's name and size and the classifier's name.
   */
  function ExtractTextFromFile(f: File, pdfText: Result<string, string>, fileText: Result<string, string>)
    : (r: Result<Extracted, string>)
    ensures !IsFileSupported(f) ==>
              r == Failure(UnsupportedPrefix + (if f.mimeType != "" then f.mimeType else f.name))
    ensures IsFileSupported(f) ==>
              var read := if GetFileTypeInfo(f).kind == Pdf then pdfText else fileText;
              (r.Failure? <==> read.Failure?)
              && (read.Failure? ==> r.error == read.error)
              && (read.Success? ==> r.value == Extracted(read.value, f.name, GetFileTypeInfo(f).name, f.size))
  {
    if !IsFileSupported(f) then
      Failure(UnsupportedPrefix + (if f.mimeType != "" then f.mimeType else f.name))
    else
      var info := GetFileTypeInfo(f);
      var read := if info.kind == Pdf then pdfText else fileText;
      match read
      case Failure(e) => Failure(e)
      case Success(content) => Success(Extracted(content, f.name, info.name, f.size))
  }

  /** The entries of the `accept` attribute: the MIME types, `.pdf`, then each text extension. */
  function AcceptEntries(types: seq<TypeEntry>, exts: seq<string>): (r: seq<string>)
    ensures |r| == |types| + 1 + |exts|
    ensures forall i :: 0 <= i < |types| ==> r[i] == types[i].mime
    ensures r[|types|] == ".pdf"
    ensures forall i :: 0 <= i < |exts| ==> r[|types| + 1 + i] == "." + exts[i]
  {
    seq(|types|, i requires 0 <= i < |types| => types[i].mime)
    + [".pdf"]
    + seq(|exts|, i requires 0 <= i < |exts| => "." + exts[i])
  }

  /** `getAcceptedFileTypes`: the entries joined by commas. */
  function AcceptedFileTypes(): (r: string)
    ensures forall i :: 0 <= i < |AcceptEntries(SupportedFileTypes, TextExtensions)| ==>
              Contains(r, AcceptEntries(SupportedFileTypes, TextExtensions)[i])
  {
    var es := AcceptEntries(SupportedFileTypes, TextExtensions);
    assert forall i :: 0 <= i < |es| ==> Contains(Join(es, ","), es[i]) by {
      forall i | 0 <= i < |es| ensures Contains(Join(es, ","), es[i]) {
        JoinContains(es, ",", i);
      }
    }
    Join(es, ",")
  }

  /**
   * The accept list covers every supported file: by its MIME type, or by its extension with
   * a leading dot.
   */
  lemma AcceptCoversSupported(f: File, types: seq<TypeEntry>, exts: seq<string>)
    requires SupportedIn(f, types, exts)
    ensures f.mimeType in AcceptEntries(types, exts) || "." + Extension(f.name) in AcceptEntries(types, exts)
  {
    var es := AcceptEntries(types, exts);
    var ext := Extension(f.name);
    if Lookup(types, f.mimeType).Some? {
      var i :| 0 <= i < |types| && types[i] == Lookup(types, f.mimeType).value;
      assert es[i] == f.mimeType;
    } else if ext == "pdf" {
      assert es[|types|] == "." + ext;
    } else {
      var i :| 0 <= i < |exts| && exts[i] == ext;
      assert es[|types| + 1 + i] == "." + ext;
    }
  }
}

=== FILE: image_utils.dfy ===
/**
 * The image rules of src/utils/imageUtils.js: which models take images, which files are
 * accepted (format, then size), the image found in a clipboard paste, the dimensions an
 * oversized image is scaled to, and the guard in front of image processing.
 *
 * Reading a file as a data URL, decoding it and re-encoding it on a canvas are not modelled:
 * their outcomes are parameters.
 */
module ImageUtils {
  import opened Wrappers
  import opened Text

  const SupportedTypes: seq<string> := ["image/jpeg", "image/png", "image/gif", "image/webp"]
  const MaxSize: nat := 4 * 1024 * 1024
  const DefaultMaxWidth: nat := 2048
  const ImagePrefix := "image/"

  const NoFileMessage := "Aucun fichier fourni"
  const UnsupportedPrefix := "Format non supporté. Utilisez: "
  const TooLargePrefix := "Fichier trop volumineux ("
  const TooLargeSuffix := "MB). Maximum: 4MB"

  /** The fields of a browser `File` the checks read. */
  datatype ImageFile = ImageFile(name: string, mimeType: string, size: nat)

  /** `model.architecture?.input_modalities`, absent when the model or the list is missing. */
  function ModelSupportsImageInput(inputModalities: Option<seq<string>>): (r: bool)
    ensures r <==> inputModalities.Some? && exists i :: 0 <= i < |inputModalities.value| && inputModalities.value[i] == "image"
  {
    if inputModalities.None? then false else "image" in inputModalities.value
  }

  /** Why a file is refused. */
  datatype Reason = NoFile | UnsupportedFormat | TooLarge(size: nat)

  datatype Validation = Valid | Invalid(reason: Reason)

  /**
   * `validateImage`: a missing file is refused first, then a type outside the supported list
   * (whatever the size), then a size above 4 MiB; a file of exactly 4 MiB is accepted.
   */
  function ValidateImage(file: Option<ImageFile>): (v: Validation)
    ensures v == Valid <==> file.Some? && file.value.mimeType in SupportedTypes && file.value.size <= MaxSize
    ensures file.None? ==> v == Invalid(NoFile)
    ensures file.Some? && file.value.mimeType !in SupportedTypes ==> v == Invalid(UnsupportedFormat)
    ensures file.Some? && file.value.mimeType in SupportedTypes && file.value.size > MaxSize ==>
              v == Invalid(TooLarge(file.value.size))
  {
    match file
    case None => Invalid(NoFile)
    case Some(f) =>
      if f.mimeType !in SupportedTypes then Invalid(UnsupportedFormat)
      else if f.size > MaxSize then Invalid(TooLarge(f.size))
      else Valid
  }

  /** The subtype of each supported type, upper-cased: `JPEG, PNG, GIF, WEBP`. */
  function FormatList(types: seq<string>): string {
    Join(seq(|types|, i requires 0 <= i < |types| => Upper(if |Split(types[i], '/')| > 1 then Split(types[i], '/')[1] else "")), ", ")
  }

  /**
   * The message of a refusal; `formatMB` stands for the size in MiB with one decimal
   * (`(size / 2^20).toFixed(1)`).
   */
  /** The three messages start differently, so a message tells its reason. */
  lemma MessagePrefixesDiffer(r: string)
    ensures !(UnsupportedPrefix <= r && TooLargePrefix <= r)
    ensures !(UnsupportedPrefix <= NoFileMessage) && !(TooLargePrefix <= NoFileMessage)
  {
    assert UnsupportedPrefix[1] != TooLargePrefix[1];
    assert NoFileMessage[0] != UnsupportedPrefix[0] && NoFileMessage[0] != TooLargePrefix[0];
  }

  function Message(reason: Reason, formatMB: nat -> string): (r: string)
    ensures reason.NoFile? <==> r == NoFileMessage
    ensures reason.UnsupportedFormat? <==> UnsupportedPrefix <= r
    ensures reason.TooLarge? <==> TooLargePrefix <= r
    ensures reason.TooLarge? ==>
              && |r| == |TooLargePrefix| + |formatMB(reason.size)| + |TooLargeSuffix|
              && r[|TooLargePrefix|..|r| - |TooLargeSuffix|] == formatMB(reason.size)
              && r[|r| - |TooLargeSuffix|..] == TooLargeSuffix
  {
    match reason
    case NoFile =>
      MessagePrefixesDiffer(NoFileMessage);
      NoFileMessage
    case UnsupportedFormat =>
      var r := UnsupportedPrefix + FormatList(SupportedTypes);
      MessagePrefixesDiffer(r);
      assert r[..|UnsupportedPrefix|] == UnsupportedPrefix;
      r
    case TooLarge(size) =>
      var mb := formatMB(size);
      var r := TooLargePrefix + mb + TooLargeSuffix;
      MessagePrefixesDiffer(r);
      assert r[..|TooLargePrefix|] == TooLargePrefix;
      assert r[|TooLargePrefix|..|r| - |TooLargeSuffix|] == mb;
      r
  }

  /** An item of the clipboard's `items`; `asFile` is what `getAsFile()` returns. */
  datatype ClipboardItem = ClipboardItem(mimeType: string, asFile: Option<ImageFile>)

  predicate IsImageType(t: string) {
    ImagePrefix <= t
  }

  /**
   * `getImageFromClipboard`: the file of the first item whose type starts with `image/`;
   * nothing when there are no items or none of them is an image.
   */
  method GetImageFromClipboard(items: Option<seq<ClipboardItem>>) returns (r: Option<ImageFile>)
    ensures items.None? ==> r.None?
    ensures items.Some? && (forall i :: 0 <= i < |items.value| ==> !IsImageType(items.value[i].mimeType)) ==> r.None?
    ensures items.Some? ==>
              forall i :: 0 <= i < |items.value| && IsImageType(items.value[i].mimeType)
                          && (forall j :: 0 <= j < i ==> !IsImageType(items.value[j].mimeType))
                          ==> r == items.value[i].asFile
  {
    if items.None? {
      return None;
    }
    var xs := items.value;
    var k := 0;
    while k < |xs|
      invariant 0 <= k <= |xs|
      invariant forall j :: 0 <= j < k ==> !IsImageType(xs[j].mimeType)
    {
      if IsImageType(xs[k].mimeType) {
        return xs[k].asFile;
      }
      k := k + 1;
    }
    return None;
  }

  /** `q` is `a / b` rounded to the nearest integer, halves up: `q - 1/2 <= a / b < q + 1/2`. */
  predicate RoundsTo(q: nat, a: nat, b: nat) {
    2 * q * b <= 2 * a + b < 2 * q * b + 2 * b
  }

  /** `Math.round(a / b)` for non-negative operands. */
  function RoundDiv(a: nat, b: nat): (q: nat)
    requires b > 0
    ensures RoundsTo(q, a, b)
  {
    (2 * a + b) / (2 * b)
  }

  /** What `compressImage` does to the dimensions. */
  datatype Resize = Original | Scaled(width: nat, height: nat)

  /**
   * The dimension rule of `compressImage`: an image within `maxWidth` on both sides is kept;
   * otherwise its longer side becomes `maxWidth` and the other side is scaled in proportion,
   * rounded to the nearest pixel, so that neither side exceeds `maxWidth`.
   */
  method ResizeDimensions(imgWidth: nat, imgHeight: nat, maxWidth: nat) returns (r: Resize)
    ensures r == Original <==> imgWidth <= maxWidth && imgHeight <= maxWidth
    ensures r.Scaled? ==> r.width <= maxWidth && r.height <= maxWidth
    ensures r.Scaled? && imgWidth > imgHeight ==>
              r.width == maxWidth && RoundsTo(r.height, imgHeight * maxWidth, imgWidth)
    ensures r.Scaled? && imgWidth <= imgHeight ==>
              r.height == maxWidth && RoundsTo(r.width, imgWidth * maxWidth, imgHeight)
  {
    if imgWidth <= maxWidth && imgHeight <= maxWidth {
      return Original;
    }
    var width, height := imgWidth, imgHeight;
    if width > height {
      if width > maxWidth {
        height := RoundDiv(height * maxWidth, width);
        ShorterSideFits(imgHeight, imgWidth, maxWidth, height);
        width := maxWidth;
      }
    } else {
      if height > maxWidth {
        width := RoundDiv(width * maxWidth, height);
        ShorterSideFits(imgWidth, imgHeight, maxWidth, width);
        height := maxWidth;
      }
    }
    return Scaled(width, height);
  }

  /** `compressImage` with its default bound: both sides end within 2048 pixels. */
  method DefaultResize(imgWidth: nat, imgHeight: nat) returns (r: Resize)
    ensures r == Original <==> imgWidth <= 2048 && imgHeight <= 2048
    ensures r.Scaled? ==> r.width <= 2048 && r.height <= 2048
    ensures r.Scaled? ==> r.width == 2048 || r.height == 2048
  {
    r := ResizeDimensions(imgWidth, imgHeight, DefaultMaxWidth);
  }

  /** Scaling the shorter side by `maxWidth / longer` and rounding keeps it within `maxWidth`. */
  lemma ShorterSideFits(shorter: nat, longer: nat, maxWidth: nat, q: nat)
    requires shorter <= longer && longer > 0
    requires RoundsTo(q, shorter * maxWidth, longer)
    ensures q <= maxWidth
  {
    assert shorter * maxWidth <= longer * maxWidth by {
      MulLe(shorter, longer, maxWidth);
    }
    assert 2 * q * longer < 2 * (maxWidth + 1) * longer;
    if q > maxWidth {
      MulLe(maxWidth + 1, q, 2 * longer);
    }
  }

  lemma MulLe(a: nat, b: nat, c: nat)
    requires a <= b
    ensures a * c <= b * c
  {
  }

  /** What `processImageFile` resolves with. */
  datatype Processed = Processed(url: string, name: string)

  /**
   * `processImageFile`: an invalid file fails with its validation message before anything is
   * read; otherwise the data URL read from the file (`readDataUrl`), compressed when asked
   * (`compressImage`), is returned with the file's name.
   */
  function ProcessImageFile(file: Option<ImageFile>, compress: bool, readDataUrl: Result<string, string>,
                            compressImage: string -> Result<string, string>, formatMB: nat -> string)
    : (r: Result<Processed, string>)
    ensures ValidateImage(file).Invalid? ==> r == Failure(Message(ValidateImage(file).reason, formatMB))
    ensures r.Success? ==> ValidateImage(file) == Valid && readDataUrl.Success? && r.value.name == file.value.name
    ensures r.Success? && !compress ==> r.value.url == readDataUrl.value
    ensures r.Success? && compress ==> compressImage(readDataUrl.value) == Success(r.value.url)
  {
    match ValidateImage(file)
    case Invalid(reason) => Failure(Message(reason, formatMB))
    case Valid =>
      match readDataUrl
      case Failure(e) => Failure(e)
      case Success(url) =>
        if !compress then Success(Processed(url, file.value.name))
        else
          match compressImage(url)
          case Failure(e) => Failure(e)
          case Success(small) => Success(Processed(small, file.value.name))
  }
}

=== FILE: markdown.dfy ===
/**
 * `simpleMarkdownToHtml` of src/components/Chat/StreamingMessageOptimized.jsx: the cheap
 * converter used while a response streams in. It escapes `&`, `<` and `>`, applies a fixed
 * chain of global regular-expression rewrites, turns newlines into paragraph breaks and
 * `<br>`, and wraps the result in a paragraph.
 *
 * Each global rewrite `s.replace(/re/g, f)` is modelled by `Scan`, which walks the ORIGINAL
 * string left to right: where the expression matches at the current index the replacement
 * is emitted and the walk resumes after the match, otherwise one character is copied. None
 * of the expressions here can match the empty string, and each is written so that its
 * backtracking has a single outcome, which the per-rule matchers below compute directly.
 */
module Markdown {
  import opened Wrappers
  import opened Text

  // ---------------------------------------------------------------------------------------
  // Escaping

  /** `s.replace(/c/g, rep)` for a single character `c`. */
  function ReplaceChar(s: string, c: char, rep: string): (r: string)
    ensures c !in rep ==> c !in r
    ensures c !in s ==> r == s
    decreases |s|
  {
    if s == [] then []
    else (if s[0] == c then rep else [s[0]]) + ReplaceChar(s[1..], c, rep)
  }

  /** Every character of the result comes from the input or from the replacement. */
  lemma {:induction false} ReplaceCharOrigin(s: string, c: char, rep: string, d: char)
    ensures d in ReplaceChar(s, c, rep) ==> d in s || d in rep
    decreases |s|
  {
    if s != [] {
      var head := if s[0] == c then rep else [s[0]];
      assert ReplaceChar(s, c, rep) == head + ReplaceChar(s[1..], c, rep);
      ReplaceCharOrigin(s[1..], c, rep, d);
      assert d in s[1..] ==> d in s;
    }
  }

  /** Replacing a character distributes over concatenation. */
  lemma {:induction false} ReplaceCharAppend(a: string, b: string, c: char, rep: string)
    ensures ReplaceChar(a + b, c, rep) == ReplaceChar(a, c, rep) + ReplaceChar(b, c, rep)
    decreases |a|
  {
    if a == [] {
      assert a + b == b;
    } else {
      assert (a + b)[1..] == a[1..] + b;
      ReplaceCharAppend(a[1..], b, c, rep);
    }
  }

  const Amp := "&amp;"
  const Lt := "&lt;"
  const Gt := "&gt;"

  /** The three escaping passes, `&` first: no raw `<` or `>` is left. */
  function Escape(s: string): (r: string)
    ensures '<' !in r && '>' !in r
  {
    var b := ReplaceChar(ReplaceChar(s, '&', Amp), '<', Lt);
    ReplaceCharOrigin(b, '>', Gt, '<');
    ReplaceChar(b, '>', Gt)
  }

  /** The entity for one character. */
  function EscapeChar(c: char): string {
    if c == '&' then Amp else if c == '<' then Lt else if c == '>' then Gt else [c]
  }

  /** Reference definition: every character replaced by its entity in a single pass. */
  function EscapeOnce(s: string): string
    decreases |s|
  {
    if s == [] then [] else EscapeChar(s[0]) + EscapeOnce(s[1..])
  }

  /** A one-character string is replaced or kept whole. */
  lemma ReplaceCharSingle(x: char, c: char, rep: string)
    ensures ReplaceChar([x], c, rep) == if x == c then rep else [x]
  {
    assert [x][1..] == [];
  }

  /** The three passes on one character give its entity. */
  lemma EscapePassesOnChar(x: char)
    ensures ReplaceChar(ReplaceChar(ReplaceChar([x], '&', Amp), '<', Lt), '>', Gt) == EscapeChar(x)
  {
    ReplaceCharSingle(x, '&', Amp);
    if x == '&' {
      assert '<' !in Amp && '>' !in Amp;
    } else {
      ReplaceCharSingle(x, '<', Lt);
      if x == '<' {
        assert '>' !in Lt;
      } else {
        ReplaceCharSingle(x, '>', Gt);
      }
    }
  }

  /**
   * Because `&` is replaced before `<` and `>`, the entities that the later passes insert are
   * never escaped again: the three passes equal one pass over the characters.
   */
  lemma {:induction false} EscapeIsSinglePass(s: string)
    ensures Escape(s) == EscapeOnce(s)
    decreases |s|
  {
    if s != [] {
      var x, rest := s[0], s[1..];
      assert s == [x] + rest;
      var a1, a2 := ReplaceChar([x], '&', Amp), ReplaceChar(rest, '&', Amp);
      ReplaceCharAppend([x], rest, '&', Amp);
      var b1, b2 := ReplaceChar(a1, '<', Lt), ReplaceChar(a2, '<', Lt);
      ReplaceCharAppend(a1, a2, '<', Lt);
      ReplaceCharAppend(b1, b2, '>', Gt);
      EscapePassesOnChar(x);
      EscapeIsSinglePass(rest);
    }
  }

  /** The escaped text holds no raw `<` or `>`, and every character comes from the input or an entity. */
  lemma EscapedCharacters(s: string)
    ensures '<' !in Escape(s) && '>' !in Escape(s)
    ensures forall d :: d in Escape(s) ==> d in s || d in Amp || d in Lt || d in Gt
  {
    var a := ReplaceChar(s, '&', Amp);
    var b := ReplaceChar(a, '<', Lt);
    ReplaceCharOrigin(b, '>', Gt, '<');
    forall d
      ensures d in Escape(s) ==> d in s || d in Amp || d in Lt || d in Gt
    {
      ReplaceCharOrigin(b, '>', Gt, d);
      ReplaceCharOrigin(a, '<', Lt, d);
      ReplaceCharOrigin(s, '&', Amp, d);
    }
  }

  /** Decoding the three entities, the partner of `Escape`. */
  function Unescape(s: string): string
    decreases |s|
  {
    if s == [] then []
    else if Amp <= s then "&" + Unescape(s[|Amp|..])
    else if Lt <= s then "<" + Unescape(s[|Lt|..])
    else if Gt <= s then ">" + Unescape(s[|Gt|..])
    else [s[0]] + Unescape(s[1..])
  }

  /** Decoding one entity and then the rest. */
  lemma UnescapeStep(c: char, e: string)
    ensures Unescape(EscapeChar(c) + e) == [c] + Unescape(e)
  {
    if c == '&' {
      UnescapeAmp(e);
    } else if c == '<' {
      UnescapeLt(e);
    } else if c == '>' {
      UnescapeGt(e);
    } else {
      UnescapeOther(c, e);
    }
  }

  lemma UnescapeAmp(e: string)
    ensures Unescape(Amp + e) == "&" + Unescape(e)
  {
    var w := Amp + e;
    assert w[..|Amp|] == Amp && w[|Amp|..] == e;
  }

  lemma UnescapeLt(e: string)
    ensures Unescape(Lt + e) == "<" + Unescape(e)
  {
    var w := Lt + e;
    assert w[1] == 'l';
    assert w[..|Lt|] == Lt && w[|Lt|..] == e;
  }

  lemma UnescapeGt(e: string)
    ensures Unescape(Gt + e) == ">" + Unescape(e)
  {
    var w := Gt + e;
    assert w[1] == 'g';
    assert w[..|Gt|] == Gt && w[|Gt|..] == e;
  }

  lemma UnescapeOther(c: char, e: string)
    requires c != '&'
    ensures Unescape([c] + e) == [c] + Unescape(e)
  {
    var w := [c] + e;
    assert w[0] == c && w[1..] == e;
  }

  /** No entity is escaped twice: decoding the escaped text gives back the input. */
  lemma {:induction false} UnescapeEscape(s: string)
    ensures Unescape(Escape(s)) == s
  {
    EscapeIsSinglePass(s);
    UnescapeEscapeOnce(s);
  }

  lemma {:induction false} UnescapeEscapeOnce(s: string)
    ensures Unescape(EscapeOnce(s)) == s
    decreases |s|
  {
    if s != [] {
      UnescapeEscapeOnce(s[1..]);
      UnescapeStep(s[0], EscapeOnce(s[1..]));
      assert s == [s[0]] + s[1..];
    }
  }

  // ---------------------------------------------------------------------------------------
  // Character classes and runs

  /** `\w`. */
  predicate IsWordChar(c: char) {
    'a' <= c <= 'z' || 'A' <= c <= 'Z' || '0' <= c <= '9' || c == '_'
  }

  /** `\d`. */
  predicate IsDigit(c: char) {
    '0' <= c <= '9'
  }

  /** `^` under the multiline flag. */
  predicate LineStart(s: string, i: nat)
    requires i <= |s|
  {
    i == 0 || IsLineTerminator(s[i - 1])
  }

  datatype CharClass = Word | Digit | Newline | AnyBut(stop: char) | InLine

  predicate InClass(cls: CharClass, c: char) {
    match cls
    case Word => IsWordChar(c)
    case Digit => IsDigit(c)
    case Newline => c == '\n'
    case AnyBut(stop) => c != stop
    case InLine => !IsLineTerminator(c)
  }

  /** The end of the longest run of `cls` characters starting at `i`: a greedy `[cls]*`. */
  function Span(s: string, i: nat, cls: CharClass): (j: nat)
    requires i <= |s|
    ensures i <= j <= |s|
    ensures forall k :: i <= k < j ==> InClass(cls, s[k])
    ensures j < |s| ==> !InClass(cls, s[j])
    decreases |s| - i
  {
    if i == |s| || !InClass(cls, s[i]) then i else Span(s, i + 1, cls)
  }

  /** Three backticks at `k`. */
  predicate IsFence(s: string, k: int) {
    0 <= k && k + 3 <= |s| && s[k] == '`' && s[k + 1] == '`' && s[k + 2] == '`'
  }

  /** The first fence at or after `i`: the lazy `[\s\S]*?```. */
  function FindFence(s: string, i: nat): (r: Option<nat>)
    requires i <= |s|
    ensures r.Some? ==> i <= r.value && IsFence(s, r.value)
    ensures r.Some? ==> forall k :: i <= k < r.value ==> !IsFence(s, k)
    ensures r.None? ==> forall k :: i <= k ==> !IsFence(s, k)
    decreases |s| - i
  {
    if IsFence(s, i) then Some(i)
    else if i == |s| then None
    else FindFence(s, i + 1)
  }

  // ---------------------------------------------------------------------------------------
  // The rewrites

  /** A match: where the walk resumes, and the replacement text. */
  datatype Hit = Hit(end: nat, out: string)

  /** The rewrites, in the order the converter applies them. */
  datatype Rule =
    | CodeBlock        // /```(\w*)\n([\s\S]*?)```/g
    | InlineCode       // /`([^`]+)`/g
    | Bold             // /\*\*([^*]+)\*\*/g
    | BoldUnderscore   // /__([^_]+)__/g
    | ItalicStar       // /(?<!\w)\*([^*]+)\*(?!\w)/g
    | ItalicUnderscore // /(?<!\w)_([^_]+)_(?!\w)/g
    | Heading3         // /^### (.+)$/gm
    | Heading2         // /^## (.+)$/gm
    | Heading1         // /^# (.+)$/gm
    | Bullet           // /^[-*] (.+)$/gm
    | Numbered         // /^\d+\. (.+)$/gm
    | Link             // /\[([^\]]+)\]\(([^)]+)\)/g
    | ParagraphBreak   // /\n\n+/g

  const Rules: seq<Rule> := [CodeBlock, InlineCode, Bold, BoldUnderscore, ItalicStar, ItalicUnderscore,
                             Heading3, Heading2, Heading1, Bullet, Numbered, Link, ParagraphBreak]

  const Fence := "```"
  const ParagraphOpen := "<p class=\"streaming-p\">"
  const ParagraphClose := "</p>"

  const PreOpen := "<pre class=\"streaming-code-block\" data-lang=\""
  const PreMiddle := "\"><code>"
  const PreClose := "</code></pre>"
  const DefaultLang := "code"
  const InlineCodeOpen := "<code class=\"streaming-inline-code\">"
  const InlineCodeClose := "</code>"
  const StrongOpen := "<strong>"
  const StrongClose := "</strong>"
  const EmOpen := "<em>"
  const EmClose := "</em>"
  const BulletOpen := "<li class=\"streaming-li\">"
  const NumberedOpen := "<li class=\"streaming-li-ordered\">"
  const ItemClose := "</li>"
  const LinkOpen := "<a href=\""
  const LinkMiddle := "\" target=\"_blank\" rel=\"noopener\" class=\"streaming-link\">"
  const LinkClose := "</a>"
  const H3Marks := "### "
  const H2Marks := "## "
  const H1Marks := "# "
  const H3Open := "<h3 class=\"streaming-h3\">"
  const H2Open := "<h2 class=\"streaming-h2\">"
  const H1Open := "<h1 class=\"streaming-h1\">"
  const H3Close := "</h3>"
  const H2Close := "</h2>"
  const H1Close := "</h1>"

  /** The block a fenced code block becomes; an empty language tag is shown as `code`. */
  function PreBlock(lang: string, code: string): string {
    PreOpen + (if lang == "" then DefaultLang else lang) + PreMiddle + code + PreClose
  }

  function MatchCodeBlock(s: string, i: nat): (r: Option<Hit>)
    requires i < |s|
    ensures r.Some? ==> i < r.value.end <= |s|
  {
    if !IsFence(s, i) then None
    else
      var j := Span(s, i + 3, Word);
      if j == |s| || s[j] != '\n' then None
      else match FindFence(s, j + 1)
        case None => None
        case Some(k) => Some(Hit(k + 3, PreBlock(s[i + 3..j], s[j + 1..k])))
  }

  /** `M([^d]+)M` for a marker `M` made of the character `d`, between `open` and `close`. */
  function MatchDelimited(s: string, i: nat, marker: string, d: char, open: string, close: string): (r: Option<Hit>)
    requires i < |s| && |marker| >= 1
    ensures r.Some? ==> i < r.value.end <= |s|
  {
    if !OccursAt(s, marker, i) then None
    else
      var j := Span(s, i + |marker|, AnyBut(d));
      if j > i + |marker| && OccursAt(s, marker, j) then Some(Hit(j + |marker|, open + s[i + |marker|..j] + close))
      else None
  }

  /** `(?<!\w)d([^d]+)d(?!\w)`: emphasis that does not start or end inside a word. */
  function MatchItalic(s: string, i: nat, d: char): (r: Option<Hit>)
    requires i < |s|
    ensures r.Some? ==> i < r.value.end <= |s|
  {
    if s[i] != d || (i > 0 && IsWordChar(s[i - 1])) then None
    else
      var j := Span(s, i + 1, AnyBut(d));
      if j > i + 1 && j < |s| && (j + 1 == |s| || !IsWordChar(s[j + 1])) then Some(Hit(j + 1, EmOpen + s[i + 1..j] + EmClose))
      else None
  }

  /** `(.+)$` from `start`: the rest of the line, which must not be empty. */
  function MatchRestOfLine(s: string, start: nat, open: string, close: string): (r: Option<Hit>)
    requires start <= |s|
    ensures r.Some? ==> start < r.value.end <= |s|
  {
    var j := Span(s, start, InLine);
    if j > start then Some(Hit(j, open + s[start..j] + close)) else None
  }

  function MatchHeading(s: string, i: nat, marks: string, open: string, close: string): (r: Option<Hit>)
    requires i < |s|
    ensures r.Some? ==> i < r.value.end <= |s|
  {
    if LineStart(s, i) && OccursAt(s, marks, i) then
      MatchRestOfLine(s, i + |marks|, open, close)
    else None
  }

  function MatchBullet(s: string, i: nat): (r: Option<Hit>)
    requires i < |s|
    ensures r.Some? ==> i < r.value.end <= |s|
  {
    if LineStart(s, i) && (s[i] == '-' || s[i] == '*') && OccursAt(s, " ", i + 1) then
      MatchRestOfLine(s, i + 2, BulletOpen, ItemClose)
    else None
  }

  function MatchNumbered(s: string, i: nat): (r: Option<Hit>)
    requires i < |s|
    ensures r.Some? ==> i < r.value.end <= |s|
  {
    if !LineStart(s, i) then None
    else
      var d := Span(s, i, Digit);
      if d > i && OccursAt(s, ". ", d) then
        MatchRestOfLine(s, d + 2, NumberedOpen, ItemClose)
      else None
  }

  function MatchLink(s: string, i: nat): (r: Option<Hit>)
    requires i < |s|
    ensures r.Some? ==> i < r.value.end <= |s|
  {
    if s[i] != '[' then None
    else
      var j := Span(s, i + 1, AnyBut(']'));
      if j == i + 1 || j + 1 >= |s| || s[j + 1] != '(' then None
      else
        var k := Span(s, j + 2, AnyBut(')'));
        if k == j + 2 || k == |s| then None
        else Some(Hit(k + 1, LinkOpen + s[j + 2..k] + LinkMiddle + s[i + 1..j] + LinkClose))
  }

  function MatchParagraphBreak(s: string, i: nat): (r: Option<Hit>)
    requires i < |s|
    ensures r.Some? ==> i < r.value.end <= |s|
  {
    if s[i] == '\n' && i + 1 < |s| && s[i + 1] == '\n' then
      Some(Hit(Span(s, i, Newline), ParagraphClose + ParagraphOpen))
    else None
  }

  /** Whether, and how, `rule`'s expression matches at index `i`. */
  function Matches(rule: Rule, s: string, i: nat): (r: Option<Hit>)
    requires i < |s|
    ensures r.Some? ==> i < r.value.end <= |s|
  {
    match rule
    case CodeBlock => MatchCodeBlock(s, i)
    case InlineCode => MatchDelimited(s, i, "`", '`', InlineCodeOpen, InlineCodeClose)
    case Bold => MatchDelimited(s, i, "**", '*', StrongOpen, StrongClose)
    case BoldUnderscore => MatchDelimited(s, i, "__", '_', StrongOpen, StrongClose)
    case ItalicStar => MatchItalic(s, i, '*')
    case ItalicUnderscore => MatchItalic(s, i, '_')
    case Heading3 => MatchHeading(s, i, H3Marks, H3Open, H3Close)
    case Heading2 => MatchHeading(s, i, H2Marks, H2Open, H2Close)
    case Heading1 => MatchHeading(s, i, H1Marks, H1Open, H1Close)
    case Bullet => MatchBullet(s, i)
    case Numbered => MatchNumbered(s, i)
    case Link => MatchLink(s, i)
    case ParagraphBreak => MatchParagraphBreak(s, i)
  }

  /** `s.replace(/re/g, …)` from index `i` on: where no match starts, the text is copied. */
  function Scan(s: string, rule: Rule, i: nat): (r: string)
    requires i <= |s|
    ensures (forall k :: i <= k < |s| ==> Matches(rule, s, k).None?) ==> r == s[i..]
    decreases |s| - i
  {
    if i == |s| then []
    else match Matches(rule, s, i)
      case Some(hit) => hit.out + Scan(s, rule, hit.end)
      case None =>
        assert s[i..] == [s[i]] + s[i + 1..];
        [s[i]] + Scan(s, rule, i + 1)
  }

  /** The rewrites applied one after the other; text without markdown passes them unchanged. */
  function RewriteAll(s: string, rules: seq<Rule>): (r: string)
    ensures Plain(s) ==> r == s
    decreases |rules|
  {
    if rules == [] then s
    else
      assert Plain(s) ==> forall k :: 0 <= k < |s| ==> Matches(rules[0], s, k).None? by {
        if Plain(s) {
          forall k | 0 <= k < |s|
            ensures Matches(rules[0], s, k).None?
          {
            PlainUnmatched(s, rules[0], k);
          }
        }
      }
      RewriteAll(Scan(s, rules[0], 0), rules[1..])
  }

  /** `html.replace(/\n/g, '<br>')`: no newline survives. */
  function LineBreaks(html: string): (r: string)
    ensures '\n' !in r
    ensures '\n' !in html ==> r == html
  {
    ReplaceChar(html, '\n', "<br>")
  }

  /**
   * The paragraph's content: escaped, rewritten, every remaining newline a `<br>`. Text
   * without markdown is only escaped.
   */
  function Body(text: string): (r: string)
    ensures '\n' !in r
    ensures Plain(text) ==> r == Escape(text)
  {
    if Plain(text) then PlainBody(text, Rules); LineBreaks(RewriteAll(Escape(text), Rules))
    else LineBreaks(RewriteAll(Escape(text), Rules))
  }

  /** `simpleMarkdownToHtml`; `None` stands for `null`/`undefined`. */
  function SimpleMarkdownToHtml(text: Option<string>): (r: string)
    ensures r == "" <==> text.None? || text.value == ""
    ensures r != "" ==> |r| >= |ParagraphOpen| + |ParagraphClose| && r[..|ParagraphOpen|] == ParagraphOpen && r[|r| - |ParagraphClose|..] == ParagraphClose
    ensures '\n' !in r
    ensures text.Some? && text.value != "" && Plain(text.value) ==> r == ParagraphOpen + Escape(text.value) + ParagraphClose
  {
    if text.None? || text.value == "" then ""
    else Wrap(Body(text.value))
  }

  /** The content wrapped in one paragraph. */
  function Wrap(b: string): (r: string)
    requires '\n' !in b
    ensures |r| == |ParagraphOpen| + |b| + |ParagraphClose|
    ensures r[..|ParagraphOpen|] == ParagraphOpen && r[|r| - |ParagraphClose|..] == ParagraphClose
    ensures '\n' !in r
  {
    assert '\n' !in ParagraphOpen && '\n' !in ParagraphClose;
    var r := ParagraphOpen + b + ParagraphClose;
    assert r[..|ParagraphOpen|] == ParagraphOpen;
    assert r[|r| - |ParagraphClose|..] == ParagraphClose;
    r
  }

  // ---------------------------------------------------------------------------------------
  // Properties

  /** A fence starting at `i`: the language tag, a newline, code free of a closing fence, a fence. */
  predicate FenceAt(s: string, i: nat, lang: string, code: string) {
    OccursAt(s, Fence + lang + "\n" + code + Fence, i)
    && (forall k :: 0 <= k < |lang| ==> IsWordChar(lang[k]))
    && (forall k :: i + |Fence| + |lang| + 1 <= k < i + |Fence| + |lang| + 1 + |code| ==> !IsFence(s, k))
  }

  /** An occurrence of `a + b` is an occurrence of `a` followed by one of `b`. */
  lemma OccursSplit(s: string, a: string, b: string, i: nat)
    requires OccursAt(s, a + b, i)
    ensures OccursAt(s, a, i) && OccursAt(s, b, i + |a|)
  {
    assert s[i..i + |a|] == (a + b)[..|a|];
    assert s[i + |a|..i + |a| + |b|] == (a + b)[|a|..];
  }

  /** A string does not occur where its first character is missing. */
  lemma NotOccursAt(s: string, sub: string, i: nat)
    requires i < |s| && |sub| > 0 && s[i] != sub[0]
    ensures !OccursAt(s, sub, i)
  {
    if i + |sub| <= |s| {
      assert s[i..i + |sub|][0] == s[i];
    }
  }

  /**
   * A fenced block becomes a `<pre>` whose `data-lang` is the tag, or `code` for an empty
   * tag, and the walk resumes after the closing fence.
   */
  lemma FencedBlock(s: string, i: nat, lang: string, code: string)
    requires FenceAt(s, i, lang, code)
    ensures MatchCodeBlock(s, i) == Some(Hit(i + |Fence| + |lang| + 1 + |code| + |Fence|, PreBlock(lang, code)))
  {
    FenceParts(s, i, lang, code);
    CodeBlockAt(s, i, lang, code, i + |Fence| + |lang|, i + |Fence| + |lang| + 1 + |code|);
  }

  /** The matcher on a fence whose pieces sit at `i`, `j` (the newline) and `close`. */
  lemma CodeBlockAt(s: string, i: nat, lang: string, code: string, j: nat, close: nat)
    requires j == i + 3 + |lang| && close == j + 1 + |code| && IsFence(s, close)
    requires IsFence(s, i) && s[i + 3..j] == lang && s[j] == '\n' && s[j + 1..close] == code
    requires forall k :: 0 <= k < |lang| ==> IsWordChar(lang[k])
    requires forall k :: j + 1 <= k < close ==> !IsFence(s, k)
    ensures MatchCodeBlock(s, i) == Some(Hit(close + |Fence|, PreBlock(lang, code)))
  {
    forall k | i + 3 <= k < j
      ensures InClass(Word, s[k])
    {
      assert s[k] == lang[k - i - 3];
    }
    SpanExact(s, i + 3, j, Word);
    FirstFence(s, j + 1, close);
  }

  /** The pieces of a fence, located in `s`. */
  lemma FenceParts(s: string, i: nat, lang: string, code: string)
    requires OccursAt(s, Fence + lang + "\n" + code + Fence, i)
    ensures IsFence(s, i) && s[i + |Fence|..i + |Fence| + |lang|] == lang
    ensures s[i + |Fence| + |lang|] == '\n'
    ensures s[i + |Fence| + |lang| + 1..i + |Fence| + |lang| + 1 + |code|] == code
    ensures IsFence(s, i + |Fence| + |lang| + 1 + |code|)
  {
    var j := i + |Fence| + |lang|;
    OccursSplit(s, Fence + lang + "\n" + code, Fence, i);
    OccursSplit(s, Fence + lang + "\n", code, i);
    OccursSplit(s, Fence + lang, "\n", i);
    OccursSplit(s, Fence, lang, i);
    FenceOccurs(s, i);
    FenceOccurs(s, i + |Fence| + |lang| + 1 + |code|);
    assert s[j..j + 1] == "\n";
  }

  /** A run whose end is a non-member of the class is exactly that long. */
  lemma SpanExact(s: string, i: nat, j: nat, cls: CharClass)
    requires i <= j < |s|
    requires forall k :: i <= k < j ==> InClass(cls, s[k])
    requires !InClass(cls, s[j])
    ensures Span(s, i, cls) == j
  {
  }

  /** A fence at `k` with none in between is what `FindFence` finds. */
  lemma FirstFence(s: string, i: nat, k: nat)
    requires i <= k && IsFence(s, k)
    requires forall m :: i <= m < k ==> !IsFence(s, m)
    ensures FindFence(s, i) == Some(k)
  {
  }

  /** The three-backtick string where the fence is. */
  lemma FenceOccurs(s: string, k: nat)
    requires OccursAt(s, Fence, k)
    ensures IsFence(s, k)
  {
    assert s[k..k + 3][0] == s[k] && s[k..k + 3][1] == s[k + 1] && s[k..k + 3][2] == s[k + 2];
  }

  /** Markdown markers that can start a rewrite anywhere in a line. */
  predicate IsMarker(c: char) {
    c == '`' || c == '*' || c == '_' || c == '#' || c == '['
  }

  /**
   * Text no rewrite applies to: no markers, a single line, and no list marker at its start.
   */
  predicate Plain(t: string) {
    (forall k :: 0 <= k < |t| ==> !IsMarker(t[k]) && !IsLineTerminator(t[k]))
    && (t != [] ==> t[0] != '-' && !IsDigit(t[0]))
  }

  /** Escaping keeps plain text plain: the entities hold no markers. */
  lemma EscapeKeepsPlain(t: string)
    requires Plain(t)
    ensures Plain(Escape(t))
  {
    var e := Escape(t);
    EscapedCharacters(t);
    forall k | 0 <= k < |e|
      ensures !IsMarker(e[k]) && !IsLineTerminator(e[k])
    {
      EntityCharacter(e[k], t);
    }
    if t != [] {
      EscapeIsSinglePass(t);
      assert e == EscapeChar(t[0]) + EscapeOnce(t[1..]);
      assert e[0] == t[0] || e[0] == '&';
    }
  }

  /** A character of the input or of an entity. */
  lemma EntityCharacter(c: char, t: string)
    requires c in t || c in Amp || c in Lt || c in Gt
    requires forall k :: 0 <= k < |t| ==> !IsMarker(t[k]) && !IsLineTerminator(t[k])
    ensures !IsMarker(c) && !IsLineTerminator(c)
  {
    if c in t {
      var k :| 0 <= k < |t| && t[k] == c;
    }
  }

  /** No rewrite matches anywhere in plain text. */
  lemma PlainUnmatched(s: string, rule: Rule, i: nat)
    requires Plain(s) && i < |s|
    ensures Matches(rule, s, i).None?
  {
    assert !IsMarker(s[i]) && !IsLineTerminator(s[i]);
    assert i > 0 ==> !IsLineTerminator(s[i - 1]);
    match rule
    case CodeBlock =>
    case InlineCode => NotOccursAt(s, "`", i);
    case Bold => NotOccursAt(s, "**", i);
    case BoldUnderscore => NotOccursAt(s, "__", i);
    case ItalicStar =>
    case ItalicUnderscore =>
    case Heading3 => NotOccursAt(s, H3Marks, i);
    case Heading2 => NotOccursAt(s, H2Marks, i);
    case Heading1 => NotOccursAt(s, H1Marks, i);
    case Bullet =>
    case Numbered =>
    case Link =>
    case ParagraphBreak =>
  }

  /** For plain text the paragraph's content is the escaped text, whatever the rewrites. */
  lemma PlainBody(t: string, rules: seq<Rule>)
    requires Plain(t)
    ensures LineBreaks(RewriteAll(Escape(t), rules)) == Escape(t)
  {
    var e := Escape(t);
    EscapeKeepsPlain(t);
    assert forall k :: 0 <= k < |e| ==> e[k] != '\n';
    assert LineBreaks(e) == e;
  }
}

=== FILE: model_selector.dfy ===
/**
 * The model catalogue dialog of src/components/ModelSelectorModal.jsx: which models pass the
 * search box and the active filter, the order they are listed in (favourites first, then by
 * name, prompt price or context length), and the colour of each model's provider badge.
 *
 * Prices are decimal strings that the browser parses; `parsePrice` stands for that parse and
 * prices are exact reals. Names are ordered by code point, the stand-in for `localeCompare`.
 */
module ModelSelector {
  import opened Wrappers
  import opened Text
  import Seqs

  /** The fields of a catalogue entry that the dialog reads. */
  datatype Model = Model(
    id: string,
    name: Option<string>,
    promptPrice: Option<string>,
    outputModalities: Option<seq<string>>,
    supportedParameters: Option<seq<string>>,
    contextLength: Option<int>)

  /** `model.name || model.id`. */
  function DisplayName(m: Model): (r: string)
    ensures Truthy(m.name) ==> r == m.name.value
    ensures !Truthy(m.name) ==> r == m.id
  {
    if Truthy(m.name) then m.name.value else m.id
  }

  /** The search: the display name or the id, lower-cased, contains the lower-cased term. */
  predicate MatchesSearch(m: Model, term: string)
    ensures term == "" ==> MatchesSearch(m, term)
    ensures Contains(DisplayName(m), term) || Contains(m.id, term) ==> MatchesSearch(m, term)
  {
    ContainsEmpty(Lower(DisplayName(m)));
    if Contains(DisplayName(m), term) then
      LowerContains(DisplayName(m), term);
      Contains(Lower(DisplayName(m)), Lower(term)) || Contains(Lower(m.id), Lower(term))
    else if Contains(m.id, term) then
      LowerContains(m.id, term);
      Contains(Lower(DisplayName(m)), Lower(term)) || Contains(Lower(m.id), Lower(term))
    else Contains(Lower(DisplayName(m)), Lower(term)) || Contains(Lower(m.id), Lower(term))
  }

  /** `parseFloat(model.pricing?.prompt || 0)`: a missing or empty price reads as zero. */
  function PromptPrice(m: Model, parsePrice: string -> real): real {
    if Truthy(m.promptPrice) then parsePrice(m.promptPrice.value) else 0.0
  }

  /** `model.context_length || 0`. */
  function ContextOrZero(m: Model): int {
    m.contextLength.GetOr(0)
  }

  /** `array?.includes(x)`: false when the array is missing. */
  predicate Includes(xs: Option<seq<string>>, x: string) {
    xs.Some? && x in xs.value
  }

  /** The active filter; an unknown filter, such as "all", keeps every model. */
  predicate PassesFilter(m: Model, filter: string, favorites: seq<string>, parsePrice: string -> real)
    ensures filter == "favorites" ==> (PassesFilter(m, filter, favorites, parsePrice) <==> m.id in favorites)
    ensures filter == "free" ==> (PassesFilter(m, filter, favorites, parsePrice) <==> PromptPrice(m, parsePrice) == 0.0)
    ensures filter == "image" ==> (PassesFilter(m, filter, favorites, parsePrice) <==> Includes(m.outputModalities, "image"))
    ensures filter == "reasoning" && (Contains(m.id, "thinking") || Contains(m.id, "reasoner")) ==>
              PassesFilter(m, filter, favorites, parsePrice)
    ensures filter !in {"favorites", "free", "image", "reasoning"} ==> PassesFilter(m, filter, favorites, parsePrice)
  {
    if filter == "favorites" then m.id in favorites
    else if filter == "free" then PromptPrice(m, parsePrice) == 0.0
    else if filter == "image" then Includes(m.outputModalities, "image")
    else if filter == "reasoning" then
      Includes(m.supportedParameters, "reasoning") || Contains(m.id, "thinking") || Contains(m.id, "reasoner")
    else true
  }

  /** What the `models.filter` callback keeps: a search match that passes the filter. */
  predicate Keep(m: Model, term: string, filter: string, favorites: seq<string>, parsePrice: string -> real) {
    MatchesSearch(m, term) && PassesFilter(m, filter, favorites, parsePrice)
  }

  /** Lexicographic order of strings by code point. */
  predicate StrLe(a: string, b: string)
    decreases |a|
  {
    a == [] || (b != [] && (a[0] < b[0] || (a[0] == b[0] && StrLe(a[1..], b[1..]))))
  }

  lemma {:induction false} StrLeTotal(a: string, b: string)
    ensures StrLe(a, b) || StrLe(b, a)
    decreases |a|
  {
    if a != [] && b != [] && a[0] == b[0] {
      StrLeTotal(a[1..], b[1..]);
    }
  }

  lemma {:induction false} StrLeTrans(a: string, b: string, c: string)
    requires StrLe(a, b) && StrLe(b, c)
    ensures StrLe(a, c)
    decreases |a|
  {
    if a != [] && a[0] == b[0] && b[0] == c[0] {
      StrLeTrans(a[1..], b[1..], c[1..]);
    }
  }

  /**
   * What the sort comparator compares: the favourite group (0 for favourites), then a number
   * (price, or the negated context length so that larger comes first), then the name.
   */
  datatype Key = Key(group: nat, num: real, name: string)

  predicate KeyLe(a: Key, b: Key) {
    a.group < b.group
    || (a.group == b.group && (a.num < b.num || (a.num == b.num && StrLe(a.name, b.name))))
  }

  lemma KeyLeTotal(a: Key, b: Key)
    ensures KeyLe(a, b) || KeyLe(b, a)
  {
    StrLeTotal(a.name, b.name);
  }

  lemma KeyLeTrans(a: Key, b: Key, c: Key)
    requires KeyLe(a, b) && KeyLe(b, c)
    ensures KeyLe(a, c)
  {
    if a.group == b.group == c.group && a.num == b.num == c.num {
      StrLeTrans(a.name, b.name, c.name);
    }
  }

  /** The comparator of `result.sort`, as a key. */
  function SortKey(m: Model, sortBy: string, favorites: seq<string>, parsePrice: string -> real): (k: Key)
    ensures k.group == 0 <==> m.id in favorites
    ensures sortBy == "price" ==> k.num == PromptPrice(m, parsePrice) && k.name == ""
    ensures sortBy == "context" ==> k.num == -(ContextOrZero(m) as real) && k.name == ""
    ensures sortBy != "price" && sortBy != "context" ==> k.num == 0.0 && k.name == DisplayName(m)
  {
    var group := if m.id in favorites then 0 else 1;
    if sortBy == "price" then Key(group, PromptPrice(m, parsePrice), "")
    else if sortBy == "context" then Key(group, -(ContextOrZero(m) as real), "")
    else Key(group, 0.0, DisplayName(m))
  }

  predicate SortedBy<T>(r: seq<T>, key: T -> Key) {
    forall i, j :: 0 <= i < j < |r| ==> KeyLe(key(r[i]), key(r[j]))
  }

  /** Inserts `x` before the first element whose key is strictly greater. */
  function InsertByKey<T>(s: seq<T>, x: T, key: T -> Key): (r: seq<T>)
    ensures multiset(r) == multiset(s) + multiset{x}
    decreases |s|
  {
    if s == [] then [x]
    else if !KeyLe(key(s[0]), key(x)) then [x] + s
    else
      assert s == [s[0]] + s[1..];
      [s[0]] + InsertByKey(s[1..], x, key)
  }

  lemma {:induction false} InsertKeepsSorted<T>(s: seq<T>, x: T, key: T -> Key)
    requires SortedBy(s, key)
    ensures SortedBy(InsertByKey(s, x, key), key)
    decreases |s|
  {
    if s == [] {
    } else if !KeyLe(key(s[0]), key(x)) {
      KeyLeTotal(key(s[0]), key(x));
      forall j | 0 <= j < |s|
        ensures KeyLe(key(x), key(s[j]))
      {
        if j > 0 {
          KeyLeTrans(key(x), key(s[0]), key(s[j]));
        }
      }
    } else {
      var t := InsertByKey(s[1..], x, key);
      InsertKeepsSorted(s[1..], x, key);
      forall j | 0 <= j < |t|
        ensures KeyLe(key(s[0]), key(t[j]))
      {
        assert t[j] in multiset(t);
        if t[j] != x {
          assert t[j] in multiset(s[1..]);
          var k :| 0 <= k < |s[1..]| && s[1..][k] == t[j];
          assert s[k + 1] == t[j];
        }
      }
    }
  }

  /** A stable insertion sort by key. */
  function SortByKey<T>(xs: seq<T>, key: T -> Key): (r: seq<T>)
    ensures multiset(r) == multiset(xs)
    ensures SortedBy(r, key)
    decreases |xs|
  {
    if xs == [] then []
    else
      var n := |xs| - 1;
      assert xs == xs[..n] + [xs[n]];
      var init := SortByKey(xs[..n], key);
      InsertKeepsSorted(init, xs[n], key);
      InsertByKey(init, xs[n], key)
  }

  /**
   * `filteredModels`: the models that pass the search and the filter, each as often as in
   * `models`, sorted by the comparator's key.
   */
  function FilteredModels(models: seq<Model>, term: string, filter: string, sortBy: string,
                          favorites: seq<string>, parsePrice: string -> real): (r: seq<Model>)
    ensures multiset(r) <= multiset(models)
    ensures forall m {:trigger multiset(r)[m]} ::
              multiset(r)[m] == (if Keep(m, term, filter, favorites, parsePrice) then multiset(models)[m] else 0)
    ensures forall i :: 0 <= i < |r| ==> r[i] in models && Keep(r[i], term, filter, favorites, parsePrice)
    ensures forall m :: m in models && Keep(m, term, filter, favorites, parsePrice) ==> m in r
    ensures forall i, j :: 0 <= i < j < |r| ==>
              KeyLe(SortKey(r[i], sortBy, favorites, parsePrice), SortKey(r[j], sortBy, favorites, parsePrice))
  {
    var kept := Seqs.Filter(models, (m: Model) => Keep(m, term, filter, favorites, parsePrice));
    var r := SortByKey(kept, (m: Model) => SortKey(m, sortBy, favorites, parsePrice));
    ListedFromKept(models, kept, r, (m: Model) => Keep(m, term, filter, favorites, parsePrice));
    r
  }

  /** Sorting the filtered list neither adds nor loses a model. */
  lemma ListedFromKept(models: seq<Model>, kept: seq<Model>, r: seq<Model>, p: Model -> bool)
    requires kept == Seqs.Filter(models, p)
    requires multiset(r) == multiset(kept)
    ensures multiset(r) <= multiset(models)
    ensures forall m {:trigger multiset(r)[m]} :: multiset(r)[m] == (if p(m) then multiset(models)[m] else 0)
    ensures forall i :: 0 <= i < |r| ==> r[i] in models && p(r[i])
    ensures forall m :: m in models && p(m) ==> m in r
  {
    Seqs.SubsequenceMultiset(kept, models);
    forall i | 0 <= i < |r|
      ensures r[i] in kept
    {
      assert r[i] in multiset(r);
    }
    forall m | m in models && p(m)
      ensures m in r
    {
      assert m in multiset(kept);
    }
  }

  /**
   * The listing order: every favourite precedes every non-favourite, and within each group
   * the models are ordered by the chosen sort: ascending prompt price, descending context
   * length, or otherwise by display name.
   */
  lemma ListingOrder(models: seq<Model>, term: string, filter: string, sortBy: string,
                     favorites: seq<string>, parsePrice: string -> real, i: int, j: int)
    requires 0 <= i < j < |FilteredModels(models, term, filter, sortBy, favorites, parsePrice)|
    ensures var r := FilteredModels(models, term, filter, sortBy, favorites, parsePrice);
            (r[j].id in favorites ==> r[i].id in favorites)
            && ((r[i].id in favorites <==> r[j].id in favorites) ==>
                  (sortBy == "price" ==> PromptPrice(r[i], parsePrice) <= PromptPrice(r[j], parsePrice))
                  && (sortBy == "context" ==> ContextOrZero(r[i]) >= ContextOrZero(r[j]))
                  && (sortBy != "price" && sortBy != "context" ==> StrLe(DisplayName(r[i]), DisplayName(r[j]))))
  {
    var r := FilteredModels(models, term, filter, sortBy, favorites, parsePrice);
    assert KeyLe(SortKey(r[i], sortBy, favorites, parsePrice), SortKey(r[j], sortBy, favorites, parsePrice));
  }

  /** With an empty search and the "all" filter, every model is listed, each exactly once as given. */
  lemma ShowAll(models: seq<Model>, sortBy: string, favorites: seq<string>, parsePrice: string -> real)
    ensures multiset(FilteredModels(models, "", "all", sortBy, favorites, parsePrice)) == multiset(models)
  {
    var p := (m: Model) => Keep(m, "", "all", favorites, parsePrice);
    assert forall i :: 0 <= i < |models| ==> p(models[i]);
    Seqs.FilterKeepsAll(models, p);
  }

  /** The badge colours of the known providers. */
  const ProviderColors: map<string, string> := map[
    "openai" := "#10a37f",
    "anthropic" := "#d4a27f",
    "google" := "#4285f4",
    "meta-llama" := "#0668E1",
    "mistralai" := "#ff7000",
    "deepseek" := "#5b6ee1",
    "cohere" := "#39594d",
    "perplexity" := "#20808d",
    "x-ai" := "#000000"
  ]

  const DefaultColor := "var(--color-accent)"

  /** `modelId.split('/')[0]`: the text before the first `/`, or the whole id without one. */
  function Provider(id: string): (p: string)
    ensures p <= id && '/' !in p
    ensures |p| < |id| ==> id[|p|] == '/'
  {
    SplitFirstPiece(id, '/');
    Split(id, '/')[0]
  }

  /** `getProviderColor`: the provider's colour, or the accent colour for any other provider. */
  function ProviderColor(id: string): (c: string)
    ensures Provider(id) in ProviderColors ==> c == ProviderColors[Provider(id)]
    ensures Provider(id) !in ProviderColors ==> c == DefaultColor
  {
    var p := Provider(id);
    if p in ProviderColors && ProviderColors[p] != "" then ProviderColors[p] else DefaultColor
  }

  /** An id `provider/rest` gets its provider's colour, whatever `rest` holds. */
  lemma ProviderOfQualifiedId(provider: string, rest: string)
    requires '/' !in provider
    ensures Provider(provider + "/" + rest) == provider
  {
    var id := provider + "/" + rest;
    var p := Provider(id);
    assert forall k :: 0 <= k < |provider| ==> id[k] == provider[k];
    assert id[|provider|] == '/';
    assert |p| == |provider|;
    assert p == id[..|p|];
    assert provider == id[..|provider|];
  }

  lemma ProviderColorOfQualifiedId(provider: string, rest: string)
    requires '/' !in provider
    ensures provider in ProviderColors ==> ProviderColor(provider + "/" + rest) == ProviderColors[provider]
    ensures provider !in ProviderColors ==> ProviderColor(provider + "/" + rest) == DefaultColor
  {
    ProviderOfQualifiedId(provider, rest);
  }
}

=== FILE: openrouter.dfy ===
/**
 * The client of src/services/openrouter.js: the line framing and delta extraction of the
 * streamed chat completion, the error message of a refused request, and the shaping of the
 * title and model-list responses. The network itself is a parameter: a response is either
 * refused (status text and the error body's message) or accepted (what its reader returns).
 */
module OpenRouter {
  import opened Wrappers
  import opened Text

  /** `{ role, content }`, the shape of every message sent to the API. */
  datatype ApiMessage = ApiMessage(role: string, content: string)

  /**
   * What `JSON.parse(payload)` followed by `json.choices?.[0]?.delta?.content` gives: the
   * parse fails, or it succeeds with that field present or absent.
   */
  datatype Payload = Malformed | Parsed(content: Option<string>)

  /** A chat-completion response: refused, or accepted with the text of each read in order. */
  datatype ChatResponse =
    | ChatRefused(statusText: string, errorMessage: Option<string>)
    | ChatAccepted(received: seq<string>)

  const DataPrefix: string := "data: "
  const DoneLine: string := "data: [DONE]"

  /** The message thrown for a refused chat request (lines 36-41). */
  function ErrorMessage(errorMessage: Option<string>, statusText: string): (r: string)
    ensures r != ""
    ensures Truthy(errorMessage) ==> r == errorMessage.value
    ensures !Truthy(errorMessage) ==> "API Error: " <= r && r[|"API Error: "|..] == statusText
  {
    if Truthy(errorMessage) then errorMessage.value else "API Error: " + statusText
  }

  /**
   * One complete line of the stream: the content it yields, if any. A yielded value comes
   * from a trimmed line that starts with "data: ", is not the [DONE] sentinel, and whose
   * payload parses with a non-empty content.
   */
  function ProcessLine(line: string, parse: string -> Payload): (r: Option<string>)
    ensures r.Some? <==>
      var t := Trim(line);
      && DataPrefix <= t && t != DoneLine
      && parse(t[|DataPrefix|..]).Parsed? && Truthy(parse(t[|DataPrefix|..]).content)
    ensures r.Some? ==> r == parse(Trim(line)[|DataPrefix|..]).content
  {
    var t := Trim(line);
    if t == "" || t == DoneLine then None
    else if !(DataPrefix <= t) then None
    else
      match parse(t[|DataPrefix|..])
      case Malformed => None
      case Parsed(content) => if Truthy(content) then content else None
  }

  /** What one complete line contributes to the stream: a value, or nothing. */
  type LineHandler = string -> Option<string>

  /** The handler of `streamChat`. */
  function Handler(parse: string -> Payload): LineHandler {
    line => ProcessLine(line, parse)
  }

  /**
   * The values yielded for the complete lines `lines`: each line's value, if it has one, in
   * line order.
   */
  function DecodeLines(lines: seq<string>, handle: LineHandler): (r: seq<string>)
    ensures |r| <= |lines|
    ensures forall i :: 0 <= i < |r| ==> exists j :: 0 <= j < |lines| && handle(lines[j]) == Some(r[i])
    decreases |lines|
  {
    if lines == [] then []
    else
      var init := DecodeLines(lines[..|lines| - 1], handle);
      match handle(lines[|lines| - 1])
      case None => init
      case Some(c) => init + [c]
  }

  /** One more complete line yields its value, if it has one. */
  lemma DecodeLinesSnoc(lines: seq<string>, line: string, handle: LineHandler)
    ensures DecodeLines(lines + [line], handle)
         == DecodeLines(lines, handle) + (if handle(line).Some? then [handle(line).value] else [])
  {
    assert (lines + [line])[..|lines|] == lines;
  }

  /** The values yielded for a whole stream text: every line closed by a newline. */
  function DecodeText(text: string, handle: LineHandler): (r: seq<string>)
    ensures |r| < |Split(text, '\n')|
    ensures '\n' !in text ==> r == []
  {
    if '\n' !in text then SplitNoSeparator(text, '\n'); DecodeLines(ButLast(Split(text, '\n')), handle)
    else DecodeLines(ButLast(Split(text, '\n')), handle)
  }

  /** Decoding distributes over concatenated line lists. */
  lemma {:induction false} DecodeLinesAppend(a: seq<string>, b: seq<string>, handle: LineHandler)
    ensures DecodeLines(a + b, handle) == DecodeLines(a, handle) + DecodeLines(b, handle)
    decreases |b|
  {
    if b == [] {
      assert a + b == a;
    } else {
      var b' := b[..|b| - 1];
      assert (a + b)[..|a + b| - 1] == a + b';
      assert (a + b)[|a + b| - 1] == b[|b| - 1];
      DecodeLinesAppend(a, b', handle);
    }
  }

  /**
   * A stream cut right after a newline decodes as its two halves decoded separately: the
   * boundary between reads does not matter once the line is complete.
   */
  lemma DecodeTextAppend(a: string, b: string, handle: LineHandler)
    ensures DecodeText(a + "\n" + b, handle) == DecodeText(a + "\n", handle) + DecodeText(b, handle)
  {
    var sa, sb := Split(a, '\n'), Split(b, '\n');
    SplitEndsWithSeparator(a, '\n');
    SplitAppend(a + "\n", b, '\n');
    assert [] + b == b;
    assert Split(a + "\n" + b, '\n') == sa + sb;
    assert ButLast(sa + sb) == sa + ButLast(sb);
    DecodeLinesAppend(sa, ButLast(sb), handle);
  }

  /** Text after the last newline is never decoded: a final line without '\n' is dropped. */
  lemma UnterminatedTailDropped(a: string, tail: string, handle: LineHandler)
    requires '\n' !in tail
    ensures DecodeText(tail, handle) == []
    ensures DecodeText(a + "\n" + tail, handle) == DecodeText(a + "\n", handle)
  {
    SplitNoSeparator(tail, '\n');
    DecodeTextAppend(a, tail, handle);
  }

  /** Lines joined by newlines decode line by line; the piece after the last one is ignored. */
  lemma DecodeJoinedLines(lines: seq<string>, tail: string, handle: LineHandler)
    requires forall i :: 0 <= i < |lines| ==> '\n' !in lines[i]
    requires '\n' !in tail
    ensures DecodeText(Join(lines + [tail], "\n"), handle) == DecodeLines(lines, handle)
  {
    var parts := lines + [tail];
    assert forall i :: 0 <= i < |parts| ==> '\n' !in parts[i] by {
      forall i | 0 <= i < |parts| ensures '\n' !in parts[i] {
        if i < |lines| { assert parts[i] == lines[i]; }
      }
    }
    SplitJoin(parts, '\n');
    assert ButLast(parts) == lines;
  }

  /**
   * One read: the complete lines so far gain the complete lines of the buffer followed by
   * the new text, and the buffer becomes what follows the last newline.
   */
  lemma ReadStep(received: seq<string>, k: nat, complete: seq<string>, buffer: string)
    requires k < |received|
    requires Split(Concat(received[..k]), '\n') == complete + [buffer]
    ensures var lines := Split(buffer + received[k], '\n');
      Split(Concat(received[..k + 1]), '\n') == complete + ButLast(lines) + [Last(lines)]
  {
    ConcatPrefix(received, k);
    SplitAfterKnown(Concat(received[..k]), received[k], complete, buffer, '\n');
    LastPiece(Split(buffer + received[k], '\n'));
  }

  /** Every value the stream yields is non-empty content of one of its lines. */
  lemma {:induction false} DecodedValuesNonEmpty(lines: seq<string>, parse: string -> Payload)
    ensures forall i :: 0 <= i < |DecodeLines(lines, Handler(parse))| ==> DecodeLines(lines, Handler(parse))[i] != ""
    decreases |lines|
  {
    if lines != [] {
      DecodedValuesNonEmpty(lines[..|lines| - 1], parse);
    }
  }

  /**
   * The inner loop of `streamChat`: every complete line of one read, in order, adds its
   * value to what has been yielded.
   */
  method YieldLines(yielded: seq<string>, lines: seq<string>, handle: LineHandler, ghost before: seq<string>)
    returns (r: seq<string>)
    requires yielded == DecodeLines(before, handle)
    ensures r == DecodeLines(before + lines, handle)
  {
    r := yielded;
    ghost var done := before;
    var j := 0;
    while j < |lines|
      invariant 0 <= j <= |lines|
      invariant done == before + lines[..j]
      invariant r == DecodeLines(done, handle)
    {
      DecodeLinesSnoc(done, lines[j], handle);
      var item := handle(lines[j]);
      if item.Some? {
        r := r + [item.value];
      }
      assert lines[..j + 1] == lines[..j] + [lines[j]];
      done := done + [lines[j]];
      j := j + 1;
    }
    assert lines[..j] == lines;
  }

  /**
   * `streamChat`: a refused response throws its error message before anything is yielded;
   * an accepted one yields the decoded lines of everything read, whatever the read
   * boundaries, keeping the text after the last newline in `buffer` between reads.
   */
  method StreamChat(response: ChatResponse, parse: string -> Payload) returns (r: Result<seq<string>, string>)
    ensures response.ChatRefused? ==> r == Failure(ErrorMessage(response.errorMessage, response.statusText))
    ensures response.ChatAccepted? ==> r == Success(DecodeText(Concat(response.received), Handler(parse)))
  {
    if response.ChatRefused? {
      return Failure(ErrorMessage(response.errorMessage, response.statusText));
    }
    var received, handle := response.received, Handler(parse);
    var buffer := "";
    var yielded: seq<string> := [];
    ghost var complete: seq<string> := [];
    var k := 0;
    while k < |received|
      invariant 0 <= k <= |received|
      invariant Split(Concat(received[..k]), '\n') == complete + [buffer]
      invariant yielded == DecodeLines(complete, handle)
    {
      var lines := Split(buffer + received[k], '\n');
      yielded := YieldLines(yielded, ButLast(lines), handle, complete);
      ReadStep(received, k, complete, buffer);
      complete, buffer := complete + ButLast(lines), Last(lines);
      k := k + 1;
    }
    assert received[..k] == received;
    return Success(yielded);
  }

  /** The model that names conversations. */
  const TitleModel: string := "google/gemini-2.5-flash-lite"
  const TitleSystemPrompt: string :=
    "Génère un titre court (maximum 6 mots) pour cette conversation. Réponds uniquement avec le titre, sans guillemets ni ponctuation finale."
  const DefaultTitle: string := "Nouvelle conversation"

  /** The user turn of the title request: the user text, then at most 500 characters of the reply. */
  /** The head of the title request's user turn, before the reply. */
  function TitleHead(userMessage: string): string {
    "Message utilisateur: " + userMessage + "\n\nRéponse assistant: "
  }

  /**
   * The user turn of the title request: the user text whole, then only the first 500
   * characters of the reply, or all of a shorter one.
   */
  function TitlePrompt(userMessage: string, assistantMessage: string): (r: string)
    ensures TitleHead(userMessage) <= r
    ensures |r| <= |TitleHead(userMessage)| + 500
    ensures r[|TitleHead(userMessage)|..] <= assistantMessage
    ensures |assistantMessage| <= 500 ==> r == TitleHead(userMessage) + assistantMessage
  {
    var r := TitleHead(userMessage) + Take(assistantMessage, 500);
    assert r[|TitleHead(userMessage)|..] == Take(assistantMessage, 500);
    r
  }

  /** The body of the title request: fixed model, system prompt and token budget. */
  datatype TitleRequest = TitleRequest(model: string, messages: seq<ApiMessage>, maxTokens: nat)

  function TitleRequestFor(userMessage: string, assistantMessage: string): TitleRequest {
    TitleRequest(
      TitleModel,
      [ApiMessage("system", TitleSystemPrompt), ApiMessage("user", TitlePrompt(userMessage, assistantMessage))],
      30)
  }

  /**
   * A title response: refused; accepted but unreadable, when `response.json()` rejects or the
   * content is not a string and `trim` throws, with the thrown error's message; or accepted
   * with `choices[0].message.content` if present.
   */
  datatype TitleResponse = TitleRefused | TitleUnreadable(message: string) | TitleAccepted(content: Option<string>)

  /**
   * `generateTitle`'s result: a refusal throws, and so does an unreadable body; otherwise the
   * trimmed reply, or the default title when the reply is missing or blank. A title is never
   * empty and never padded.
   */
  function GenerateTitle(response: TitleResponse): (r: Result<string, string>)
    ensures r.Failure? <==> !response.TitleAccepted?
    ensures response.TitleRefused? ==> r == Failure("Failed to generate title")
    ensures response.TitleUnreadable? ==> r == Failure(response.message)
    ensures r.Success? ==> r.value != "" && Trim(r.value) == r.value
    ensures r.Success? && response.content.Some? && Trim(response.content.value) != ""
            ==> r.value == Trim(response.content.value)
    ensures r.Success? && (response.content.None? || Trim(response.content.value) == "")
            ==> r.value == DefaultTitle
  {
    match response
    case TitleRefused => Failure("Failed to generate title")
    case TitleUnreadable(message) => Failure(message)
    case TitleAccepted(content) =>
      var t := if content.Some? then Trim(content.value) else "";
      if t != "" then
        TrimIdempotent(content.value);
        Success(t)
      else
        DefaultTitleTrimmed();
        Success(DefaultTitle)
  }

  /** The default title has no surrounding white space. */
  lemma DefaultTitleTrimmed()
    ensures Trim(DefaultTitle) == DefaultTitle
  {
    assert !IsWhitespace(DefaultTitle[0]) && !IsWhitespace(DefaultTitle[|DefaultTitle| - 1]);
  }

  /**
   * A models response: refused with its status text; accepted but unreadable, when
   * `response.json()` rejects, with that error's message; or accepted with its `data` field.
   */
  datatype ModelsResponse<T> =
    | ModelsRefused(statusText: string)
    | ModelsUnreadable(message: string)
    | ModelsAccepted(data: Option<seq<T>>)

  /**
   * `fetchModels`' result: refusal throws with the status text, an unreadable body throws its
   * parse error; a missing list reads as empty.
   */
  function FetchModels<T>(response: ModelsResponse<T>): (r: Result<seq<T>, string>)
    ensures r.Failure? <==> !response.ModelsAccepted?
    ensures response.ModelsUnreadable? ==> r == Failure(response.message)
    ensures response.ModelsRefused? ==>
              && r.Failure?
              && "Failed to fetch models: " <= r.error
              && r.error[|"Failed to fetch models: "|..] == response.statusText
    ensures r.Success? && response.data.Some? ==> r.value == response.data.value
    ensures r.Success? && response.data.None? ==> r.value == []
  {
    match response
    case ModelsRefused(statusText) => Failure("Failed to fetch models: " + statusText)
    case ModelsUnreadable(message) => Failure(message)
    case ModelsAccepted(data) => Success(data.GetOr([]))
  }
}

=== FILE: project_modal.dfy ===
/**
 * The project editor of src/components/Projects/ProjectModal.jsx: the form reset from the
 * project being edited, context files added by upload or by pasting, removed by id, the
 * preview shown for each file, and saving. The store actions the editor calls are returned as
 * effects; fresh uuids, the extraction outcomes and the byte size of a pasted text are
 * parameters.
 */
module ProjectModal {
  import opened Wrappers
  import opened Text
  import Seqs
  import FileExtractor
  import DraftRecovery

  const DefaultIcon := "\U{1F4C1}"
  const PastedTypeName := "Texte"
  const UnsupportedUploadPrefix := "Type non supporté: "
  const PreviewLength: nat := 150

  /** A file attached to a project as context. */
  datatype ContextFile = ContextFile(id: string, name: string, content: string, typeName: string, size: nat)

  /** The editor's `formData`. */
  datatype FormData = FormData(name: string, description: string, systemPrompt: string,
                               contextFiles: seq<ContextFile>, icon: string)

  /** A stored project as the editor reads it; each field may be missing. */
  datatype Project = Project(id: string, name: Option<string>, description: Option<string>,
                             systemPrompt: Option<string>, contextFiles: Option<seq<ContextFile>>,
                             icon: Option<string>)

  datatype AddFileMode = Upload | Paste

  /** The form fields `handleChange` edits. */
  datatype Field = Name | Description | SystemPrompt | Icon

  /** The store actions and parent callbacks the editor triggers. */
  datatype Effect = CreateProject(data: FormData)
                  | UpdateProject(id: string, data: FormData)
                  | ClearEditingProject
                  | Close

  const EmptyForm := FormData("", "", "", [], DefaultIcon)

  /** `x || ''`, and likewise with another default. */
  function OrDefault(x: Option<string>, default: string): (r: string)
    ensures Truthy(x) ==> r == x.value
    ensures !Truthy(x) ==> r == default
  {
    if Truthy(x) then x.value else default
  }

  /** The form a project opens with: its fields, with `''`, `[]` and the folder icon for missing ones. */
  function FormOf(editing: Option<Project>): (f: FormData)
    ensures editing.None? ==> f == EmptyForm
    ensures editing.Some? ==>
              f.name == OrDefault(editing.value.name, "")
              && f.description == OrDefault(editing.value.description, "")
              && f.systemPrompt == OrDefault(editing.value.systemPrompt, "")
              && f.contextFiles == (if editing.value.contextFiles.Some? then editing.value.contextFiles.value else [])
              && f.icon == OrDefault(editing.value.icon, DefaultIcon)
  {
    match editing
    case None => EmptyForm
    case Some(p) =>
      FormData(OrDefault(p.name, ""), OrDefault(p.description, ""), OrDefault(p.systemPrompt, ""),
               if p.contextFiles.Some? then p.contextFiles.value else [], OrDefault(p.icon, DefaultIcon))
  }

  /** The context file `handleFileUpload` builds from an extraction. */
  function FromExtracted(id: string, x: FileExtractor.Extracted): ContextFile {
    ContextFile(id, x.name, x.content, x.typeName, x.size)
  }

  /** What a batch of uploads has produced so far. */
  datatype Batch = Batch(added: seq<ContextFile>, error: Option<string>, failed: bool)

  /**
   * The upload loop over the first `k` files, with `supported` the file classifier
   * (`isFileSupported`): an unsupported file records its message and is
   * skipped; a supported file whose extraction (`outcomes[i]`, the result of
   * `extractTextFromFile`) fails records that error and ends the batch; every other file is
   * appended with the uuid `ids[i]`.
   */
  function Uploaded(supported: FileExtractor.File -> bool, files: seq<FileExtractor.File>,
                    outcomes: seq<Result<FileExtractor.Extracted, string>>,
                    ids: seq<string>, k: nat): (b: Batch)
    requires k <= |files| && |outcomes| == |files| && |ids| == |files|
    ensures |b.added| <= k
    decreases k
  {
    if k == 0 then Batch([], None, false)
    else
      var b := Uploaded(supported, files, outcomes, ids, k - 1);
      if b.failed then b
      else if !supported(files[k - 1]) then
        b.(error := Some(UnsupportedUploadPrefix + files[k - 1].name))
      else
        match outcomes[k - 1]
        case Failure(e) => b.(error := Some(e), failed := true)
        case Success(x) => b.(added := b.added + [FromExtracted(ids[k - 1], x)])
  }

  /** Once an extraction has failed, no later file is looked at. */
  lemma {:induction false} FailureIsFinal(supported: FileExtractor.File -> bool, files: seq<FileExtractor.File>,
                    outcomes: seq<Result<FileExtractor.Extracted, string>>,
                                          ids: seq<string>, k: nat, m: nat)
    requires k <= m <= |files| && |outcomes| == |files| && |ids| == |files|
    requires Uploaded(supported, files, outcomes, ids, k).failed
    ensures Uploaded(supported, files, outcomes, ids, m) == Uploaded(supported, files, outcomes, ids, k)
    decreases m
  {
    if m > k {
      FailureIsFinal(supported, files, outcomes, ids, k, m - 1);
    }
  }

  /**
   * When no extraction fails, the batch does not fail, every supported file is added with its
   * uuid, and an error is reported exactly when some file was unsupported (an unsupported file
   * does not stop the files after it).
   */
  lemma {:induction false} UnsupportedSkipped(supported: FileExtractor.File -> bool, files: seq<FileExtractor.File>,
                    outcomes: seq<Result<FileExtractor.Extracted, string>>,
                                              ids: seq<string>, k: nat)
    requires k <= |files| && |outcomes| == |files| && |ids| == |files|
    requires forall i :: 0 <= i < k && supported(files[i]) ==> outcomes[i].Success?
    ensures !Uploaded(supported, files, outcomes, ids, k).failed
    ensures forall i :: 0 <= i < k && supported(files[i]) ==>
                          FromExtracted(ids[i], outcomes[i].value) in Uploaded(supported, files, outcomes, ids, k).added
    ensures Uploaded(supported, files, outcomes, ids, k).error.None? <==>
              forall i :: 0 <= i < k ==> supported(files[i])
    decreases k
  {
    if k > 0 {
      UnsupportedSkipped(supported, files, outcomes, ids, k - 1);
    }
  }

  /** Every added file comes from a supported file of the batch whose extraction succeeded. */
  lemma {:induction false} AddedFromFiles(supported: FileExtractor.File -> bool, files: seq<FileExtractor.File>,
                    outcomes: seq<Result<FileExtractor.Extracted, string>>,
                                          ids: seq<string>, k: nat)
    requires k <= |files| && |outcomes| == |files| && |ids| == |files|
    ensures forall c :: c in Uploaded(supported, files, outcomes, ids, k).added ==>
              exists i :: 0 <= i < k && supported(files[i]) && outcomes[i].Success?
                          && c == FromExtracted(ids[i], outcomes[i].value)
    decreases k
  {
    if k > 0 {
      AddedFromFiles(supported, files, outcomes, ids, k - 1);
    }
  }

  /**
   * The file a paste adds: none when the name or the content is blank; otherwise a text
   * file whose name and content are the typed ones trimmed, so neither is empty nor begins
   * or ends with whitespace. `byteSize` is the size of the untrimmed content as a `Blob`.
   */
  function PastedFile(name: string, content: string, freshId: string, byteSize: nat): (f: Option<ContextFile>)
    ensures f.None? <==> Trim(name) == "" || Trim(content) == ""
    ensures f.Some? ==> f.value.id == freshId && f.value.typeName == PastedTypeName && f.value.size == byteSize
    ensures f.Some? ==> f.value.name == Trim(name) && f.value.content == Trim(content)
    ensures f.Some? ==> |f.value.name| > 0 && !IsWhitespace(f.value.name[0]) && !IsWhitespace(f.value.name[|f.value.name| - 1])
    ensures f.Some? ==> |f.value.content| > 0 && !IsWhitespace(f.value.content[0])
                        && !IsWhitespace(f.value.content[|f.value.content| - 1])
  {
    var n, c := Trim(name), Trim(content);
    if n == "" || c == "" then None else Some(ContextFile(freshId, n, c, PastedTypeName, byteSize))
  }

  /** `file.content.slice(0, 150)` followed by `...` when the content is longer. */
  function ContentPreview(content: string): (r: string)
    ensures |content| <= PreviewLength ==> r == content
    ensures |content| > PreviewLength ==> |r| == PreviewLength + 3 && r[..PreviewLength] == content[..PreviewLength]
                                          && r[PreviewLength..] == "..."
  {
    Take(content, PreviewLength) + (if |content| > PreviewLength then "..." else "")
  }

  /** The file preview is the draft dialog's truncation at 150 characters. */
  lemma PreviewIsTruncation(content: string)
    ensures ContentPreview(content) == DraftRecovery.TruncateContent(Some(content), PreviewLength)
  {
  }

  class ProjectModal {
    var formData: FormData
    var showAddFile: bool
    var addFileMode: Option<AddFileMode>
    var newFileName: string
    var newFileContent: string
    var isExtracting: bool
    var extractError: Option<string>

    /** The editor as first rendered, before its reset effect has run. */
    constructor ()
      ensures formData == EmptyForm && !showAddFile && addFileMode.None?
      ensures newFileName == "" && newFileContent == "" && !isExtracting && extractError.None?
    {
      formData := EmptyForm;
      showAddFile := false;
      addFileMode := None;
      newFileName := "";
      newFileContent := "";
      isExtracting := false;
      extractError := None;
    }

    /** The effect on `editingProject` and `isOpen`: the form is reloaded and the add-file panel reset. */
    method Reset(editing: Option<Project>)
      modifies this
      ensures formData == FormOf(editing)
      ensures !showAddFile && addFileMode.None? && newFileName == "" && newFileContent == ""
      ensures !isExtracting && extractError.None?
    {
      formData := FormOf(editing);
      showAddFile := false;
      addFileMode := None;
      newFileName := "";
      newFileContent := "";
      isExtracting := false;
      extractError := None;
    }

    /** `handleChange`: one text field of the form takes the typed value. */
    method Change(field: Field, value: string)
      modifies this
      ensures formData == match field
                          case Name => old(formData).(name := value)
                          case Description => old(formData).(description := value)
                          case SystemPrompt => old(formData).(systemPrompt := value)
                          case Icon => old(formData).(icon := value)
      ensures showAddFile == old(showAddFile) && addFileMode == old(addFileMode)
      ensures newFileName == old(newFileName) && newFileContent == old(newFileContent)
      ensures isExtracting == old(isExtracting) && extractError == old(extractError)
    {
      match field
      case Name => formData := formData.(name := value);
      case Description => formData := formData.(description := value);
      case SystemPrompt => formData := formData.(systemPrompt := value);
      case Icon => formData := formData.(icon := value);
    }

    /**
     * `handleAddPastedFile`: when `PastedFile` accepts the typed name and content, that file is
     * appended and the panel is cleared and closed; otherwise nothing changes.
     */
    method AddPastedFile(freshId: string, byteSize: nat)
      modifies this
      ensures var p := PastedFile(old(newFileName), old(newFileContent), freshId, byteSize);
        && (p.None? ==>
              formData == old(formData) && newFileName == old(newFileName) && newFileContent == old(newFileContent)
              && showAddFile == old(showAddFile) && addFileMode == old(addFileMode))
        && (p.Some? ==>
              formData == old(formData).(contextFiles := old(formData.contextFiles) + [p.value])
              && newFileName == "" && newFileContent == "" && !showAddFile && addFileMode.None?)
      ensures isExtracting == old(isExtracting) && extractError == old(extractError)
    {
      var pasted := PastedFile(newFileName, newFileContent, freshId, byteSize);
      if pasted.None? {
        return;
      }
      formData := formData.(contextFiles := formData.contextFiles + [pasted.value]);
      newFileName := "";
      newFileContent := "";
      showAddFile := false;
      addFileMode := None;
    }

    /** `handleRemoveFile`: every file with that id is dropped; the others stay, in order. */
    method RemoveFile(fileId: string)
      modifies this
      ensures formData == old(formData).(contextFiles := formData.contextFiles)
      ensures forall f :: f in formData.contextFiles <==> f in old(formData.contextFiles) && f.id != fileId
      ensures Seqs.IsSubsequence(formData.contextFiles, old(formData.contextFiles))
      ensures forall f {:trigger multiset(formData.contextFiles)[f]} ::
                multiset(formData.contextFiles)[f] == (if f.id != fileId then multiset(old(formData.contextFiles))[f] else 0)
      ensures showAddFile == old(showAddFile) && addFileMode == old(addFileMode)
      ensures newFileName == old(newFileName) && newFileContent == old(newFileContent)
      ensures isExtracting == old(isExtracting) && extractError == old(extractError)
    {
      var kept := Seqs.Filter(formData.contextFiles, (f: ContextFile) => f.id != fileId);
      formData := formData.(contextFiles := kept);
    }

    /**
     * The loop of `handleFileUpload` for a given file classifier: an empty selection changes
     * nothing. Otherwise the files are taken in order as `Uploaded` describes; the form gains
     * the added files and the error shown is the batch's. When no extraction failed the panel
     * closes; extracting ends either way.
     */
    method UploadWith(supported: FileExtractor.File -> bool, files: seq<FileExtractor.File>,
                      outcomes: seq<Result<FileExtractor.Extracted, string>>, ids: seq<string>)
      requires |outcomes| == |files| && |ids| == |files|
      modifies this
      ensures files == [] ==>
                formData == old(formData) && showAddFile == old(showAddFile) && addFileMode == old(addFileMode)
                && isExtracting == old(isExtracting) && extractError == old(extractError)
      ensures files != [] ==>
                var b := Uploaded(supported, files, outcomes, ids, |files|);
                formData == old(formData).(contextFiles := old(formData.contextFiles) + b.added)
                && extractError == b.error && !isExtracting
                && showAddFile == (if b.failed then old(showAddFile) else false)
                && addFileMode == (if b.failed then old(addFileMode) else None)
      ensures newFileName == old(newFileName) && newFileContent == old(newFileContent)
    {
      if files == [] {
        return;
      }
      isExtracting := true;
      extractError := None;
      var k := 0;
      var failed := false;
      while k < |files| && !failed
        invariant 0 <= k <= |files|
        invariant formData == old(formData).(contextFiles := old(formData.contextFiles) + Uploaded(supported, files, outcomes, ids, k).added)
        invariant extractError == Uploaded(supported, files, outcomes, ids, k).error
        invariant failed == Uploaded(supported, files, outcomes, ids, k).failed
        invariant showAddFile == old(showAddFile) && addFileMode == old(addFileMode)
        invariant newFileName == old(newFileName) && newFileContent == old(newFileContent)
      {
        var file := files[k];
        if !supported(file) {
          extractError := Some(UnsupportedUploadPrefix + file.name);
        } else {
          match outcomes[k]
          case Failure(e) =>
            extractError := Some(e);
            failed := true;
          case Success(x) =>
            formData := formData.(contextFiles := formData.contextFiles + [FromExtracted(ids[k], x)]);
        }
        k := k + 1;
      }
      if failed {
        FailureIsFinal(supported, files, outcomes, ids, k, |files|);
      } else {
        showAddFile := false;
        addFileMode := None;
      }
      isExtracting := false;
    }

    /** `handleFileUpload`: the upload loop with `isFileSupported` as the classifier. */
    method UploadFiles(files: seq<FileExtractor.File>, outcomes: seq<Result<FileExtractor.Extracted, string>>,
                       ids: seq<string>)
      requires |outcomes| == |files| && |ids| == |files|
      modifies this
      ensures files == [] ==>
                formData == old(formData) && showAddFile == old(showAddFile) && addFileMode == old(addFileMode)
                && isExtracting == old(isExtracting) && extractError == old(extractError)
      ensures files != [] ==>
                var b := Uploaded(FileExtractor.IsFileSupported, files, outcomes, ids, |files|);
                formData == old(formData).(contextFiles := old(formData.contextFiles) + b.added)
                && extractError == b.error && !isExtracting
                && showAddFile == (if b.failed then old(showAddFile) else false)
                && addFileMode == (if b.failed then old(addFileMode) else None)
      ensures newFileName == old(newFileName) && newFileContent == old(newFileContent)
    {
      UploadWith(FileExtractor.IsFileSupported, files, outcomes, ids);
    }

    /**
     * `handleSave`: a blank name saves nothing; otherwise the form as typed updates the edited
     * project or creates a new one, and the editor closes.
     */
    method Save(editing: Option<Project>) returns (effects: seq<Effect>)
      ensures Trim(formData.name) == "" ==> effects == []
      ensures Trim(formData.name) != "" && editing.Some? ==>
                effects == [UpdateProject(editing.value.id, formData), ClearEditingProject, Close]
      ensures Trim(formData.name) != "" && editing.None? ==>
                effects == [CreateProject(formData), ClearEditingProject, Close]
    {
      if Trim(formData.name) == "" {
        return [];
      }
      var save := if editing.Some? then UpdateProject(editing.value.id, formData) else CreateProject(formData);
      effects := [save, ClearEditingProject, Close];
    }
  }

  /** `handleClose`: the edited project is cleared and the editor closes, saving nothing. */
  function CloseEffects(): (effects: seq<Effect>)
    ensures forall i :: 0 <= i < |effects| ==> !effects[i].CreateProject? && !effects[i].UpdateProject?
    ensures Close in effects
  {
    [ClearEditingProject, Close]
  }
}

=== FILE: project_selector.dfy ===
/**
 * The project picker of src/components/Projects/ProjectSelectorModal.jsx: the two-click delete
 * confirmation, Escape and closing, attaching the active conversation to a project, and the
 * project currently attached. The store actions the picker calls are returned as effects.
 */
module ProjectSelector {
  import opened Wrappers
  import Conversations

  /** The store actions and parent callbacks the picker triggers. */
  datatype Effect = SetConversationProject(conversationId: string, projectId: Option<string>)
                  | DeleteProject(id: string)
                  | Close

  /** `currentProjectId`: the active conversation's project, or none. */
  function CurrentProjectId(cs: seq<Conversations.Conversation>, activeId: Option<string>): (p: Option<string>)
    ensures activeId.None? ==> p.None?
    ensures activeId.Some? && (forall i :: 0 <= i < |cs| ==> cs[i].id != activeId.value) ==> p.None?
    ensures forall i :: 0 <= i < |cs| && activeId.Some? && cs[i].id == activeId.value
                        && (forall j :: 0 <= j < i ==> cs[j].id != activeId.value)
                        ==> p == (if Truthy(cs[i].projectId) then cs[i].projectId else None)
  {
    if activeId.None? then None
    else
      Conversations.FindByIdSpec(cs, activeId.value);
      match Conversations.FindById(cs, activeId.value)
      case None => None
      case Some(c) => if Truthy(c.projectId) then c.projectId else None
  }

  class ProjectSelector {
    var isOpen: bool
    /** The project whose delete button has been clicked once. */
    var confirmDelete: Option<string>

    constructor (isOpen: bool)
      ensures this.isOpen == isOpen && confirmDelete.None?
    {
      this.isOpen := isOpen;
      confirmDelete := None;
    }

    /** The `isOpen` prop changes; closing disarms the confirmation. */
    method SetOpen(open: bool)
      modifies this
      ensures isOpen == open
      ensures !open ==> confirmDelete.None?
      ensures open ==> confirmDelete == old(confirmDelete)
    {
      isOpen := open;
      if !open {
        confirmDelete := None;
      }
    }

    /**
     * `handleDeleteProject`: a click on the armed project deletes it and disarms; a click on
     * any other project only arms that one.
     */
    method DeleteClick(projectId: string) returns (effect: Option<Effect>)
      modifies this
      ensures old(confirmDelete) == Some(projectId) ==> effect == Some(DeleteProject(projectId)) && confirmDelete.None?
      ensures old(confirmDelete) != Some(projectId) ==> effect.None? && confirmDelete == Some(projectId)
      ensures isOpen == old(isOpen)
    {
      if confirmDelete == Some(projectId) {
        effect := Some(DeleteProject(projectId));
        confirmDelete := None;
      } else {
        confirmDelete := Some(projectId);
        effect := None;
      }
    }

    /**
     * The Escape listener, attached while open: an armed confirmation is disarmed, otherwise
     * the picker asks to be closed.
     */
    method Escape() returns (effect: Option<Effect>)
      modifies this
      ensures !old(isOpen) ==> effect.None? && confirmDelete == old(confirmDelete)
      ensures old(isOpen) && Truthy(old(confirmDelete)) ==> effect.None? && confirmDelete.None?
      ensures old(isOpen) && !Truthy(old(confirmDelete)) ==> effect == Some(Close) && confirmDelete == old(confirmDelete)
      ensures isOpen == old(isOpen)
    {
      effect := None;
      if isOpen {
        if Truthy(confirmDelete) {
          confirmDelete := None;
        } else {
          effect := Some(Close);
        }
      }
    }
  }

  /**
   * `handleSelectProject`: without an active conversation nothing happens; otherwise the
   * conversation is attached to the project (or detached, for none) and the picker closes.
   */
  function SelectProject(activeId: Option<string>, projectId: Option<string>): (effects: seq<Effect>)
    ensures !Truthy(activeId) ==> effects == []
    ensures Truthy(activeId) ==> effects == [SetConversationProject(activeId.value, projectId), Close]
  {
    if !Truthy(activeId) then [] else [SetConversationProject(activeId.value, projectId), Close]
  }

  /**
   * Deleting takes two clicks on the same project: the first deletes nothing, the second
   * deletes exactly that project, and the picker is disarmed afterwards. A click on another
   * project in between moves the confirmation instead of deleting.
   */
  method DeleteNeedsTwoClicks(p: string, q: string) returns (first: Option<Effect>, second: Option<Effect>,
                                                             switched: Option<Effect>, armed: Option<string>)
    requires p != q
    ensures first.None? && second == Some(DeleteProject(p))
    ensures switched.None? && armed == Some(p)
  {
    var picker := new ProjectSelector(true);
    first := picker.DeleteClick(p);
    second := picker.DeleteClick(p);
    var _ := picker.DeleteClick(q);
    switched := picker.DeleteClick(p);
    armed := picker.confirmDelete;
  }
}

=== FILE: seqs.dfy ===
/**
 * The two collection idioms the client uses everywhere: `Array.prototype.filter` and
 * "push unless some element already has this url" (deduplication by a key).
 */
module Seqs {

  /** `r` is `xs` with some elements left out, the rest kept in order (matched greedily). */
  predicate IsSubsequence<T(==)>(r: seq<T>, xs: seq<T>)
    decreases |xs|
  {
    if r == [] then true
    else if xs == [] then false
    else if r[0] == xs[0] then IsSubsequence(r[1..], xs[1..])
    else IsSubsequence(r, xs[1..])
  }

  /** Dropping the first element of a subsequence leaves a subsequence. */
  lemma {:induction false} SubsequenceTail<T>(r: seq<T>, xs: seq<T>)
    requires r != [] && IsSubsequence(r, xs)
    ensures IsSubsequence(r[1..], xs)
    decreases |xs|, 1
  {
    if r[0] != xs[0] {
      SubsequenceTail(r, xs[1..]);
    }
    SubsequenceSkip(r[1..], xs);
  }

  /** A subsequence of the tail is a subsequence of the whole. */
  lemma {:induction false} SubsequenceSkip<T>(r: seq<T>, xs: seq<T>)
    requires xs != [] && IsSubsequence(r, xs[1..])
    ensures IsSubsequence(r, xs)
    decreases |xs|, 0
  {
    if r != [] && r[0] == xs[0] {
      SubsequenceTail(r, xs[1..]);
    }
  }

  /** Every sequence is a subsequence of itself. */
  lemma {:induction false} SubsequenceRefl<T>(xs: seq<T>)
    ensures IsSubsequence(xs, xs)
    decreases |xs|
  {
    if xs != [] {
      SubsequenceRefl(xs[1..]);
    }
  }

  /** A subsequence takes each element at most as often as the sequence holds it. */
  lemma {:induction false} SubsequenceMultiset<T>(r: seq<T>, xs: seq<T>)
    requires IsSubsequence(r, xs)
    ensures multiset(r) <= multiset(xs)
    decreases |xs|
  {
    if r != [] {
      assert xs == [xs[0]] + xs[1..];
      if r[0] == xs[0] {
        SubsequenceMultiset(r[1..], xs[1..]);
        assert r == [r[0]] + r[1..];
      } else {
        SubsequenceMultiset(r, xs[1..]);
      }
    }
  }

  /** `xs.filter(p)`: exactly the elements satisfying `p`, in their original order. */
  function Filter<T(==,!new)>(xs: seq<T>, p: T -> bool): (r: seq<T>)
    ensures |r| <= |xs|
    ensures forall i :: 0 <= i < |r| ==> r[i] in xs && p(r[i])
    ensures forall i :: 0 <= i < |xs| && p(xs[i]) ==> xs[i] in r
    ensures IsSubsequence(r, xs)
    ensures forall x {:trigger multiset(r)[x]} :: multiset(r)[x] == (if p(x) then multiset(xs)[x] else 0)
    decreases |xs|
  {
    if xs == [] then []
    else
      var rest := Filter(xs[1..], p);
      assert xs == [xs[0]] + xs[1..];
      if p(xs[0]) then
        assert ([xs[0]] + rest)[1..] == rest;
        FilterCountStep(xs, rest, [xs[0]] + rest, p);
        [xs[0]] + rest
      else
        SubsequenceSkip(rest, xs);
        FilterCountStep(xs, rest, rest, p);
        rest
  }

  /** One step of `Filter`'s count: the head is kept exactly when it satisfies `p`. */
  lemma FilterCountStep<T>(xs: seq<T>, rest: seq<T>, r: seq<T>, p: T -> bool)
    requires xs != []
    requires forall x :: multiset(rest)[x] == (if p(x) then multiset(xs[1..])[x] else 0)
    requires r == (if p(xs[0]) then [xs[0]] + rest else rest)
    ensures forall x {:trigger multiset(r)[x]} :: multiset(r)[x] == (if p(x) then multiset(xs)[x] else 0)
  {
    assert xs == [xs[0]] + xs[1..];
    assert multiset(xs) == multiset{xs[0]} + multiset(xs[1..]);
    if p(xs[0]) {
      assert multiset(r) == multiset{xs[0]} + multiset(rest);
    }
  }

  /** Filtering with a predicate that holds everywhere in `xs` keeps all of `xs`. */
  lemma {:induction false} FilterKeepsAll<T(!new)>(xs: seq<T>, p: T -> bool)
    requires forall i :: 0 <= i < |xs| ==> p(xs[i])
    ensures Filter(xs, p) == xs
    decreases |xs|
  {
    if xs != [] {
      FilterKeepsAll(xs[1..], p);
    }
  }

  /** Some element of `xs` has key `k`: `xs.some(x => key(x) === k)`, which stops at the first. */
  predicate HasKey<T>(xs: seq<T>, k: string, key: T -> string)
    decreases |xs|
  {
    xs != [] && (key(xs[0]) == k || HasKey(xs[1..], k, key))
  }

  /** `some` holds exactly when some index carries the key. */
  lemma {:induction false} HasKeyIff<T>(xs: seq<T>, k: string, key: T -> string)
    ensures HasKey(xs, k, key) <==> exists i :: 0 <= i < |xs| && key(xs[i]) == k
    decreases |xs|
  {
    if xs != [] {
      HasKeyIff(xs[1..], k, key);
      assert forall i :: 0 < i < |xs| ==> xs[i] == xs[1..][i - 1];
      if exists i :: 0 <= i < |xs| && key(xs[i]) == k {
        var i :| 0 <= i < |xs| && key(xs[i]) == k;
        if i > 0 {
          assert key(xs[1..][i - 1]) == k;
        }
      }
    }
  }

  /** No two elements of `xs` share a key. */
  predicate KeysUnique<T>(xs: seq<T>, key: T -> string) {
    forall i, j :: 0 <= i < j < |xs| ==> key(xs[i]) != key(xs[j])
  }

  /** Offering `x` to `d`: appended when no element of `d` has its key, else ignored. */
  function Insert<T>(d: seq<T>, x: T, key: T -> string): seq<T> {
    if HasKey(d, key(x), key) then d else d + [x]
  }

  /** Offering an element keeps the keys unique. */
  lemma InsertKeepsUnique<T>(d: seq<T>, x: T, key: T -> string)
    requires KeysUnique(d, key)
    ensures KeysUnique(Insert(d, x, key), key)
  {
    HasKeyIff(d, key(x), key);
    if !HasKey(d, key(x), key) {
      var r := d + [x];
      forall i, j | 0 <= i < j < |r| ensures key(r[i]) != key(r[j]) {
        if j == |d| {
          assert r[i] == d[i];
        } else {
          assert r[i] == d[i] && r[j] == d[j];
        }
      }
    }
  }

  /**
   * The result of offering the elements of `xs` one by one to a list that accepts an
   * element only when no element already there has the same key.
   */
  function Dedup<T>(xs: seq<T>, key: T -> string): seq<T>
    decreases |xs|
  {
    if xs == [] then []
    else
      Insert(Dedup(xs[..|xs| - 1], key), xs[|xs| - 1], key)
  }

  /**
   * The kept list has no two elements with the same key, keeps only offered elements, and
   * keeps one element for every key offered.
   */
  lemma {:induction false} DedupSpec<T>(xs: seq<T>, key: T -> string)
    ensures KeysUnique(Dedup(xs, key), key)
    ensures forall i :: 0 <= i < |Dedup(xs, key)| ==> Dedup(xs, key)[i] in xs
    ensures forall i :: 0 <= i < |xs| ==> HasKey(Dedup(xs, key), key(xs[i]), key)
    decreases |xs|
  {
    if xs != [] {
      var xs' := xs[..|xs| - 1];
      DedupSpec(xs', key);
      assert xs == xs' + [xs[|xs| - 1]];
      InsertStep(Dedup(xs', key), xs', xs[|xs| - 1], key);
    }
  }

  /** The step of `DedupSpec`: offering `x` keeps the three properties for `offered + [x]`. */
  lemma InsertStep<T>(d: seq<T>, offered: seq<T>, x: T, key: T -> string)
    requires KeysUnique(d, key)
    requires forall i :: 0 <= i < |d| ==> d[i] in offered
    requires forall i :: 0 <= i < |offered| ==> HasKey(d, key(offered[i]), key)
    ensures KeysUnique(Insert(d, x, key), key)
    ensures forall i :: 0 <= i < |Insert(d, x, key)| ==> Insert(d, x, key)[i] in offered + [x]
    ensures forall i :: 0 <= i < |offered + [x]| ==> HasKey(Insert(d, x, key), key((offered + [x])[i]), key)
  {
    InsertKeepsUnique(d, x, key);
    if !HasKey(d, key(x), key) {
      HasKeyAppend(d, x, key);
    }
  }

  /** Appending an element keeps every key and adds the element's own. */
  lemma HasKeyAppend<T>(d: seq<T>, x: T, key: T -> string)
    ensures HasKey(d + [x], key(x), key)
    ensures forall k :: HasKey(d, k, key) ==> HasKey(d + [x], k, key)
  {
    assert (d + [x])[|d|] == x;
    HasKeyIff(d + [x], key(x), key);
    forall k | HasKey(d, k, key) ensures HasKey(d + [x], k, key) {
      HasKeyIff(d, k, key);
      HasKeyIff(d + [x], k, key);
      var i :| 0 <= i < |d| && key(d[i]) == k;
      assert (d + [x])[i] == d[i];
    }
  }

  /** Offering one more element is one more `Insert`. */
  lemma DedupSnoc<T>(xs: seq<T>, x: T, key: T -> string)
    ensures Dedup(xs + [x], key) == Insert(Dedup(xs, key), x, key)
  {
    assert (xs + [x])[..|xs|] == xs;
  }

  /**
   * Re-delivery is idempotent: offering elements whose keys have all been seen before
   * changes nothing.
   */
  lemma {:induction false} DedupRedelivery<T>(xs: seq<T>, ys: seq<T>, key: T -> string)
    requires forall j :: 0 <= j < |ys| ==> HasKey(xs, key(ys[j]), key)
    ensures Dedup(xs + ys, key) == Dedup(xs, key)
    decreases |ys|
  {
    if ys == [] {
      assert xs + ys == xs;
    } else {
      var ys' := ys[..|ys| - 1];
      var y := ys[|ys| - 1];
      assert xs + ys == (xs + ys') + [y];
      DedupRedelivery(xs, ys', key);
      DedupSnoc(xs + ys', y, key);
      HasKeyIff(xs, key(y), key);
      var i :| 0 <= i < |xs| && key(xs[i]) == key(y);
      DedupSpec(xs, key);
      assert HasKey(Dedup(xs, key), key(xs[i]), key);
    }
  }

  /** Offering the same elements twice gives the same list as offering them once. */
  lemma DedupTwice<T>(xs: seq<T>, key: T -> string)
    ensures Dedup(xs + xs, key) == Dedup(xs, key)
  {
    forall j | 0 <= j < |xs| ensures HasKey(xs, key(xs[j]), key) {
      HasKeyIff(xs, key(xs[j]), key);
    }
    DedupRedelivery(xs, xs, key);
  }

  /**
   * First-seen order: every kept element is the first element of `xs` that carries its key.
   */
  lemma {:induction false} DedupFirstSeen<T>(xs: seq<T>, key: T -> string, m: nat)
    requires m < |Dedup(xs, key)|
    ensures exists i :: 0 <= i < |xs| && xs[i] == Dedup(xs, key)[m] && !HasKey(xs[..i], key(xs[i]), key)
    decreases |xs|
  {
    var d := Dedup(xs[..|xs| - 1], key);
    var x := xs[|xs| - 1];
    var xs' := xs[..|xs| - 1];
    if m < |d| {
      DedupFirstSeen(xs', key, m);
      var i :| 0 <= i < |xs'| && xs'[i] == d[m] && !HasKey(xs'[..i], key(xs'[i]), key);
      assert xs'[..i] == xs[..i];
      assert Dedup(xs, key)[m] == d[m];
    } else {
      assert Dedup(xs, key)[m] == x && !HasKey(d, key(x), key);
      DedupSpec(xs', key);
      HasKeyIff(xs', key(x), key);
      assert xs[..|xs| - 1] == xs';
    }
  }
}

=== FILE: sidebar.dfy ===
/**
 * The conversation list of src/components/Sidebar/Sidebar.jsx: the search filter, the
 * "new conversation" button and the text shown when the list is empty.
 */
module Sidebar {
  import opened Wrappers
  import opened Text
  import Seqs
  import Conversations
  import Store

  type Conversation = Conversations.Conversation

  const NoConversations := "Aucune conversation"
  const NoResults := "Aucun résultat"

  /** A conversation passes the search when its lower-cased title contains the lower-cased term. */
  predicate MatchesSearch(c: Conversation, term: string)
    ensures term == "" ==> MatchesSearch(c, term)
    ensures Contains(c.title, term) ==> MatchesSearch(c, term)
  {
    ContainsEmpty(Lower(c.title));
    if Contains(c.title, term) then LowerContains(c.title, term); Contains(Lower(c.title), Lower(term))
    else Contains(Lower(c.title), Lower(term))
  }

  /**
   * `filteredConversations`: the conversations that pass the search, in their original order.
   */
  function FilterConversations(cs: seq<Conversation>, term: string): (r: seq<Conversation>)
    ensures Seqs.IsSubsequence(r, cs)
    ensures forall i :: 0 <= i < |r| ==> MatchesSearch(r[i], term)
    ensures forall i :: 0 <= i < |cs| && MatchesSearch(cs[i], term) ==> cs[i] in r
    ensures forall c {:trigger multiset(r)[c]} :: multiset(r)[c] == (if MatchesSearch(c, term) then multiset(cs)[c] else 0)
  {
    Seqs.Filter(cs, (c: Conversation) => MatchesSearch(c, term))
  }

  /** An empty search term keeps every conversation. */
  lemma EmptySearchKeepsAll(cs: seq<Conversation>)
    ensures FilterConversations(cs, "") == cs
  {
    Seqs.FilterKeepsAll(cs, (c: Conversation) => MatchesSearch(c, ""));
  }

  /** The text shown in place of the list when nothing is listed. */
  function EmptyStateText(cs: seq<Conversation>, filtered: seq<Conversation>): (t: Option<string>)
    ensures t.Some? <==> filtered == []
    ensures t == Some(NoConversations) <==> filtered == [] && cs == []
    ensures t == Some(NoResults) <==> filtered == [] && cs != []
  {
    if filtered != [] then None
    else if |cs| == 0 then Some(NoConversations)
    else Some(NoResults)
  }

  /** "No results" is shown only when a non-empty search removed every conversation. */
  lemma NoResultsOnlyWhenSearching(cs: seq<Conversation>, term: string)
    requires EmptyStateText(cs, FilterConversations(cs, term)) == Some(NoResults)
    ensures term != "" && cs != []
  {
    if term == "" {
      EmptySearchKeepsAll(cs);
    }
  }

  /**
   * `handleNewConversation`: without a selected model nothing happens; otherwise a
   * conversation with that model is created, first in the list and active.
   */
  method HandleNewConversation(store: Store.Store, freshId: string, now: string)
    requires store.Valid()
    modifies store
    ensures store.Valid()
    ensures old(store.selectedModel) == "" ==> store.State() == old(store.State())
    ensures old(store.selectedModel) != "" ==>
              store.State() == old(store.State()).(
                conversations := [Conversations.NewConversation(freshId, old(store.selectedModel), now)] + old(store.conversations),
                activeConversationId := Some(freshId))
  {
    if store.selectedModel != "" {
      var _ := store.CreateConversation(store.selectedModel, freshId, now);
    }
  }
}

=== FILE: store.dfy ===
/**
 * The zustand store of src/store/useStore.js as a class whose actions reassign its fields.
 *
 * `sendMessage` is asynchronous in the source; here it is the state machine its `await`
 * points cut it into, driven by the events of one exchange: `SendMessage` runs up to the
 * opening of the stream, `ReceiveChunk` is one turn of the `for await` loop, and the stream
 * ends with `FinishStream` (the generator returned) or `FailStream` (it threw, an abort
 * included). `InFlight` holds the locals of the call between those events. `RunSend`
 * drives one whole exchange.
 */
module Store {
  import opened Wrappers
  import opened Text
  import opened Conversations
  import OpenRouter

  /** The locals of a `sendMessage` call whose stream is still open. */
  datatype InFlight = InFlight(conversationId: string, content: string, isFirstMessage: bool, fullResponse: string)

  /** What the stream of a `sendMessage` call threw: an abort, or any other error. */
  datatype StreamError = AbortError | OtherError(message: string)

  /** How one exchange ends: the stream completes (with the title call's outcome) or throws. */
  datatype Ending = Completed(title: Result<string, string>) | Failed(failure: StreamError)

  /** What `importConversations` reads: an unreadable file, bad JSON, a non-array, or an array. */
  datatype ImportInput =
    | ReadError
    | InvalidJson(message: string)
    | NotAnArray
    | ConversationArray(items: seq<Conversation>)

  /** Every field of the store, as one value. */
  datatype StoreState = StoreState(
    apiKey: string,
    selectedModel: string,
    userProfile: Profile,
    conversations: seq<Conversation>,
    activeConversationId: Option<string>,
    isStreaming: bool,
    streamingContent: string,
    error: Option<string>,
    abortArmed: bool,
    inFlight: Option<InFlight>)

  /**
   * The conversation `sendMessage` works on: the active one, when the active id is truthy,
   * a conversation carries it, and that conversation has a truthy model.
   */
  function SendTarget(cs: seq<Conversation>, active: Option<string>): (r: Option<Conversation>)
    ensures !Truthy(active) ==> r.None?
    ensures r.Some? ==> r.value in cs && r.value.id == active.value && r.value.model != ""
  {
    if !Truthy(active) then None
    else
      var c := FindById(cs, active.value);
      if c.Some? && c.value.model != "" then c else None
  }

  /**
   * The conversations after a whole exchange on conversation `id`: the user message, then on
   * completion the assistant message holding every chunk in order and, after a first
   * exchange, the new title.
   */
  function AfterExchange(cs: seq<Conversation>, id: string, content: string, isFirst: bool,
                         chunks: seq<string>, ending: Ending, now: string): seq<Conversation>
  {
    var withUser := AppendMessage(cs, id, OpenRouter.ApiMessage("user", content), now);
    match ending
    case Failed(_) => withUser
    case Completed(title) =>
      var withReply := AppendMessage(withUser, id, OpenRouter.ApiMessage("assistant", Concat(chunks)), now);
      if isFirst then
        UpdateConversation(withReply, id, Patch(Some(TitleAfterFirstExchange(title, content)), None), now)
      else withReply
  }

  /**
   * The state once a call is open on the send target of `s`: the user message committed
   * to it, the error cleared, streaming on with nothing received yet, and the call
   * remembering whether it is the conversation's first exchange.
   */
  function Opened(s: StoreState, content: string, now: string): StoreState
    requires SendTarget(s.conversations, s.activeConversationId).Some?
  {
    s.(conversations := AppendMessage(s.conversations, s.activeConversationId.value,
                                      OpenRouter.ApiMessage("user", content), now),
       error := None, streamingContent := "", isStreaming := true, abortArmed := true,
       inFlight := Some(InFlight(s.activeConversationId.value, content,
                                 |SendTarget(s.conversations, s.activeConversationId).value.messages| == 0, "")))
  }

  /**
   * An exchange commits the user message in every case and exactly one assistant message,
   * holding the chunks in order, only when the stream completes; a first exchange that
   * completes is retitled; no other conversation changes.
   */
  lemma ExchangeCommits(cs: seq<Conversation>, id: string, content: string, isFirst: bool,
                        chunks: seq<string>, ending: Ending, now: string)
    ensures var r := AfterExchange(cs, id, content, isFirst, chunks, ending, now);
      && |r| == |cs|
      && (forall i :: 0 <= i < |cs| && cs[i].id != id ==> r[i] == cs[i])
      && (forall i :: 0 <= i < |cs| && cs[i].id == id && ending.Failed? ==>
            r[i].messages == cs[i].messages + [OpenRouter.ApiMessage("user", content)] && r[i].title == cs[i].title)
      && (forall i :: 0 <= i < |cs| && cs[i].id == id && ending.Completed? ==>
            r[i].messages == cs[i].messages + [OpenRouter.ApiMessage("user", content),
                                               OpenRouter.ApiMessage("assistant", Concat(chunks))]
            && r[i].title == (if isFirst then TitleAfterFirstExchange(ending.title, content) else cs[i].title))
  {
    var u := OpenRouter.ApiMessage("user", content);
    var a := OpenRouter.ApiMessage("assistant", Concat(chunks));
    var withUser := AppendMessage(cs, id, u, now);
    if ending.Completed? {
      var withReply := AppendMessage(withUser, id, a, now);
      forall i | 0 <= i < |cs| && cs[i].id == id
        ensures withReply[i].messages == cs[i].messages + [u, a]
      {
        assert withUser[i].messages == cs[i].messages + [u];
      }
    }
  }

  class Store {
    var apiKey: string
    var selectedModel: string
    var userProfile: Profile
    var conversations: seq<Conversation>
    var activeConversationId: Option<string>
    var isStreaming: bool
    var streamingContent: string
    var error: Option<string>
    /** `abortController !== null`. */
    var abortArmed: bool
    /** The open `sendMessage` call, if any. */
    var inFlight: Option<InFlight>

    function State(): StoreState
      reads this
    {
      StoreState(apiKey, selectedModel, userProfile, conversations, activeConversationId,
                 isStreaming, streamingContent, error, abortArmed, inFlight)
    }

    /**
     * Between actions: the abort controller exists exactly while streaming, and the shown
     * streaming text is the open call's accumulated response, or empty when no call is open.
     */
    ghost predicate Valid()
      reads this
    {
      && isStreaming == abortArmed
      && (inFlight.None? ==> !isStreaming && streamingContent == "")
      && (inFlight.Some? ==> streamingContent == inFlight.value.fullResponse)
    }

    /** The initial store: no key, no model, default profile, no conversation, idle. */
    constructor ()
      ensures Valid()
      ensures State() == StoreState("", "", DefaultProfile, [], None, false, "", None, false, None)
    {
      apiKey, selectedModel, userProfile := "", "", DefaultProfile;
      conversations, activeConversationId := [], None;
      isStreaming, streamingContent, error, abortArmed, inFlight := false, "", None, false, None;
    }

    /**
     * `setActiveConversationId`: the id becomes active, and the selected model follows the
     * conversation's model when a conversation carries the id and its model is truthy.
     */
    method SetActiveConversationId(id: Option<string>)
      requires Valid()
      modifies this
      ensures Valid()
      ensures var c := if id.Some? then FindById(old(conversations), id.value) else None;
        State() == old(State()).(activeConversationId := id,
                                 selectedModel := if c.Some? && c.value.model != "" then c.value.model
                                                  else old(selectedModel))
    {
      var c := if id.Some? then FindById(conversations, id.value) else None;
      activeConversationId := id;
      if c.Some? && c.value.model != "" {
        selectedModel := c.value.model;
      }
    }

    /**
     * `setSelectedModel`: the model is selected and, when the active id is truthy, becomes
     * the model of the active conversation.
     */
    method SetSelectedModel(model: string, now: string)
      requires Valid()
      modifies this
      ensures Valid()
      ensures State() == old(State()).(
        selectedModel := model,
        conversations := if Truthy(old(activeConversationId))
                         then Conversations.UpdateConversation(old(conversations), old(activeConversationId).value, Patch(None, Some(model)), now)
                         else old(conversations))
    {
      selectedModel := model;
      if Truthy(activeConversationId) {
        conversations := Conversations.UpdateConversation(conversations, activeConversationId.value, Patch(None, Some(model)), now);
      }
    }

    /**
     * `createConversation`: a new conversation with the default title and no messages is
     * put first and becomes active; its id is returned.
     */
    method CreateConversation(model: string, freshId: string, now: string) returns (id: string)
      requires Valid()
      modifies this
      ensures Valid()
      ensures id == freshId
      ensures State() == old(State()).(conversations := [NewConversation(freshId, model, now)] + old(conversations),
                                       activeConversationId := Some(freshId))
    {
      conversations := [NewConversation(freshId, model, now)] + conversations;
      activeConversationId := Some(freshId);
      id := freshId;
    }

    /** `updateConversation`: only the conversations carrying `id` are patched. */
    method UpdateConversation(id: string, updates: Patch, now: string)
      requires Valid()
      modifies this
      ensures Valid()
      ensures State() == old(State()).(conversations := Conversations.UpdateConversation(old(conversations), id, updates, now))
    {
      conversations := Conversations.UpdateConversation(conversations, id, updates, now);
    }

    /**
     * `deleteConversation`: the conversations carrying `id` are removed; the active id moves
     * to the first remaining conversation (or null) only when it was the deleted one.
     */
    method DeleteConversation(id: string)
      requires Valid()
      modifies this
      ensures Valid()
      ensures State() == old(State()).(
        conversations := Remove(old(conversations), id),
        activeConversationId := ActiveAfterDelete(old(activeConversationId), id, Remove(old(conversations), id)))
    {
      var remaining := Remove(conversations, id);
      conversations, activeConversationId := remaining, ActiveAfterDelete(activeConversationId, id, remaining);
    }

    /** `addMessage`: the conversations carrying `conversationId` gain `{ role, content }` at the end. */
    method AddMessage(conversationId: string, role: string, content: string, now: string)
      requires Valid()
      modifies this
      ensures Valid()
      ensures State() == old(State()).(
        conversations := AppendMessage(old(conversations), conversationId, OpenRouter.ApiMessage(role, content), now))
    {
      conversations := AppendMessage(conversations, conversationId, OpenRouter.ApiMessage(role, content), now);
    }

    /** `getSystemPrompt`: the sentences of the profile pushed in order, joined by spaces. */
    method GetSystemPrompt() returns (prompt: string)
      ensures prompt == SystemPrompt(userProfile)
    {
      var p := userProfile;
      var parts: seq<string> := [];
      if p.name != "" {
        parts := parts + [NameSentence(p.name)];
      }
      assert parts == When(p.name, NameSentence(p.name));
      if p.occupation != "" {
        parts := parts + [OccupationSentence(p.occupation)];
      }
      ghost var identity := parts;
      assert identity == When(p.name, NameSentence(p.name)) + When(p.occupation, OccupationSentence(p.occupation));
      if p.interests != "" {
        parts := parts + [InterestsSentence(p.interests)];
      }
      assert parts == identity + When(p.interests, InterestsSentence(p.interests));
      ghost var personal := parts;
      parts := parts + [StyleSentence(p.communicationStyle)];
      parts := parts + [LanguageSentence(p.language)];
      if p.customInstructions != "" {
        parts := parts + [CustomSentence(p.customInstructions)];
      }
      assert parts == personal + [StyleSentence(p.communicationStyle), LanguageSentence(p.language)]
                      + When(p.customInstructions, CustomSentence(p.customInstructions));
      prompt := if |parts| > 1 then Join(parts, " ") else "";
    }

    /**
     * `sendMessage` up to the opening of the stream. Without a truthy active id whose
     * conversation has a truthy model nothing happens and nothing is sent. Otherwise the
     * error and streaming text are cleared, the user message is committed first, and the
     * request is the system prompt, the conversation's earlier messages and the new message.
     */
    method SendMessage(content: string, now: string) returns (request: Option<seq<Message>>)
      requires Valid() && inFlight.None?
      modifies this
      ensures Valid()
      ensures var t := SendTarget(old(conversations), old(activeConversationId));
        && (t.None? ==> request.None? && State() == old(State()))
        && (t.Some? ==>
              && request == Some(RequestMessages(SystemPrompt(old(userProfile)), t.value.messages, content))
              && State() == Opened(old(State()), content, now))
    {
      var target := SendTarget(conversations, activeConversationId);
      if target.None? {
        return None;
      }
      var systemPrompt := GetSystemPrompt();
      request := Some(RequestMessages(systemPrompt, target.value.messages, content));
      OpenCall(target.value, content, now);
    }

    /**
     * The state change of `sendMessage` once its target is known: the error and streaming
     * text are cleared, the user message is committed, and the call is open.
     */
    method OpenCall(target: Conversation, content: string, now: string)
      requires Valid() && inFlight.None?
      requires SendTarget(conversations, activeConversationId) == Some(target)
      modifies this
      ensures Valid()
      ensures State() == Opened(old(State()), content, now)
    {
      ghost var s0 := State();
      var id := activeConversationId.value;
      var isFirstMessage := |target.messages| == 0;
      var next := AppendMessage(conversations, id, OpenRouter.ApiMessage("user", content), now);
      assert Opened(s0, content, now) == s0.(conversations := next, error := None, streamingContent := "",
        isStreaming := true, abortArmed := true, inFlight := Some(InFlight(id, content, isFirstMessage, "")));
      error, streamingContent := None, "";
      conversations := next;
      isStreaming, abortArmed, inFlight := true, true, Some(InFlight(id, content, isFirstMessage, ""));
    }

    /** One turn of the `for await` loop: the chunk extends the response shown while streaming. */
    method ReceiveChunk(chunk: string)
      requires Valid() && inFlight.Some?
      modifies this
      ensures Valid()
      ensures State() == old(State()).(
        inFlight := Some(old(inFlight).value.(fullResponse := old(inFlight).value.fullResponse + chunk)),
        streamingContent := old(inFlight).value.fullResponse + chunk)
    {
      var full := inFlight.value.fullResponse + chunk;
      inFlight, streamingContent := Some(inFlight.value.(fullResponse := full)), full;
    }

    /**
     * The stream completed: the whole response is committed as one assistant message, the
     * streaming state is cleared and, after a first exchange, the conversation is retitled
     * with the generated title, or the fallback when the title request failed. The title
     * request sent is returned.
     */
    method FinishStream(title: Result<string, string>, now: string) returns (titleRequest: Option<OpenRouter.TitleRequest>)
      requires Valid() && inFlight.Some?
      modifies this
      ensures Valid()
      ensures var f := old(inFlight).value;
        var withReply := AppendMessage(old(conversations), f.conversationId,
                                       OpenRouter.ApiMessage("assistant", f.fullResponse), now);
        && titleRequest == (if f.isFirstMessage then Some(OpenRouter.TitleRequestFor(f.content, f.fullResponse)) else None)
        && State() == old(State()).(
             conversations := if f.isFirstMessage
                              then Conversations.UpdateConversation(withReply, f.conversationId,
                                     Patch(Some(TitleAfterFirstExchange(title, f.content)), None), now)
                              else withReply,
             streamingContent := "", isStreaming := false, abortArmed := false, inFlight := None)
    {
      var f := inFlight.value;
      AddMessage(f.conversationId, "assistant", f.fullResponse, now);
      streamingContent, isStreaming, abortArmed, inFlight := "", false, false, None;
      titleRequest := None;
      if f.isFirstMessage {
        titleRequest := Some(OpenRouter.TitleRequestFor(f.content, f.fullResponse));
        UpdateConversation(f.conversationId, Patch(Some(TitleAfterFirstExchange(title, f.content)), None), now);
      }
    }

    /**
     * The stream threw: nothing more is committed, the error is recorded unless it is an
     * abort, and the streaming state is cleared.
     */
    method FailStream(failure: StreamError)
      requires Valid() && inFlight.Some?
      modifies this
      ensures Valid()
      ensures State() == old(State()).(
        error := if failure.OtherError? then Some(failure.message) else old(error),
        streamingContent := "", isStreaming := false, abortArmed := false, inFlight := None)
    {
      if failure.OtherError? {
        error := Some(failure.message);
      }
      streamingContent, isStreaming, abortArmed, inFlight := "", false, false, None;
    }

    /**
     * `stopStreaming`: signals the abort when a controller exists (the result says whether it
     * did), then clears the streaming flag and the controller. The open call, if any, ends
     * when its stream delivers the abort.
     */
    method StopStreaming() returns (aborted: bool)
      requires Valid()
      modifies this
      ensures Valid()
      ensures aborted == old(abortArmed)
      ensures State() == old(State()).(isStreaming := false, abortArmed := false)
    {
      aborted := abortArmed;
      isStreaming, abortArmed := false, false;
    }

    /**
     * `importConversations`: an array of conversations is put before the existing ones and
     * its length returned; anything else is rejected and nothing changes.
     */
    method ImportConversations(input: ImportInput) returns (r: Result<nat, string>)
      requires Valid()
      modifies this
      ensures Valid()
      ensures input.ConversationArray? ==>
        r == Success(|input.items|) && State() == old(State()).(conversations := input.items + old(conversations))
      ensures !input.ConversationArray? ==> r.Failure? && State() == old(State())
      ensures input.ReadError? ==> r == Failure("Failed to read file")
      ensures input.InvalidJson? ==> r == Failure(input.message)
      ensures input.NotAnArray? ==> r == Failure("Invalid format: expected array")
    {
      match input
      case ReadError => r := Failure("Failed to read file");
      case InvalidJson(message) => r := Failure(message);
      case NotAnArray => r := Failure("Invalid format: expected array");
      case ConversationArray(items) =>
        conversations := items + conversations;
        r := Success(|items|);
    }

    /**
     * The whole `for await` loop of a freshly opened call: the response becomes the
     * concatenation of the chunks, shown as the streaming text, and nothing else changes.
     */
    method ReceiveAll(chunks: seq<string>)
      requires Valid() && inFlight.Some? && inFlight.value.fullResponse == ""
      modifies this
      ensures Valid()
      ensures State() == old(State()).(inFlight := Some(old(inFlight).value.(fullResponse := Concat(chunks))),
                                       streamingContent := Concat(chunks))
    {
      var i := 0;
      while i < |chunks|
        invariant 0 <= i <= |chunks|
        invariant Valid()
        invariant State() == old(State()).(inFlight := Some(old(inFlight).value.(fullResponse := Concat(chunks[..i]))),
                                           streamingContent := Concat(chunks[..i]))
      {
        assert chunks[..i + 1][..i] == chunks[..i];
        ReceiveChunk(chunks[i]);
        i := i + 1;
      }
      assert chunks[..i] == chunks;
    }

    /**
     * One whole exchange: `sendMessage` is called, every chunk of the stream arrives in
     * order, and the stream ends as `ending` says. When the guard lets the call through, the
     * conversations end as `AfterExchange` says, the error is the failure's, and the key, the
     * model, the profile and the active id are untouched; in every case the store ends idle.
     */
    method RunSend(content: string, chunks: seq<string>, ending: Ending, now: string)
      returns (request: Option<seq<Message>>)
      requires Valid() && inFlight.None?
      modifies this
      ensures Valid() && inFlight.None? && !isStreaming && streamingContent == ""
      ensures var t := SendTarget(old(conversations), old(activeConversationId));
        && (t.None? ==> request.None? && State() == old(State()))
        && (t.Some? ==>
              && request == Some(RequestMessages(SystemPrompt(old(userProfile)), t.value.messages, content))
              && State() == old(State()).(
                   conversations := AfterExchange(old(conversations), old(activeConversationId).value, content,
                                                  |t.value.messages| == 0, chunks, ending, now),
                   error := if ending.Failed? && ending.failure.OtherError? then Some(ending.failure.message) else None,
                   isStreaming := false, streamingContent := "", abortArmed := false, inFlight := None))
    {
      request := SendMessage(content, now);
      if request.None? {
        return;
      }
      ReceiveAll(chunks);
      match ending {
        case Completed(title) =>
          var _ := FinishStream(title, now);
        case Failed(failure) =>
          FailStream(failure);
      }
    }
  }
}

=== FILE: streaming_manager.dfy ===
/**
 * The stream accumulator of src/store/streamingManager.js: one in-flight response held
 * outside React state, with mirror "refs" the UI polls and a subscriber list that is told
 * only about structural events (start, citations, end, reset).
 */
module Streaming {
  import opened Wrappers
  import Seqs

  /** An image of the response; two images are the same image when their urls agree. */
  datatype Image = Image(url: string)

  /** A citation of the response, identified by its url. */
  datatype Citation = Citation(url: string, title: Option<string>)

  function ImageUrl(i: Image): string { i.url }
  function CitationUrl(c: Citation): string { c.url }

  /** The record returned by `endStreaming`. */
  datatype StreamResult = StreamResult(
    content: string,
    reasoning: string,
    images: seq<Image>,
    citations: seq<Citation>,
    conversationId: Option<string>)

  /** The record returned by `getState`. */
  datatype Snapshot = Snapshot(
    content: string,
    reasoning: string,
    images: seq<Image>,
    citations: seq<Citation>,
    isStreaming: bool,
    conversationId: Option<string>)

  /** The structural events passed to subscribers. */
  datatype Event =
    | Start(conversationId: string)
    | CitationsChanged(citations: seq<Citation>)
    | End(result: StreamResult)
    | ResetEvent

  /** A subscriber callback, known by its identity. */
  type Callback = nat

  /** A `{ current }` object that components read directly. */
  class Ref<T> {
    var current: T

    constructor (v: T)
      ensures current == v
    {
      current := v;
    }
  }

  /** No callback is listed twice (the subscribers form a `Set`). */
  predicate Distinct(xs: seq<Callback>) {
    forall i, j :: 0 <= i < j < |xs| ==> xs[i] != xs[j]
  }

  /** `Set.prototype.delete`: the list without `x`, the others kept in insertion order. */
  function Without(xs: seq<Callback>, x: Callback): (r: seq<Callback>)
    ensures x !in r
    ensures forall i :: 0 <= i < |r| ==> r[i] in xs
    ensures forall i :: 0 <= i < |xs| && xs[i] != x ==> xs[i] in r
    ensures Distinct(xs) ==> Distinct(r)
    decreases |xs|
  {
    if xs == [] then []
    else if xs[0] == x then Without(xs[1..], x)
    else [xs[0]] + Without(xs[1..], x)
  }

  /** What `forEach(cb => cb(event))` delivers: `e` once to each callback, in order. */
  function Deliveries(cbs: seq<Callback>, e: Event): (r: seq<(Callback, Event)>)
    ensures |r| == |cbs|
    ensures forall i :: 0 <= i < |cbs| ==> r[i] == (cbs[i], e)
    decreases |cbs|
  {
    if cbs == [] then [] else Deliveries(cbs[..|cbs| - 1], e) + [(cbs[|cbs| - 1], e)]
  }

  /** The state kept by the `useStreamingState` hook. */
  datatype HookState = HookState(isStreaming: bool, conversationId: Option<string>)

  /** The hook's subscriber: `start` sets the flag and id, `end` and `reset` clear the flag. */
  function HookStep(h: HookState, e: Event): HookState {
    match e
    case Start(id) => HookState(true, Some(id))
    case End(_) => h.(isStreaming := false)
    case ResetEvent => h.(isStreaming := false)
    case CitationsChanged(_) => h
  }

  /** The hook's state after it has seen the events `es`, starting from `useState(false/null)`. */
  function HookReplay(es: seq<Event>): HookState
    decreases |es|
  {
    if es == [] then HookState(false, None)
    else HookStep(HookReplay(es[..|es| - 1]), es[|es| - 1])
  }

  /** Seeing one more event is one more step of the hook. */
  lemma HookReplaySnoc(es: seq<Event>, e: Event)
    ensures HookReplay(es + [e]) == HookStep(HookReplay(es), e)
  {
    assert (es + [e])[..|es|] == es;
  }

  /** `es[i]` is a start after which only citation events followed. */
  predicate OpenSince(es: seq<Event>, i: int) {
    0 <= i < |es| && es[i].Start? && forall j :: i < j < |es| ==> es[j].CitationsChanged?
  }

  /**
   * The hook reports streaming exactly when the last start has not been followed by an end
   * or a reset, and then it reports that start's conversation id.
   */
  lemma {:induction false} HookStreamingIff(es: seq<Event>)
    ensures HookReplay(es).isStreaming <==> exists i :: OpenSince(es, i)
    ensures forall i :: OpenSince(es, i) ==> HookReplay(es).conversationId == Some(es[i].conversationId)
    decreases |es|
  {
    if es != [] {
      var n := |es|;
      var p := es[..n - 1];
      HookStreamingIff(p);
      assert forall j :: 0 <= j < n - 1 ==> p[j] == es[j];
      match es[n - 1]
      case Start(id) =>
        assert OpenSince(es, n - 1);
        forall i | OpenSince(es, i) ensures i == n - 1 {
        }
      case End(_) =>
        forall i ensures !OpenSince(es, i) {
          if 0 <= i < n - 1 && es[i].Start? {
            assert !es[n - 1].CitationsChanged?;
          }
        }
      case ResetEvent =>
        forall i ensures !OpenSince(es, i) {
          if 0 <= i < n - 1 && es[i].Start? {
            assert !es[n - 1].CitationsChanged?;
          }
        }
      case CitationsChanged(_) =>
        forall i ensures OpenSince(es, i) <==> OpenSince(p, i) {
        }
    }
  }

  class StreamingManager {
    var content: string
    var reasoning: string
    var images: seq<Image>
    var citations: seq<Citation>
    var isStreaming: bool
    var conversationId: Option<string>

    /** The subscriber `Set`, in insertion order (the order `forEach` visits it). */
    var subscribers: seq<Callback>
    /** Every call made by `notify`, in order: which callback received which event. */
    var delivered: seq<(Callback, Event)>

    const contentRef: Ref<string>
    const reasoningRef: Ref<string>
    const imagesRef: Ref<seq<Image>>
    const citationsRef: Ref<seq<Citation>>

    /** Every event notified since construction. */
    ghost var events: seq<Event>
    /** Every image and every citation offered since the buffers were last emptied, in order. */
    ghost var offeredImages: seq<Image>
    ghost var offeredCitations: seq<Citation>
    /** The state of a `useStreamingState` hook subscribed since construction. */
    ghost var hook: HookState

    /**
     * The refs mirror the fields; images and citations are the first-seen, url-unique
     * selection of what was offered; a `useStreamingState` hook that has seen every event
     * (its state is the replay of the event history) agrees with the manager on whether a stream is running, and on which conversation.
     */
    ghost predicate Valid()
      reads this, contentRef, reasoningRef, imagesRef, citationsRef
    {
      && contentRef != reasoningRef
      && contentRef.current == content
      && reasoningRef.current == reasoning
      && imagesRef.current == images
      && citationsRef.current == citations
      && images == Seqs.Dedup(offeredImages, ImageUrl)
      && citations == Seqs.Dedup(offeredCitations, CitationUrl)
      && Seqs.KeysUnique(images, ImageUrl)
      && Seqs.KeysUnique(citations, CitationUrl)
      && Distinct(subscribers)
      && hook == HookReplay(events)
      && hook.isStreaming == isStreaming
      && (isStreaming ==> hook.conversationId == conversationId)
    }

    /** The current values of the six state fields. */
    function State(): Snapshot
      reads this
    {
      Snapshot(content, reasoning, images, citations, isStreaming, conversationId)
    }

    constructor ()
      ensures Valid()
      ensures State() == Snapshot("", "", [], [], false, None)
      ensures subscribers == [] && delivered == [] && events == []
      ensures offeredImages == [] && offeredCitations == []
      ensures fresh(contentRef) && fresh(reasoningRef) && fresh(imagesRef) && fresh(citationsRef)
    {
      content := "";
      reasoning := "";
      images := [];
      citations := [];
      isStreaming := false;
      conversationId := None;
      subscribers := [];
      delivered := [];
      contentRef := new Ref("");
      reasoningRef := new Ref("");
      imagesRef := new Ref([]);
      citationsRef := new Ref([]);
      events := [];
      offeredImages, offeredCitations := [], [];
      hook := HookState(false, None);
    }

    /** `subscribe(cb)`: adds `cb` unless it is already subscribed. */
    method Subscribe(cb: Callback)
      requires Valid()
      modifies this
      ensures Valid()
      ensures subscribers == if cb in old(subscribers) then old(subscribers) else old(subscribers) + [cb]
      ensures State() == old(State()) && delivered == old(delivered) && events == old(events)
    {
      if cb !in subscribers {
        subscribers := subscribers + [cb];
      }
    }

    /** The function returned by `subscribe(cb)`: removes `cb`, keeping the others in order. */
    method Unsubscribe(cb: Callback)
      requires Valid()
      modifies this
      ensures Valid()
      ensures subscribers == Without(old(subscribers), cb)
      ensures State() == old(State()) && delivered == old(delivered) && events == old(events)
    {
      subscribers := Without(subscribers, cb);
    }

    /** `notify(event)`: calls every subscribed callback once with `e`. */
    method Notify(e: Event)
      modifies this`delivered, this`events, this`hook
      ensures delivered == old(delivered) + Deliveries(subscribers, e)
      ensures events == old(events) + [e]
      ensures hook == HookStep(old(hook), e)
      ensures old(hook) == HookReplay(old(events)) ==> hook == HookReplay(events)
    {
      HookReplaySnoc(events, e);
      var i := 0;
      while i < |subscribers|
        invariant 0 <= i <= |subscribers|
        invariant delivered == old(delivered) + Deliveries(subscribers[..i], e)
        invariant events == old(events) && hook == old(hook)
      {
        assert subscribers[..i + 1][..i] == subscribers[..i];
        delivered := delivered + [(subscribers[i], e)];
        i := i + 1;
      }
      assert subscribers[..i] == subscribers;
      events := events + [e];
      hook := HookStep(hook, e);
    }

    /** Empties every buffer and its ref; nothing else changes. */
    method ClearBuffers()
      requires Valid()
      modifies this`content, this`reasoning, this`images, this`citations
      modifies this`offeredImages, this`offeredCitations
      modifies contentRef, reasoningRef, imagesRef, citationsRef
      ensures Valid()
      ensures content == "" && reasoning == "" && images == [] && citations == []
      ensures offeredImages == [] && offeredCitations == []
    {
      assert Seqs.Dedup([], ImageUrl) == [] && Seqs.Dedup([], CitationUrl) == [];
      content, reasoning, images, citations := "", "", [], [];
      offeredImages, offeredCitations := [], [];
      contentRef.current, reasoningRef.current := "", "";
      imagesRef.current, citationsRef.current := [], [];
    }

    /**
     * `startStreaming(id)`: empties every buffer and its ref, marks a stream as running for
     * `id` and emits `start`. A running stream is discarded, not merged or rejected.
     */
    method StartStreaming(id: string)
      requires Valid()
      modifies this, contentRef, reasoningRef, imagesRef, citationsRef
      ensures Valid()
      ensures State() == Snapshot("", "", [], [], true, Some(id))
      ensures subscribers == old(subscribers)
      ensures delivered == old(delivered) + Deliveries(subscribers, Start(id))
      ensures events == old(events) + [Start(id)]
    {
      ClearBuffers();
      isStreaming, conversationId := true, Some(id);
      Notify(Start(id));
    }

    /** `addContent(chunk)`: appends a truthy chunk; an empty or missing one changes nothing. */
    method AddContent(chunk: Option<string>)
      requires Valid()
      modifies this, contentRef
      ensures Valid()
      ensures State() == old(State()).(content := old(content) + chunk.GetOr(""))
      ensures subscribers == old(subscribers) && delivered == old(delivered) && events == old(events)
    {
      if Truthy(chunk) {
        content := content + chunk.value;
        contentRef.current := content;
      }
    }

    /** `addReasoning(chunk)`: the same for the reasoning buffer. */
    method AddReasoning(chunk: Option<string>)
      requires Valid()
      modifies this, reasoningRef
      ensures Valid()
      ensures State() == old(State()).(reasoning := old(reasoning) + chunk.GetOr(""))
      ensures subscribers == old(subscribers) && delivered == old(delivered) && events == old(events)
    {
      if Truthy(chunk) {
        reasoning := reasoning + chunk.value;
        reasoningRef.current := reasoning;
      }
    }

    /**
     * `addImage(image)`: appends an image whose url is not stored yet; emits nothing. The
     * image joins the offered history, whose first-seen selection the images stay.
     */
    method AddImage(image: Option<Image>)
      requires Valid()
      modifies this, imagesRef
      ensures Valid()
      ensures images == if image.Some? then Seqs.Insert(old(images), image.value, ImageUrl) else old(images)
      ensures offeredImages == old(offeredImages) + (if image.Some? then [image.value] else [])
      ensures offeredCitations == old(offeredCitations)
      ensures State() == old(State()).(images := images)
      ensures subscribers == old(subscribers) && delivered == old(delivered) && events == old(events)
    {
      if image.Some? {
        Seqs.DedupSnoc(offeredImages, image.value, ImageUrl);
        offeredImages := offeredImages + [image.value];
        Seqs.InsertKeepsUnique(images, image.value, ImageUrl);
        if !Seqs.HasKey(images, image.value.url, ImageUrl) {
          images := images + [image.value];
          imagesRef.current := images;
        }
      }
    }

    /**
     * `addCitation(citation)`: appends a citation whose url is not stored yet and then emits
     * `citations` with the new list; a duplicate changes nothing and emits nothing. The
     * citation joins the offered history.
     */
    method AddCitation(citation: Option<Citation>)
      requires Valid()
      modifies this, citationsRef
      ensures Valid()
      ensures var inserted := citation.Some? && !Seqs.HasKey(old(citations), citation.value.url, CitationUrl);
        && citations == (if inserted then old(citations) + [citation.value] else old(citations))
        && delivered == old(delivered) + (if inserted then Deliveries(subscribers, CitationsChanged(citations)) else [])
        && events == old(events) + (if inserted then [CitationsChanged(citations)] else [])
      ensures offeredCitations == old(offeredCitations) + (if citation.Some? then [citation.value] else [])
      ensures offeredImages == old(offeredImages)
      ensures State() == old(State()).(citations := citations)
      ensures subscribers == old(subscribers)
    {
      if citation.Some? {
        var inserted := OfferCitation(citation.value);
        if inserted {
          NotifyCitations();
        }
      }
    }

    /** The event part of `addCitation`: the current list is emitted; the buffers stay. */
    method NotifyCitations()
      requires Valid()
      modifies this`delivered, this`events, this`hook
      ensures Valid()
      ensures delivered == old(delivered) + Deliveries(subscribers, CitationsChanged(citations))
      ensures events == old(events) + [CitationsChanged(citations)]
    {
      Notify(CitationsChanged(citations));
    }

    /** The buffer part of `addCitation`: `c` is offered, and kept when its url is new. */
    method OfferCitation(c: Citation) returns (inserted: bool)
      requires Valid()
      modifies this`citations, this`offeredCitations, citationsRef
      ensures Valid()
      ensures inserted <==> !Seqs.HasKey(old(citations), c.url, CitationUrl)
      ensures citations == (if inserted then old(citations) + [c] else old(citations))
      ensures offeredCitations == old(offeredCitations) + [c]
    {
      Seqs.DedupSnoc(offeredCitations, c, CitationUrl);
      offeredCitations := offeredCitations + [c];
      Seqs.InsertKeepsUnique(citations, c, CitationUrl);
      inserted := !Seqs.HasKey(citations, c.url, CitationUrl);
      if inserted {
        citations := citations + [c];
        citationsRef.current := citations;
      }
    }

    /**
     * `endStreaming()`: clears the running flag, emits `end` and returns the buffers and the
     * conversation id; the buffers themselves are left as they were.
     */
    method EndStreaming() returns (r: StreamResult)
      requires Valid()
      modifies this
      ensures Valid()
      ensures r == StreamResult(old(content), old(reasoning), old(images), old(citations), old(conversationId))
      ensures State() == old(State()).(isStreaming := false)
      ensures subscribers == old(subscribers)
      ensures delivered == old(delivered) + Deliveries(subscribers, End(r))
      ensures events == old(events) + [End(r)]
    {
      isStreaming := false;
      r := StreamResult(content, reasoning, images, citations, conversationId);
      Notify(End(r));
    }

    /**
     * `getState()`: what a reader of the manager sees, which is what the refs show, with the
     * flag and the conversation id as they stand (the ended conversation after `endStreaming`,
     * none after `reset`). A stream runs exactly when the last `start` notified has not been
     * followed by an `end` or a `reset`, and then for that start's conversation.
     */
    method GetState() returns (s: Snapshot)
      requires Valid()
      ensures s.content == contentRef.current && s.reasoning == reasoningRef.current
      ensures s.images == imagesRef.current && s.citations == citationsRef.current
      ensures s.isStreaming == hook.isStreaming
      ensures s.isStreaming ==> s.conversationId == hook.conversationId
      ensures s.isStreaming == isStreaming && s.conversationId == conversationId
      ensures s.isStreaming <==> exists i :: OpenSince(events, i)
      ensures forall i :: OpenSince(events, i) ==> s.conversationId == Some(events[i].conversationId)
    {
      HookStreamingIff(events);
      s := Snapshot(content, reasoning, images, citations, isStreaming, conversationId);
    }

    /** `reset()`: empties every buffer and ref, forgets the conversation and emits `reset`. */
    method Reset()
      requires Valid()
      modifies this, contentRef, reasoningRef, imagesRef, citationsRef
      ensures Valid()
      ensures State() == Snapshot("", "", [], [], false, None)
      ensures subscribers == old(subscribers)
      ensures delivered == old(delivered) + Deliveries(subscribers, ResetEvent)
      ensures events == old(events) + [ResetEvent]
    {
      ClearBuffers();
      isStreaming, conversationId := false, None;
      Notify(ResetEvent);
    }
  }

  /** The text part of `EndToEndScenario`: content "Hel", reasoning "thinking", content "lo". */
  method FeedText(m: StreamingManager)
    requires m.Valid() && m.State() == Snapshot("", "", [], [], true, Some("c1"))
    modifies m, m.contentRef, m.reasoningRef
    ensures m.Valid() && m.State() == Snapshot("Hello", "thinking", [], [], true, Some("c1"))
  {
    m.AddContent(Some("Hel"));
    m.AddReasoning(Some("thinking"));
    m.AddContent(Some("lo"));
  }

  /** The citation part of `EndToEndScenario`: citation x, new, is kept. */
  method FeedCitation(m: StreamingManager)
    requires m.Valid() && m.State() == Snapshot("Hello", "thinking", [], [], true, Some("c1"))
    modifies m, m.citationsRef
    ensures m.Valid()
    ensures m.State() == Snapshot("Hello", "thinking", [], [Citation("x", Some("X"))], true, Some("c1"))
  {
    assert !Seqs.HasKey(m.citations, "x", CitationUrl);
    m.AddCitation(Some(Citation("x", Some("X"))));
  }

  /** The image part of `EndToEndScenario`: image a is kept once, its repeat ignored. */
  method FeedImage(m: StreamingManager)
    requires m.Valid() && m.State() == Snapshot("Hello", "thinking", [], [Citation("x", Some("X"))], true, Some("c1"))
    modifies m, m.imagesRef
    ensures m.Valid()
    ensures m.State() == Snapshot("Hello", "thinking", [Image("a")], [Citation("x", Some("X"))], true, Some("c1"))
  {
    assert !Seqs.HasKey(m.images, "a", ImageUrl);
    m.AddImage(Some(Image("a")));
    assert m.images == [Image("a")];
    assert Seqs.HasKey(m.images, "a", ImageUrl) by { assert ImageUrl(m.images[0]) == "a"; }
    m.AddImage(Some(Image("a")));
  }

  /**
   * One session fed "Hel", reasoning "thinking", "lo", citation x and image a twice: the
   * content and the reasoning are their chunks in order, the citation is kept, and the
   * duplicate image is ignored.
   */
  method EndToEndScenario() returns (r: StreamResult)
    ensures r == StreamResult("Hello", "thinking", [Image("a")], [Citation("x", Some("X"))], Some("c1"))
  {
    var m := new StreamingManager();
    m.StartStreaming("c1");
    FeedText(m);
    FeedCitation(m);
    FeedImage(m);
    r := m.EndStreaming();
  }

  /**
   * Starting again while a stream runs: the second session starts empty, so nothing of the
   * first session's content survives into it.
   */
  method RestartScenario() returns (before: string, after: Snapshot)
    ensures before == "abc"
    ensures after == Snapshot("", "", [], [], true, Some("c2"))
  {
    var m := new StreamingManager();
    m.StartStreaming("c1");
    m.AddContent(Some("abc"));
    before := m.content;
    m.StartStreaming("c2");
    after := m.GetState();
  }
}

=== FILE: text.dfy ===
/**
 * String primitives of JavaScript that the client relies on: `trim`, `toLowerCase`,
 * `toUpperCase`, `startsWith`, `includes`, `split`, `join`, `slice`, and the decimal
 * rendering of integers in template strings.
 *
 * Strings are sequences of Unicode scalar values; a JavaScript string is a sequence of
 * UTF-16 code units, and the two agree for text outside the astral planes.
 */
module Text {

  /** The characters `String.prototype.trim` removes: WhiteSpace and LineTerminator. */
  predicate IsWhitespace(c: char) {
    c == ' ' || c == '\t' || c == '\n' || c == '\r' || c == '\U{B}' || c == '\U{C}'
    || c == '\U{A0}' || c == '\U{1680}' || ('\U{2000}' <= c <= '\U{200A}')
    || c == '\U{2028}' || c == '\U{2029}' || c == '\U{202F}' || c == '\U{205F}'
    || c == '\U{3000}' || c == '\U{FEFF}'
  }

  /** Drops leading whitespace. */
  function TrimStart(s: string): (r: string)
    ensures |r| <= |s| && r == s[|s| - |r|..]
    ensures r == [] || !IsWhitespace(r[0])
    ensures forall k :: 0 <= k < |s| - |r| ==> IsWhitespace(s[k])
  {
    if |s| > 0 && IsWhitespace(s[0]) then TrimStart(s[1..]) else s
  }

  /** Drops trailing whitespace. */
  function TrimEnd(s: string): (r: string)
    ensures |r| <= |s| && r == s[..|r|]
    ensures r == [] || !IsWhitespace(r[|r| - 1])
    ensures forall k :: |r| <= k < |s| ==> IsWhitespace(s[k])
  {
    if |s| > 0 && IsWhitespace(s[|s| - 1]) then TrimEnd(s[..|s| - 1]) else s
  }

  /** `s.trim()`: the longest infix of `s` that neither starts nor ends with whitespace. */
  function Trim(s: string): (r: string)
    ensures |r| <= |s|
    ensures r == [] || (!IsWhitespace(r[0]) && !IsWhitespace(r[|r| - 1]))
  {
    TrimEnd(TrimStart(s))
  }

  /** A string that is all whitespace trims to the empty string, and only such a string does. */
  lemma TrimEmptyIff(s: string)
    ensures Trim(s) == [] <==> forall k :: 0 <= k < |s| ==> IsWhitespace(s[k])
  {
    if Trim(s) == [] {
      assert TrimStart(s) == [];
    }
  }

  /** Trimming is idempotent. */
  lemma {:induction false} TrimIdempotent(s: string)
    ensures Trim(Trim(s)) == Trim(s)
  {
    var r := Trim(s);
    if r != [] {
      assert TrimStart(r) == r;
      assert TrimEnd(r) == r;
    }
  }

  /** `toLowerCase` on one character, ASCII letters only. */
  function LowerChar(c: char): char {
    if 'A' <= c <= 'Z' then (c as int + 32) as char else c
  }

  /** `toUpperCase` on one character, ASCII letters only. */
  function UpperChar(c: char): char {
    if 'a' <= c <= 'z' then (c as int - 32) as char else c
  }

  /** `s.toLowerCase()` restricted to ASCII case folding. */
  function Lower(s: string): (r: string)
    ensures |r| == |s|
    ensures forall k :: 0 <= k < |s| ==> r[k] == LowerChar(s[k])
  {
    if s == [] then [] else [LowerChar(s[0])] + Lower(s[1..])
  }

  /** `s.toUpperCase()` restricted to ASCII case folding. */
  function Upper(s: string): (r: string)
    ensures |r| == |s|
    ensures forall k :: 0 <= k < |s| ==> r[k] == UpperChar(s[k])
  {
    if s == [] then [] else [UpperChar(s[0])] + Upper(s[1..])
  }

  /** Lower-casing is idempotent. */
  lemma LowerIdempotent(s: string)
    ensures Lower(Lower(s)) == Lower(s)
  {
    assert forall k :: 0 <= k < |s| ==> LowerChar(LowerChar(s[k])) == LowerChar(s[k]);
  }

  /** The characters a regular expression treats as ending a line (for `.`, `^` and `$`). */
  predicate IsLineTerminator(c: char) {
    c == '\n' || c == '\r' || c == '\U{2028}' || c == '\U{2029}'
  }

  /** `sub` occurs in `s` starting at index `i`. */
  predicate OccursAt(s: string, sub: string, i: int) {
    0 <= i <= |s| - |sub| && s[i..i + |sub|] == sub
  }

  /** `s.includes(sub)`. */
  predicate Contains(s: string, sub: string) {
    exists i :: 0 <= i <= |s| - |sub| && OccursAt(s, sub, i)
  }

  /** Every string includes the empty string. */
  lemma ContainsEmpty(s: string)
    ensures Contains(s, "")
  {
    assert OccursAt(s, "", 0);
  }

  /** Lower-casing both sides keeps an occurrence: an exact match is also a case-insensitive one. */
  lemma LowerContains(s: string, sub: string)
    requires Contains(s, sub)
    ensures Contains(Lower(s), Lower(sub))
  {
    var i :| 0 <= i <= |s| - |sub| && OccursAt(s, sub, i);
    var ls, lsub := Lower(s), Lower(sub);
    forall k | 0 <= k < |sub|
      ensures ls[i + k] == lsub[k]
    {
      assert s[i + k] == s[i..i + |sub|][k];
    }
    assert ls[i..i + |sub|] == lsub;
    assert OccursAt(ls, lsub, i);
  }

  /** A string includes itself. */
  lemma ContainsSelf(s: string)
    ensures Contains(s, s)
  {
    assert OccursAt(s, s, 0);
  }

  /** `s.slice(0, n)` for a non-negative `n`. */
  function Take(s: string, n: nat): (r: string)
    ensures |r| == if |s| <= n then |s| else n
    ensures r <= s
  {
    if |s| <= n then s else s[..n]
  }

  /** `s.split(sep)` for a one-character separator. */
  function Split(s: string, sep: char): (r: seq<string>)
    ensures |r| >= 1
    decreases |s|
  {
    if s == [] then [[]]
    else
      var rest := Split(s[1..], sep);
      if s[0] == sep then [[]] + rest
      else [[s[0]] + rest[0]] + rest[1..]
  }

  /** `parts.join(sep)`. */
  function Join(parts: seq<string>, sep: string): string {
    if |parts| == 0 then ""
    else if |parts| == 1 then parts[0]
    else parts[0] + sep + Join(parts[1..], sep)
  }

  /** `parts.join('')`: the concatenation of `parts`, built from the end. */
  /** Every part occurs in the joined string. */
  lemma {:induction false} JoinContains(parts: seq<string>, sep: string, i: nat)
    requires i < |parts|
    ensures Contains(Join(parts, sep), parts[i])
    decreases i
  {
    var j := Join(parts, sep);
    if i == 0 {
      assert OccursAt(j, parts[0], 0) by {
        if |parts| > 1 {
          assert j == parts[0] + (sep + Join(parts[1..], sep));
        }
      }
    } else {
      var rest := Join(parts[1..], sep);
      JoinContains(parts[1..], sep, i - 1);
      var k :| 0 <= k <= |rest| - |parts[i]| && OccursAt(rest, parts[i], k);
      var off := |parts[0]| + |sep|;
      assert j == (parts[0] + sep) + rest;
      assert j[off + k..off + k + |parts[i]|] == rest[k..k + |parts[i]|];
      assert OccursAt(j, parts[i], off + k);
    }
  }

  function Concat(parts: seq<string>): string {
    if parts == [] then "" else Concat(parts[..|parts| - 1]) + parts[|parts| - 1]
  }

  /** Concatenation distributes over appending sequences of strings. */
  lemma {:induction false} ConcatAppend(a: seq<string>, b: seq<string>)
    ensures Concat(a + b) == Concat(a) + Concat(b)
    decreases |b|
  {
    if b != [] {
      var b' := b[..|b| - 1];
      assert (a + b)[..|a + b| - 1] == a + b';
      ConcatAppend(a, b');
    } else {
      assert a + b == a;
    }
  }

  /** One more part of a prefix adds its text at the end. */
  lemma ConcatPrefix(parts: seq<string>, k: nat)
    requires k < |parts|
    ensures Concat(parts[..k + 1]) == Concat(parts[..k]) + parts[k]
  {
    assert parts[..k + 1][..k] == parts[..k];
  }

  /** A sequence of pieces is its pieces but the last, then the last. */
  lemma LastPiece(pieces: seq<string>)
    requires |pieces| >= 1
    ensures ButLast(pieces) + [Last(pieces)] == pieces
  {
  }

  /** A string without the separator splits into itself alone. */
  lemma {:induction false} SplitNoSeparator(s: string, sep: char)
    requires sep !in s
    ensures Split(s, sep) == [s]
    decreases |s|
  {
    if s != [] {
      SplitNoSeparator(s[1..], sep);
      assert [s[0]] + s[1..] == s;
    }
  }

  /** One step of `Split`: the first character either closes a piece or joins the first one. */
  lemma SplitCons(c: char, s: string, sep: char)
    ensures Split([c] + s, sep)
         == if c == sep then [[]] + Split(s, sep) else [[c] + Split(s, sep)[0]] + Split(s, sep)[1..]
  {
    assert ([c] + s)[1..] == s;
  }

  /** `SplitCons` for a character in front of a concatenation. */
  lemma SplitConsAppend(c: char, a: string, b: string, sep: char)
    ensures Split([c] + a + b, sep)
         == if c == sep then [[]] + Split(a + b, sep) else [[c] + Split(a + b, sep)[0]] + Split(a + b, sep)[1..]
  {
    assert [c] + a + b == [c] + (a + b);
    SplitCons(c, a + b, sep);
  }

  /** All pieces but the last. */
  function ButLast(pieces: seq<string>): seq<string>
    requires |pieces| >= 1
  {
    pieces[..|pieces| - 1]
  }

  /** The last piece. */
  function Last(pieces: seq<string>): string
    requires |pieces| >= 1
  {
    pieces[|pieces| - 1]
  }

  /**
   * Splitting a concatenation: the complete pieces of `a`, then the split of what is left
   * of `a` after its last separator, followed by `b`.
   */
  lemma {:induction false} SplitAppend(a: string, b: string, sep: char)
    ensures Split(a + b, sep) == ButLast(Split(a, sep)) + Split(Last(Split(a, sep)) + b, sep)
    decreases |a|
  {
    if a == [] {
      assert a + b == b;
    } else {
      var c, a' := a[0], a[1..];
      assert a == [c] + a';
      assert a + b == [c] + (a' + b);
      SplitAppend(a', b, sep);
      SplitAppendStep(c, a', b, sep);
    }
  }

  /** The inductive step of `SplitAppend`: one more character in front of `a`. */
  lemma SplitAppendStep(c: char, a: string, b: string, sep: char)
    requires Split(a + b, sep) == ButLast(Split(a, sep)) + Split(Last(Split(a, sep)) + b, sep)
    ensures Split([c] + a + b, sep)
         == ButLast(Split([c] + a, sep)) + Split(Last(Split([c] + a, sep)) + b, sep)
  {
    if c == sep {
      StepAtSeparator(c, a, b, sep);
    } else if |Split(a, sep)| == 1 {
      StepInFirstPiece(c, a, b, sep);
    } else {
      StepBeforeSeparator(c, a, b, sep);
    }
  }

  /** `SplitAppendStep` when the new character is the separator. */
  lemma StepAtSeparator(c: char, a: string, b: string, sep: char)
    requires c == sep
    requires Split(a + b, sep) == ButLast(Split(a, sep)) + Split(Last(Split(a, sep)) + b, sep)
    ensures Split([c] + a + b, sep)
         == ButLast(Split([c] + a, sep)) + Split(Last(Split([c] + a, sep)) + b, sep)
  {
    SplitConsAppend(c, a, b, sep);
    SplitCons(c, a, sep);
    StepSeparator(Split(a, sep), Split(a + b, sep), Split(Last(Split(a, sep)) + b, sep));
  }

  /** `SplitAppendStep` when `a` holds no separator, so `c` joins its only piece. */
  lemma StepInFirstPiece(c: char, a: string, b: string, sep: char)
    requires c != sep && |Split(a, sep)| == 1
    requires Split(a + b, sep) == ButLast(Split(a, sep)) + Split(Last(Split(a, sep)) + b, sep)
    ensures Split([c] + a + b, sep)
         == ButLast(Split([c] + a, sep)) + Split(Last(Split([c] + a, sep)) + b, sep)
  {
    SplitConsAppend(c, a, b, sep);
    SplitCons(c, a, sep);
    SplitConsAppend(c, Last(Split(a, sep)), b, sep);
    StepOnePiece(c, Split(a, sep), Split(a + b, sep), Split(Last(Split(a, sep)) + b, sep));
  }

  /** `SplitAppendStep` when `a` holds a separator, so `c` joins a piece that is complete. */
  lemma StepBeforeSeparator(c: char, a: string, b: string, sep: char)
    requires c != sep && |Split(a, sep)| >= 2
    requires Split(a + b, sep) == ButLast(Split(a, sep)) + Split(Last(Split(a, sep)) + b, sep)
    ensures Split([c] + a + b, sep)
         == ButLast(Split([c] + a, sep)) + Split(Last(Split([c] + a, sep)) + b, sep)
  {
    SplitConsAppend(c, a, b, sep);
    SplitCons(c, a, sep);
    StepLongPiece(c, Split(a, sep), Split(a + b, sep), Split(Last(Split(a, sep)) + b, sep));
  }

  /** Sequence bookkeeping for `SplitAppendStep` when the new character is a separator. */
  lemma StepSeparator(sa: seq<string>, sab: seq<string>, t: seq<string>)
    requires |sa| >= 1 && sab == ButLast(sa) + t
    ensures [[]] + sab == ButLast([[]] + sa) + t
    ensures Last([[]] + sa) == Last(sa)
  {
    assert ButLast([[]] + sa) == [[]] + ButLast(sa);
  }

  /** Sequence bookkeeping for `SplitAppendStep` when `a` is one piece. */
  lemma StepOnePiece(c: char, sa: seq<string>, sab: seq<string>, t: seq<string>)
    requires |sa| == 1 && sab == ButLast(sa) + t
    ensures sab == t
    ensures ButLast([[c] + sa[0]] + sa[1..]) == []
    ensures Last([[c] + sa[0]] + sa[1..]) == [c] + Last(sa)
  {
  }

  /** Sequence bookkeeping for `SplitAppendStep` when `a` holds a separator. */
  lemma StepLongPiece(c: char, sa: seq<string>, sab: seq<string>, t: seq<string>)
    requires |sa| >= 2 && sab == ButLast(sa) + t
    ensures [[c] + sab[0]] + sab[1..] == ButLast([[c] + sa[0]] + sa[1..]) + t
    ensures Last([[c] + sa[0]] + sa[1..]) == Last(sa)
  {
    assert sab[0] == sa[0];
    assert sab[1..] == ButLast(sa)[1..] + t;
    assert ButLast([[c] + sa[0]] + sa[1..]) == [[c] + sa[0]] + ButLast(sa)[1..];
  }

  /** A separator-free prefix followed by a separator is split off as one piece. */
  lemma {:induction false} SplitAfterPiece(piece: string, tail: string, sep: char)
    requires sep !in piece
    ensures Split(piece + [sep] + tail, sep) == [piece] + Split(tail, sep)
    decreases |piece|
  {
    if piece == [] {
      assert piece + [sep] + tail == [sep] + tail;
      SplitCons(sep, tail, sep);
    } else {
      var c, p' := piece[0], piece[1..];
      assert piece + [sep] + tail == [c] + (p' + [sep] + tail);
      SplitAfterPiece(p', tail, sep);
      SplitCons(c, p' + [sep] + tail, sep);
      assert [c] + p' == piece;
    }
  }

  /** No piece holds the separator. */
  lemma {:induction false} SplitPiecesFree(s: string, sep: char)
    ensures forall i :: 0 <= i < |Split(s, sep)| ==> sep !in Split(s, sep)[i]
    decreases |s|
  {
    if s != [] {
      SplitPiecesFree(s[1..], sep);
    }
  }

  /**
   * Splitting a string whose split is known: the known complete pieces stay, and the last
   * piece is split again with `b` after it.
   */
  lemma SplitAfterKnown(a: string, b: string, complete: seq<string>, last: string, sep: char)
    requires Split(a, sep) == complete + [last]
    ensures Split(a + b, sep) == complete + Split(last + b, sep)
  {
    SplitAppend(a, b, sep);
    assert ButLast(complete + [last]) == complete;
  }

  /** A string that ends with the separator splits into the pieces before it, then "". */
  lemma SplitEndsWithSeparator(a: string, sep: char)
    ensures |Split(a + [sep], sep)| >= 1
    ensures ButLast(Split(a + [sep], sep)) == Split(a, sep)
    ensures Last(Split(a + [sep], sep)) == []
  {
    SplitAppend(a, [sep], sep);
    var l := Last(Split(a, sep));
    SplitPiecesFree(a, sep);
    SplitAfterPiece(l, [], sep);
    assert l + [sep] + [] == l + [sep];
  }

  /** Splitting then joining on the same separator gives back the string. */
  lemma {:induction false} JoinSplit(s: string, sep: char)
    ensures Join(Split(s, sep), [sep]) == s
    decreases |s|
  {
    if s != [] {
      JoinSplit(s[1..], sep);
      var rest := Split(s[1..], sep);
      if s[0] != sep && |rest| > 1 {
        assert Join(rest, [sep]) == rest[0] + [sep] + Join(rest[1..], [sep]);
      }
    }
  }

  /** The first piece is the text before the first separator, or the whole string without one. */
  lemma {:induction false} SplitFirstPiece(s: string, sep: char)
    ensures Split(s, sep)[0] <= s && sep !in Split(s, sep)[0]
    ensures |Split(s, sep)[0]| < |s| ==> s[|Split(s, sep)[0]|] == sep
    decreases |s|
  {
    if s != [] && s[0] != sep {
      SplitFirstPiece(s[1..], sep);
      assert Split(s, sep)[0] == [s[0]] + Split(s[1..], sep)[0];
    }
  }

  /**
   * `x` is what follows the last separator of `s`: a suffix of `s` free of the separator,
   * preceded in `s` by the separator unless it is all of `s`.
   */
  predicate AfterLastSeparator(s: string, x: string, sep: char) {
    |x| <= |s| && x == s[|s| - |x|..] && sep !in x && (|x| < |s| ==> s[|s| - |x| - 1] == sep)
  }

  lemma {:induction false} SplitLastPiece(s: string, sep: char)
    ensures AfterLastSeparator(s, Last(Split(s, sep)), sep)
    ensures |Split(s, sep)| == 1 ==> Last(Split(s, sep)) == s
    decreases |s|, 1
  {
    if s != [] {
      assert s == [s[0]] + s[1..];
      SplitLastPieceCons(s[0], s[1..], sep);
    }
  }

  lemma {:induction false} SplitLastPieceCons(c: char, t: string, sep: char)
    ensures AfterLastSeparator([c] + t, Last(Split([c] + t, sep)), sep)
    ensures |Split([c] + t, sep)| == 1 ==> Last(Split([c] + t, sep)) == [c] + t
    decreases |t| + 1, 0
  {
    SplitLastPiece(t, sep);
    if sep !in t {
      SplitNoSeparator(t, sep);
    }
    SplitCons(c, t, sep);
    LastPieceCons(c, t, Split(t, sep), sep);
  }

  /** The last-piece facts for `t`'s pieces carry over to the pieces of `[c] + t`. */
  lemma LastPieceCons(c: char, t: string, rest: seq<string>, sep: char)
    requires |rest| >= 1 && AfterLastSeparator(t, Last(rest), sep)
    requires |rest| == 1 ==> Last(rest) == t
    requires sep !in t ==> rest == [t]
    ensures var r := if c == sep then [[]] + rest else [[c] + rest[0]] + rest[1..];
            AfterLastSeparator([c] + t, Last(r), sep) && (|r| == 1 ==> Last(r) == [c] + t)
  {
    if c != sep && |rest| == 1 {
      AfterLastSeparatorWhole(c, t, sep);
    } else {
      AfterLastSeparatorCons(c, t, Last(rest), sep);
    }
  }

  lemma AfterLastSeparatorCons(c: char, t: string, x: string, sep: char)
    requires AfterLastSeparator(t, x, sep)
    requires c == sep || |x| < |t|
    ensures AfterLastSeparator([c] + t, x, sep)
  {
    assert ([c] + t)[1..] == t;
  }

  lemma AfterLastSeparatorWhole(c: char, t: string, sep: char)
    requires c != sep && AfterLastSeparator(t, t, sep)
    ensures AfterLastSeparator([c] + t, [c] + t, sep)
  {
  }

  /** Joining pieces free of the separator, then splitting, gives back the pieces. */
  lemma {:induction false} SplitJoin(parts: seq<string>, sep: char)
    requires |parts| >= 1
    requires forall i :: 0 <= i < |parts| ==> sep !in parts[i]
    ensures Split(Join(parts, [sep]), sep) == parts
    decreases |parts|
  {
    if |parts| == 1 {
      SplitNoSeparator(parts[0], sep);
    } else {
      var rest := parts[1..];
      SplitJoin(rest, sep);
      assert Join(parts, [sep]) == parts[0] + [sep] + Join(rest, [sep]);
      SplitAfterPiece(parts[0], Join(rest, [sep]), sep);
      assert [parts[0]] + rest == parts;
    }
  }

  /** The decimal digit for 0..9. */
  function DigitChar(d: nat): char
    requires d < 10
  {
    "0123456789"[d]
  }

  /** `String(n)` for a natural number: its decimal digits, no leading zero. */
  function NatToString(n: nat): (r: string)
    ensures |r| >= 1
    ensures forall k :: 0 <= k < |r| ==> '0' <= r[k] <= '9'
    ensures |r| > 1 ==> r[0] != '0'
  {
    if n < 10 then [DigitChar(n)] else NatToString(n / 10) + [DigitChar(n % 10)]
  }

  /** `String(i)` for an integer: a minus sign before the digits of a negative number. */
  function IntToString(i: int): (r: string)
    ensures |r| >= 1
    ensures (r[0] == '-') <==> i < 0
  {
    if i < 0 then "-" + NatToString(-i) else NatToString(i)
  }
}

=== FILE: theme.dfy ===
/**
 * The theme switch of src/hooks/useTheme.js: the button cycles light, dark, system; the
 * `dark` class follows the chosen theme, or the system preference in `system` mode. The
 * preference is a parameter; the class list and the media-query listener are not modelled.
 */
module Theme {
  const Light := "light"
  const Dark := "dark"
  const System := "system"

  /** The three themes the switch offers. */
  predicate IsTheme(t: string) {
    t == Light || t == Dark || t == System
  }

  /** `toggleTheme`'s update: light to dark, dark to system, anything else to light. */
  function Toggle(prev: string): (next: string)
    ensures IsTheme(next)
    ensures prev == Light ==> next == Dark
    ensures prev == Dark ==> next == System
    ensures prev != Light && prev != Dark ==> next == Light
  {
    if prev == Light then Dark
    else if prev == Dark then System
    else Light
  }

  /**
   * Three presses bring any of the three themes back, passing through the other two; any
   * other stored value joins the cycle at light after one press.
   */
  lemma ToggleCycle(t: string)
    ensures IsTheme(t) ==> Toggle(Toggle(Toggle(t))) == t
    ensures Toggle(Toggle(Toggle(Toggle(t)))) == Toggle(t)
    ensures IsTheme(t) ==> Toggle(t) != t && Toggle(Toggle(t)) != t
  {
    assert Light[0] != Dark[0] && Dark[0] != System[0] && System[0] != Light[0];
  }

  /** Whether the `dark` class is applied: the system preference in system mode, else the theme itself. */
  function DarkClass(theme: string, systemPrefersDark: bool): (dark: bool)
    ensures theme != System ==> (dark <==> theme == Dark)
    ensures theme == System ==> dark == systemPrefersDark
  {
    if theme == System then systemPrefersDark else theme == Dark
  }
}

=== FILE: theme_color.dfy ===
/**
 * The colour arithmetic of src/hooks/useThemeColor.js: parsing a `#rrggbb` accent colour and
 * deriving a lighter or darker `rgb(...)` variant from it. Numbers are exact reals; setting the
 * CSS custom properties is not modelled.
 */
module ThemeColor {
  import opened Wrappers
  import opened Text

  datatype Rgb = Rgb(r: int, g: int, b: int)

  /** `[a-f\d]` under the `i` flag. */
  predicate IsHexDigit(c: char) {
    '0' <= c <= '9' || 'a' <= c <= 'f' || 'A' <= c <= 'F'
  }

  function HexValue(c: char): (v: nat)
    requires IsHexDigit(c)
    ensures v < 16
  {
    if '0' <= c <= '9' then (c - '0') as nat
    else if 'a' <= c <= 'f' then (c - 'a') as nat + 10
    else (c - 'A') as nat + 10
  }

  /** `parseInt(pair, 16)` for two hex digits. */
  function PairValue(hi: char, lo: char): (v: nat)
    requires IsHexDigit(hi) && IsHexDigit(lo)
    ensures v <= 255
  {
    16 * HexValue(hi) + HexValue(lo)
  }

  predicate AllHex(s: string) {
    forall k :: 0 <= k < |s| ==> IsHexDigit(s[k])
  }

  /** The six digits matched by `^#?([a-f\d]{2})([a-f\d]{2})([a-f\d]{2})$`, if the text matches. */
  function HexDigits(hex: string): (d: Option<string>)
    ensures d.Some? ==> |d.value| == 6 && AllHex(d.value)
    ensures d.Some? <==> (|hex| == 6 && AllHex(hex)) || (|hex| == 7 && hex[0] == '#' && AllHex(hex[1..]))
    ensures d.Some? ==> d.value == hex[|hex| - 6..]
  {
    if |hex| == 6 && AllHex(hex) then Some(hex)
    else if |hex| == 7 && hex[0] == '#' && AllHex(hex[1..]) then Some(hex[1..])
    else None
  }

  /** `hexToRgb`: the three channels, or nothing when the text is not a six-digit colour. */
  function HexToRgb(hex: string): (c: Option<Rgb>)
    ensures c.Some? <==> HexDigits(hex).Some?
    ensures c.Some? ==> 0 <= c.value.r <= 255 && 0 <= c.value.g <= 255 && 0 <= c.value.b <= 255
  {
    match HexDigits(hex)
    case None => None
    case Some(d) => Some(Rgb(PairValue(d[0], d[1]), PairValue(d[2], d[3]), PairValue(d[4], d[5])))
  }

  /** Three-digit shorthand, and any other length but six or seven, is refused. */
  lemma ShorthandRefused(hex: string)
    requires |hex| != 6 && |hex| != 7
    ensures HexToRgb(hex).None?
  {
  }

  /** Lower-case hex digit for 0..15. */
  function HexChar(v: nat): (c: char)
    requires v < 16
    ensures IsHexDigit(c) && HexValue(c) == v
  {
    if v < 10 then ('0' as int + v) as char else ('a' as int + v - 10) as char
  }

  /** The `#rrggbb` spelling of a colour whose channels are in 0..255. */
  function ToHex(c: Rgb): (hex: string)
    requires 0 <= c.r <= 255 && 0 <= c.g <= 255 && 0 <= c.b <= 255
    ensures |hex| == 7 && hex[0] == '#' && AllHex(hex[1..])
  {
    "#" + [HexChar(c.r / 16), HexChar(c.r % 16), HexChar(c.g / 16), HexChar(c.g % 16),
           HexChar(c.b / 16), HexChar(c.b % 16)]
  }

  /** Parsing reads back every colour spelled as `#rrggbb`, and also without the `#`. */
  lemma HexToRgbToHex(c: Rgb)
    requires 0 <= c.r <= 255 && 0 <= c.g <= 255 && 0 <= c.b <= 255
    ensures HexToRgb(ToHex(c)) == Some(c)
    ensures HexToRgb(ToHex(c)[1..]) == Some(c)
  {
    var hex := ToHex(c);
    assert HexDigits(hex) == Some(hex[1..]);
    assert HexDigits(hex[1..]) == Some(hex[1..]);
  }

  /** `Math.round`: the nearest integer, halves rounded up. */
  function Round(x: real): (n: int)
    ensures x - 0.5 < n as real <= x + 0.5
  {
    (x + 0.5).Floor
  }

  /** The `adjust` helper: move toward white by `percent` and round, clamped to 0..255. */
  function Lighten(v: int, percent: real): (c: int)
    ensures 0 <= c <= 255
    ensures 0 <= v <= 255 && 0.0 <= percent ==> v <= c
    ensures 0 <= v <= 255 && percent == 100.0 ==> c == 255
  {
    MulNonNegative((255 - v) as real, percent / 100.0);
    var adjusted := Round(v as real + (255 - v) as real * (percent / 100.0));
    if adjusted > 255 then 255 else if adjusted < 0 then 0 else adjusted
  }

  /** The `darken` helper: scale by `1 + percent / 100` and round, without clamping. */
  function Darken(v: int, percent: real): (c: int)
    ensures percent == 0.0 ==> c == v
    ensures 0 <= v && -100.0 <= percent <= 0.0 ==> 0 <= c <= v
  {
    ScaleWithin(v as real, 1.0 + percent / 100.0);
    Round(v as real * (1.0 + percent / 100.0))
  }

  lemma MulNonNegative(x: real, y: real)
    ensures 0.0 <= x && 0.0 <= y ==> 0.0 <= x * y
  {
  }

  /** Scaling a non-negative number by a factor in 0..1 keeps it between 0 and itself. */
  lemma ScaleWithin(x: real, f: real)
    ensures 0.0 <= x && 0.0 <= f <= 1.0 ==> 0.0 <= x * f <= x
  {
    assert x - x * f == x * (1.0 - f);
  }

  /** `rgb(r, g, b)`. */
  function RgbString(r: int, g: int, b: int): string {
    "rgb(" + IntToString(r) + ", " + IntToString(g) + ", " + IntToString(b) + ")"
  }

  /**
   * `adjustColor`: an unparsable colour is returned as given; a positive percentage lightens
   * each channel, any other percentage darkens it.
   */
  function AdjustColor(hex: string, percent: real): (out: string)
    ensures HexToRgb(hex).None? ==> out == hex
    ensures HexToRgb(hex).Some? && percent > 0.0 ==>
              var c := HexToRgb(hex).value;
              out == RgbString(Lighten(c.r, percent), Lighten(c.g, percent), Lighten(c.b, percent))
    ensures HexToRgb(hex).Some? && percent <= 0.0 ==>
              var c := HexToRgb(hex).value;
              out == RgbString(Darken(c.r, percent), Darken(c.g, percent), Darken(c.b, percent))
  {
    match HexToRgb(hex)
    case None => hex
    case Some(c) =>
      if percent > 0.0 then RgbString(Lighten(c.r, percent), Lighten(c.g, percent), Lighten(c.b, percent))
      else RgbString(Darken(c.r, percent), Darken(c.g, percent), Darken(c.b, percent))
  }

  /** A zero adjustment spells the parsed colour itself in `rgb(...)` form. */
  lemma AdjustByZero(hex: string)
    requires HexToRgb(hex).Some?
    ensures AdjustColor(hex, 0.0) == RgbString(HexToRgb(hex).value.r, HexToRgb(hex).value.g, HexToRgb(hex).value.b)
  {
  }

  /** The hover colour (`adjustColor(accent, 20)`) is never darker than the accent, channel by channel. */
  lemma HoverIsLighter(hex: string)
    requires HexToRgb(hex).Some?
    ensures var c := HexToRgb(hex).value;
            AdjustColor(hex, 20.0) == RgbString(Lighten(c.r, 20.0), Lighten(c.g, 20.0), Lighten(c.b, 20.0))
            && c.r <= Lighten(c.r, 20.0) && c.g <= Lighten(c.g, 20.0) && c.b <= Lighten(c.b, 20.0)
  {
  }
}

=== FILE: url_sync.dfy ===
/**
 * The decisions of src/hooks/useUrlSync.js, which keeps the browser path and the active
 * conversation in step: the `/conversation/<id>` route, the path expected for the active
 * conversation, the page title, and what happens on mount and on back/forward navigation.
 * The effects themselves (`navigate`, `document.title`) are returned as values.
 */
module UrlSync {
  import opened Wrappers
  import opened Text
  import Conversations

  type Conversation = Conversations.Conversation

  const AppName := "LLM Client"
  const TitleSeparator := " - "
  const ConversationRoute := "/conversation/"
  const HomePath := "/"

  /** Text that `.` matches throughout: no line terminator. */
  predicate SingleLine(s: string) {
    forall k :: 0 <= k < |s| ==> !IsLineTerminator(s[k])
  }

  /** An id the route can carry: non-empty and on one line. */
  predicate RoutableId(id: string) {
    id != "" && SingleLine(id)
  }

  /** `pathname.match(/^\/conversation\/(.+)$/)`: the captured id, or no match. */
  function MatchPath(path: string): (r: Option<string>)
    ensures r.Some? ==> RoutableId(r.value) && ConversationRoute + r.value == path
    ensures forall id :: RoutableId(id) && path == ConversationRoute + id ==> r == Some(id)
  {
    assert forall id :: path == ConversationRoute + id ==>
             path[..|ConversationRoute|] == ConversationRoute && path[|ConversationRoute|..] == id;
    assert |path| >= |ConversationRoute| ==>
             path == path[..|ConversationRoute|] + path[|ConversationRoute|..];
    if |path| > |ConversationRoute| && path[..|ConversationRoute|] == ConversationRoute
       && SingleLine(path[|ConversationRoute|..])
    then Some(path[|ConversationRoute|..])
    else None
  }

  /** The path the active conversation calls for: its route, or `/` when none is active. */
  function ExpectedPath(active: Option<string>): (r: string)
    ensures r == HomePath <==> !Truthy(active)
    ensures Truthy(active) && SingleLine(active.value) ==> MatchPath(r) == active
  {
    if Truthy(active) then ConversationRoute + active.value else HomePath
  }

  /** A routable id survives the trip through its path. */
  lemma MatchExpectedPath(id: string)
    requires RoutableId(id)
    ensures MatchPath(ExpectedPath(Some(id))) == Some(id)
  {
    var p := ConversationRoute + id;
    assert p[..|ConversationRoute|] == ConversationRoute && p[|ConversationRoute|..] == id;
  }

  /** Conversely, a matched path is the expected path of the id it carries. */
  lemma MatchedPathIsExpected(path: string)
    requires MatchPath(path).Some?
    ensures RoutableId(MatchPath(path).value)
    ensures ExpectedPath(Some(MatchPath(path).value)) == path
  {
    assert path == path[..|ConversationRoute|] + path[|ConversationRoute|..];
  }

  /** The home path, and the bare route without an id, match nothing. */
  lemma HomeDoesNotMatch()
    ensures MatchPath(HomePath).None?
    ensures MatchPath(ConversationRoute).None?
  {
  }

  /** Navigation is issued only when the current path differs from the expected path. */
  function SyncNavigation(currentPath: string, active: Option<string>): (target: Option<string>)
    ensures target.Some? <==> currentPath != ExpectedPath(active)
    ensures target.Some? ==> target.value == ExpectedPath(active)
  {
    if currentPath != ExpectedPath(active) then Some(ExpectedPath(active)) else None
  }

  /** `conversations.some(c => c.id === id)`. */
  predicate Known(cs: seq<Conversation>, id: string) {
    exists i :: 0 <= i < |cs| && cs[i].id == id
  }

  /** What mounting does. */
  datatype MountAction = KeepActive | Activate(id: string) | RedirectHome

  /**
   * On mount: a matched, known id that is not already active becomes active; a matched
   * unknown id redirects to `/` (replacing the history entry); anything else changes nothing.
   */
  function MountDecision(path: string, cs: seq<Conversation>, active: Option<string>): (a: MountAction)
    ensures a.Activate? <==> MatchPath(path).Some? && Known(cs, MatchPath(path).value)
                             && active != Some(MatchPath(path).value)
    ensures a.Activate? ==> a.id == MatchPath(path).value
    ensures a.RedirectHome? <==> MatchPath(path).Some? && !Known(cs, MatchPath(path).value)
  {
    match MatchPath(path)
    case None => KeepActive
    case Some(id) =>
      if Known(cs, id) && active != Some(id) then Activate(id)
      else if !Known(cs, id) then RedirectHome
      else KeepActive
  }

  /** The active id after a mount decision. */
  function ActiveAfterMount(a: MountAction, active: Option<string>): Option<string> {
    if a.Activate? then Some(a.id) else active
  }

  /**
   * After mounting on a known conversation's route, the URL already is the expected path:
   * the synchronising effect issues no navigation, so the two effects do not fight.
   */
  lemma MountOnKnownRouteIsQuiet(path: string, cs: seq<Conversation>, active: Option<string>)
    requires MatchPath(path).Some? && Known(cs, MatchPath(path).value)
    ensures ActiveAfterMount(MountDecision(path, cs, active), active) == Some(MatchPath(path).value)
    ensures SyncNavigation(path, ActiveAfterMount(MountDecision(path, cs, active), active)).None?
  {
    MatchedPathIsExpected(path);
  }

  /** What a back/forward navigation does to the active id. */
  datatype PopAction = SetActive(id: Option<string>) | Ignore

  /**
   * On popstate: a path off the route clears the active id; a known id becomes active; an
   * unknown id is ignored.
   */
  function PopDecision(path: string, cs: seq<Conversation>): (a: PopAction)
    ensures MatchPath(path).None? ==> a == SetActive(None)
    ensures MatchPath(path).Some? && Known(cs, MatchPath(path).value) ==> a == SetActive(MatchPath(path))
    ensures MatchPath(path).Some? && !Known(cs, MatchPath(path).value) ==> a == Ignore
  {
    match MatchPath(path)
    case None => SetActive(None)
    case Some(id) => if Known(cs, id) then SetActive(Some(id)) else Ignore
  }

  /**
   * Going back to `/` or to a known conversation leaves the URL where the active id expects
   * it: the synchronising effect then issues no navigation.
   */
  lemma PopToHomeOrKnownIsQuiet(path: string, cs: seq<Conversation>)
    requires path == HomePath || (MatchPath(path).Some? && Known(cs, MatchPath(path).value))
    ensures PopDecision(path, cs).SetActive?
    ensures SyncNavigation(path, PopDecision(path, cs).id).None?
  {
    if path == HomePath {
      HomeDoesNotMatch();
    } else {
      MatchedPathIsExpected(path);
    }
  }

  /** `document.title`: the active conversation's title with the app name, or the app name alone. */
  function PageTitle(cs: seq<Conversation>, active: Option<string>): (t: string)
    ensures active.Some? && Known(cs, active.value) ==>
              exists i :: 0 <= i < |cs| && cs[i].id == active.value
                          && (forall j :: 0 <= j < i ==> cs[j].id != active.value)
                          && t == cs[i].title + TitleSeparator + AppName
    ensures !(active.Some? && Known(cs, active.value)) ==> t == AppName
  {
    if active.None? then AppName
    else
      Conversations.FindByIdSpec(cs, active.value);
      match Conversations.FindById(cs, active.value)
      case Some(c) => c.title + TitleSeparator + AppName
      case None => AppName
  }
}

=== FILE: wrappers.dfy ===
/** The Option and Result types shared by every module. */
module Wrappers {

  /** A value that may be absent: JavaScript's `null` / `undefined`. */
  datatype Option<+T> = None | Some(value: T) {
    function GetOr(default: T): T {
      match this
      case Some(v) => v
      case None => default
    }
  }

  /** The outcome of an operation that may throw: `Failure` carries the error message. */
  datatype Result<+T, +E> = Success(value: T) | Failure(error: E)

  /** JavaScript truthiness of a possibly-missing string: present and non-empty. */
  predicate Truthy(s: Option<string>) {
    s.Some? && s.value != ""
  }
}
